=== FILE: README.md ===
# PublicTransportInfo core, modelled in Dafny

PublicTransportInfo shows the arrivals and departures of a few train and bus stations of the
RMV (Rhein-Main-Verkehrsverbund) network. This project models the core of that application:

- **the cache** (`CacheEntry`, `Cache`): named JSON records stored below a base directory,
  each holding a payload, the subject it is for, a create timestamp and a lifetime;
- **the station info cache and loader** (`StationInfoCache`, `StationInfoLoader`): the cached
  arrivals or departures of one station, trimmed to the asked time window, and a fetch when
  the cache misses;
- **the time logic** (`RelativeTimeSpan`, `DisplayModeSelector`, `DateIntervalConverter`):
  the window around a reference time, which board the display shows at which time, and
  intervals turned into seconds and rounded minutes;
- **the RMV requests** (`StationBoardRequest` with its arrival and departure board kinds):
  setters, validation and the query parameters they produce;
- **the RMV fetcher and parser** (`RmvStationInfoFetcher`, `RmvInfoParser`, `StationEvent`):
  the request built for a window, and the station events read from the API's response;
- **the retriever and the configuration** (`DataRetriever`, `ConfigParser::get`): the loaders
  created from the "stations" and "ignoreLines" settings, and the infos of all loaders
  merged in loader order.

Instants are integers: seconds counted from midnight of the day the program runs ("today"),
so the time of day of an instant `t` is `t % 86400` (`Clock.TimeOfDay`). The display mode
selector compares milliseconds on the same timeline. PHP values are one `Json` datatype.
`isset`, `foreach` over a scalar, the coercion of a value passed to a `string` parameter and
string comparison with `<=` follow PHP's rules (`JsonValues`, `Text.LexLe`). Exceptions are
`Failure` results carrying the exception's message. The collaborators that cannot be seen
here are function-typed parameters: the HTTP API, the loader factory, the fetchers, and the
calendar that turns a "Y-m-d" date into a day and back.

**The cached create timestamp.** `CacheEntry::toJson` writes the create timestamp as its
"H:i:s" time of day, and `loadFromJson` reads it back as that time of day on the current
day (src/Util/Cache/CacheEntry.php:183 and :197). The repository's tests expect something
else: `testCanBeConvertedToJsonAndBack` expects an integer, and `testCanReturnCacheEntry`
stores a unix timestamp string. This model follows the code. `CacheEntries.LoadToJson` shows
that a round trip keeps only the time of day. `CacheEntries.ReloadForgetsDate` shows that
an entry from yesterday reads back as valid again. `Caching.UnixTimestampFile` shows how
this model reads the test's file: the timestamp is unset, so the entry is never valid. PHP
instead keeps the `false` that `createFromFormat` returns, and `isValid` then throws an
`Error` when it calls `getTimestamp()` on it.

## Model

| member | source | states |
|---|---|---|
| CacheEntries.NewEntry | src/Util/Cache/CacheEntry.php:68-72 | a new entry carries only its name: no lifetime, no create timestamp, no data, no subject |
| CacheEntries.SetValidForSeconds | src/Util/Cache/CacheEntry.php:91-95 | the lifetime is set and every other field is as before |
| CacheEntries.SetCreateTimestamp | src/Util/Cache/CacheEntry.php:104-108 | the create timestamp is set and every other field is as before |
| CacheEntries.SetData | src/Util/Cache/CacheEntry.php:125-129 | the payload is set and every other field is as before |
| CacheEntries.SetFor | src/Util/Cache/CacheEntry.php:138-142 | the subject is set and every other field is as before |
| CacheEntries.ToJson | src/Util/Cache/CacheEntry.php:180-188 | the object has the four members: the create timestamp as "H:i:s", the lifetime, the data and the subject, unset ones as null |
| CacheEntries.LoadFromJson | src/Util/Cache/CacheEntry.php:195-201 | the name stays; the data is the object's "data" member, or null without one; a create timestamp read is a time of today |
| CacheEntries.UnsetFieldsInvalid | src/Util/Cache/CacheEntry.php:164-166 | a new entry, and any entry without data, create timestamp or lifetime, is never valid |
| CacheEntries.IsFor | src/Util/Cache/CacheEntry.php:152-155 | the entry is for a subject exactly when that subject is set on it (its meaning is stated by SetForReplaces) |
| CacheEntries.IsValid | src/Util/Cache/CacheEntry.php:164-172 | data, create timestamp and lifetime are set and the reference time is at most the create timestamp plus the lifetime (its meaning is stated by UnsetFieldsInvalid, ValidityWindow and ValidityMonotone) |
| CacheEntries.ValidityWindow | src/Util/Cache/CacheEntry.php:164-172 | with all set, an entry is valid exactly up to and including create timestamp plus lifetime, and invalid one second later |
| CacheEntries.ValidityMonotone | src/Util/Cache/CacheEntry.php:164-172 | an entry valid at some time is valid at every earlier time |
| CacheEntries.SetForReplaces | src/Util/Cache/CacheEntry.php:138-155 | after `setFor(s)` the entry is for `t` exactly when `t` is `s` |
| CacheEntries.LoadToJson | src/Util/Cache/CacheEntry.php:180-201 | writing an entry and loading it back restores lifetime, data and subject exactly, and the create timestamp as its time of day |
| CacheEntries.ReloadForgetsDate | src/Util/Cache/CacheEntry.php:183-197 | an entry created yesterday and expired now reads back as created today and valid |
| Caching.GetEntry | src/Util/Cache/Cache.php:57-70 | the entry has the asked name; it is loaded from its file when the file holds an object, and is a new entry otherwise |
| Caching.SetEntry | src/Util/Cache/Cache.php:77-84 | the entry's file holds its JSON afterwards; the file names are the old ones plus this one, and every other file is unchanged |
| Caching.CreateEntry | src/Util/Cache/Cache.php:94-100 | a new entry of that name with only the lifetime set |
| Caching.GetOrCreateEntry | src/Util/Cache/Cache.php:110-114 | the stored entry when the file exists; otherwise a new entry with the asked lifetime and no data |
| Caching.Save | src/Util/Cache/CacheEntry.php:206-209 | a saved entry reads back as itself with its create timestamp moved onto today; every other file keeps its name and its contents |
| Caching.FormatHisTimeOfDay | src/Util/Cache/CacheEntry.php:183 | only the time of day of an instant shows in its "H:i:s" text |
| Caching.SetThenGet | src/Util/Cache/Cache.php:57-84 | reading an entry right after setting it gives it back, create timestamp moved onto today; other names read as before |
| Caching.RestoreSavedEntry | tests/PublicTransportInfo/Util/Cache/CacheTest.php:281-328 | a restored entry serialises exactly like the saved one |
| Caching.GetOrCreateAfterSave | src/Util/Cache/Cache.php:110-114 | after a save, `getOrCreateEntry` returns the saved lifetime, data and subject, whatever lifetime is asked |
| Caching.HasEntry | src/Util/Cache/Cache.php:45-48 | there is a file of exactly that name (its examples are HasEntryExamples) |
| Caching.HasEntryExamples | tests/PublicTransportInfo/Util/Cache/CacheTest.php:53-90 | files are entries; directories, missing files and differently cased names are not |
| Caching.UnixTimestampFile | tests/PublicTransportInfo/Util/Cache/CacheTest.php:95-132 | the test's file reads with its subject, data and lifetime, but its unix timestamp is no "H:i:s" time, so the entry is never valid |
| Configuration.Get | src/Util/ConfigParser.php:45-49 | an absent key gives the default; any other result is a non-null value stored under the key |
| Configuration.GetStoredValue | src/Util/ConfigParser.php:45-49 | a key stored with a non-null value gives that value, whatever the default |
| Configuration.GetStoredNull | src/Util/ConfigParser.php:45-49 | a key stored as null gives the default, like an absent key |
| Configuration.GetExamples | tests/PublicTransportInfo/Util/ConfigParserTest.php:21-76 | the test's absent keys give their defaults, and the stored string and `false` come back |
| DateIntervalConverter.ToSeconds | src/Util/DateIntervalConverter.php:26-32 | an inverted interval gives at most zero seconds, any other at least zero |
| DateIntervalConverter.RoundDiv60 | src/Util/DateIntervalConverter.php:43 | the result is within half a minute of the seconds, and halves are rounded away from zero |
| DateIntervalConverter.ToMinutes | src/Util/DateIntervalConverter.php:41-44 | the minutes are within half a minute of the seconds, and exact for whole minutes |
| DateIntervalConverter.Diff | src/DataRetriever/StationInfoLoader/StationEvent.php:95 | the interval from `a` to `b` spans `b - a` seconds, and it is inverted exactly when `b` is before `a` |
| DateIntervalConverter.ToMinutesUnique | src/Util/DateIntervalConverter.php:41-44 | any number of minutes within half a minute of the seconds, halves away from zero, is the one `toMinutes` gives |
| DateIntervalConverter.ConverterExamples | tests/PublicTransportInfo/Util/DateIntervalConverterTest.php:21-42 | 2:04:03 is 7443 seconds and 124 minutes; 10 minutes is 600 seconds; 10:35 rounds to 11 minutes |
| Clock.TimeOfDay | src/DataRetriever/StationInfoLoader/StationInfoCache.php:119 | the time of day is in `[0, 86400)` and differs from the instant by whole days |
| Clock.FormatHi | src/Api/Rmv/Request/StationBoardRequest.php:369 | the "H:i" text has five characters (its meaning is stated by ParseFormatHi) |
| Clock.EarlierThan | src/Util/RelativeTimeSpan.php:84 | earlier than a valid limit; never earlier than PHP's `false` (its use is stated by InvalidLimits) |
| Clock.LaterThan | src/Util/RelativeTimeSpan.php:85 | later than a valid limit, and always later than PHP's `false` (its use is stated by InvalidLimits) |
| Clock.FormatHis | src/Util/Cache/CacheEntry.php:183 | the "H:i:s" text has eight characters |
| Clock.FormatHisFields | src/DataRetriever/StationInfoLoader/StationEvent.php:114 | an instant of hours, minutes and seconds is written as those three two-digit fields |
| Clock.ParseHi | src/Util/RelativeTimeSpan.php:67-68 | a parsed "H:i" time is a non-negative whole number of minutes |
| Clock.ParseHis | src/Util/Cache/CacheEntry.php:197 | a parsed "H:i:s" time is not negative |
| Clock.ParseFormatHis | src/Util/Cache/CacheEntry.php:183-197 | reading back a written "H:i:s" text gives the time of day of the instant |
| Clock.ParseHiFields | src/Util/RelativeTimeSpan.php:67-68 | two two-digit fields joined by a colon read as those hours and minutes |
| Clock.ParseFormatHi | src/Api/Rmv/Request/StationBoardRequest.php:369 | reading back a written "H:i" text gives the time of day without its seconds |
| Clock.FormatHisOrder | src/DataRetriever/StationInfoLoader/StationInfoCache.php:119 | comparing two "H:i:s" texts as strings agrees with comparing their times of day |
| Clock.FormatHisOnTime | tests/PublicTransportInfo/DataRetriever/StationInfoLoader/StationEventTest.php:22-65 | 15:00 is written "15:00:00" |
| Clock.FormatHisTwenty | tests/PublicTransportInfo/DataRetriever/StationInfoLoader/StationEventTest.php:22-65 | 12:20 is written "12:20:00" |
| Clock.FormatHisThirty | tests/PublicTransportInfo/DataRetriever/StationInfoLoader/StationEventTest.php:22-65 | 12:30 is written "12:30:00" |
| Text.Lower | src/DataRetriever/DataRetriever.php:151-152 | `strtolower` keeps the length and lowers each ASCII letter, leaving every other character |
| Text.JoinAppend | src/Api/Rmv/Request/StationBoardRequest.php:375-379 | joining one more part appends the separator and the part |
| JsonValues.Elements | src/DataRetriever/DataRetriever.php:127-130 | `foreach` visits a list's items or an object's values in order, and nothing of a scalar |
| JsonValues.Entries | src/DataRetriever/DataRetriever.php:127 | `foreach` with keys visits the object's members, or a list's items keyed by their positions |
| JsonValues.CoerceToString | src/Api/Rmv/Request/StationBoardRequest.php:243 | a string is kept and an integer written in decimal; null or an array raises the string `TypeError` |
| TimeSpans.ParseDuration | src/Util/RelativeTimeSpan.php:116-125 | a rejected text raises the format message; an accepted one has a colon with a run of digits before it and gives a non-inverted interval without seconds |
| TimeSpans.DurationMatchAccepted | src/Util/RelativeTimeSpan.php:116-125 | every text matching `^\d+:\d+$` (digits, colon, digits, optionally one final newline) is accepted as that many hours and minutes, leading zeros included |
| TimeSpans.DurationAcceptedMatches | src/Util/RelativeTimeSpan.php:116-125 | every accepted text matches `^\d+:\d+$`, and its value is the hours and minutes its two digit runs spell |
| TimeSpans.ParseDurationText | src/Util/RelativeTimeSpan.php:116-125 | every "hours:minutes" text reads as those hours and minutes, also with one final newline |
| TimeSpans.ParseDurationRejects | tests/PublicTransportInfo/Util/RelativeTimeSpanTest.php:27-60 | the test's seven malformed durations are rejected |
| TimeSpans.DurationSetting | src/Util/RelativeTimeSpan.php:64-65 | a configured duration reads as an interval without seconds that is not inverted; it fails only with the string `TypeError` or the format message |
| TimeSpans.LimitSetting | src/Util/RelativeTimeSpan.php:67-68 | a configured limit that parses is a non-negative whole minute; it fails only with the string `TypeError` |
| TimeSpans.Configure | src/Util/RelativeTimeSpan.php:62-69 | the span is configured exactly when all four settings are valid, with both durations and both limits as read; otherwise the error is that of the first failing setting in the order past, future, min, max |
| TimeSpans.GetStartTime | src/Util/RelativeTimeSpan.php:79-87 | with a valid maximum there is a start time; any failure is the clone of a `false` limit |
| TimeSpans.GetEndTime | src/Util/RelativeTimeSpan.php:96-104 | there is an end time exactly when the maximum is valid; otherwise the clone error |
| TimeSpans.SpanWithinLimits | src/Util/RelativeTimeSpan.php:79-104 | with ordered valid limits, start and end are the shifted reference time held within the limits |
| TimeSpans.StartNotAfterEnd | src/Util/RelativeTimeSpan.php:79-104 | with ordered valid limits: minimum ≤ start ≤ end ≤ maximum |
| TimeSpans.SpanMonotone | src/Util/RelativeTimeSpan.php:79-104 | a later reference time never gives an earlier start or end |
| TimeSpans.InvalidLimits | src/Util/RelativeTimeSpan.php:84-85 | an invalid minimum is no limit; an invalid maximum fails the end, and the start unless the minimum caught it |
| TimeSpans.LiteralDurations | src/Util/RelativeTimeSpan.php:64-65 | the default duration "0:0" reads as an empty interval |
| TimeSpans.ExampleDurationTexts | tests/PublicTransportInfo/Util/RelativeTimeSpanTest.php:69-108 | the worked example's "1:5" and "2:20" read as their hours and minutes |
| TimeSpans.LiteralLimits | src/Util/RelativeTimeSpan.php:67-68 | "00:00", "23:59", "08:00" and "18:00" read as those times |
| TimeSpans.DefaultConfiguration | tests/PublicTransportInfo/Util/RelativeTimeSpanTest.php:110-162 | without settings the span has empty durations and the limits 00:00 and 23:59 |
| TimeSpans.MalformedPastDuration | tests/PublicTransportInfo/Util/RelativeTimeSpanTest.php:27-36 | a malformed "past" setting makes the construction fail with the format message |
| TimeSpans.ExampleDurations | tests/PublicTransportInfo/Util/RelativeTimeSpanTest.php:69-108 | the worked example's duration settings read as 1:05 and 2:20 |
| TimeSpans.ExampleLimits | tests/PublicTransportInfo/Util/RelativeTimeSpanTest.php:69-108 | the worked example's limit settings read as 08:00 and 18:00 |
| TimeSpans.ExampleConfiguration | tests/PublicTransportInfo/Util/RelativeTimeSpanTest.php:69-108 | the worked example's configuration gives its span |
| TimeSpans.ExampleTimes | tests/PublicTransportInfo/Util/RelativeTimeSpanTest.php:69-108 | the start and end times the test expects at 13:00, 08:30, 16:55, 05:15 and 19:30 |
| DisplayModes.Code | src/DisplayModeSelector.php:22-24 | the mode constants are 1, 2 and 3 |
| DisplayModes.TimeSetting | src/DisplayModeSelector.php:71-73 | a parsed setting is a whole number of minutes, in milliseconds |
| DisplayModes.Configure | src/DisplayModeSelector.php:69-74 | the selector is configured exactly when its three settings can be passed as strings, with the three limits as parsed |
| DisplayModes.GetDisplayMode | src/DisplayModeSelector.php:83-91 | an invalid end shows nothing |
| DisplayModes.DisplayModeIntervals | src/DisplayModeSelector.php:83-91 | with valid limits: nothing exactly outside `[start, end]`, arrivals exactly on `[start, modeSwitch)`, departures exactly on `[modeSwitch, end]` |
| DisplayModes.DisplayModeOrder | src/DisplayModeSelector.php:83-91 | while something is shown, departures are never followed by arrivals |
| DisplayModes.InvalidSettings | src/DisplayModeSelector.php:83-91 | an invalid end shows nothing, an invalid mode switch never shows arrivals, an invalid start is no lower limit |
| DisplayModes.LiteralTimes | tests/PublicTransportInfo/DisplayModeSelectorTest.php:23-57 | "07:00", "11:00" and "18:00" read as those hours |
| DisplayModes.LiteralMidnight | src/DisplayModeSelector.php:71 | the default start "0:00" reads as midnight |
| DisplayModes.LiteralDefaults | src/DisplayModeSelector.php:72-73 | the defaults "24:00" and "12:00" read as tomorrow's midnight and noon |
| DisplayModes.ExampleConfiguration | tests/PublicTransportInfo/DisplayModeSelectorTest.php:23-31 | the test's settings give start 07:00, mode switch 11:00 and end 18:00 |
| DisplayModes.ExampleModes | tests/PublicTransportInfo/DisplayModeSelectorTest.php:23-57 | the modes the test expects at its ten instants, a millisecond either side of each limit |
| DisplayModes.DefaultConfiguration | tests/PublicTransportInfo/DisplayModeSelectorTest.php:59-78 | without settings: start midnight, mode switch noon, end tomorrow's midnight |
| DisplayModes.DefaultModes | tests/PublicTransportInfo/DisplayModeSelectorTest.php:59-78 | the default selector shows arrivals until noon and departures from noon on |
| StationEvents.NewStationEvent | src/DataRetriever/StationInfoLoader/StationEvent.php:91-102 | the event keeps its arguments, and its delay spans the seconds from the planned to the predicted time |
| StationEvents.ToJsonObject | src/DataRetriever/StationInfoLoader/StationEvent.php:110-125 | the object has eight members: line, both times as "H:i:s", the delay in rounded minutes, the two station names and the two type codes |
| StationEvents.EventDelay | src/DataRetriever/StationInfoLoader/StationEvent.php:95-116 | the delay written is the difference of the two times, rounded to the nearest minute |
| StationEvents.EventTimesReadBack | src/DataRetriever/StationInfoLoader/StationEvent.php:114-115 | the cached times read back as the times of day of the event |
| StationEvents.ExampleDelays | tests/PublicTransportInfo/DataRetriever/StationInfoLoader/StationEventTest.php:22-65 | an event on time has delay 0, one ten minutes late has delay 10 |
| StationInfoCaches.Subject | src/DataRetriever/StationInfoLoader/StationInfoCache.php:54-72 | arrivals are marked "arrivals" and departures "departures", and no other kind has either mark |
| StationInfoCaches.EntryName | src/DataRetriever/StationInfoLoader/StationInfoCache.php:39 | the name is the class name, a slash, the station id and "/last-result.json", each segment at its position, so different stations get different names |
| StationInfoCaches.NewStationInfoCache | src/DataRetriever/StationInfoLoader/StationInfoCache.php:37-41 | the station's stored entry when its file exists, else a new one with the fetch interval as lifetime |
| StationInfoCaches.Sift | src/DataRetriever/StationInfoLoader/StationInfoCache.php:115-124 | the kept infos are never more than the infos |
| StationInfoCaches.SiftSpec | src/DataRetriever/StationInfoLoader/StationInfoCache.php:115-124 | exactly the infos that pass are kept, a removal is flagged exactly when one fails, and without one the list is unchanged |
| StationInfoCaches.Trim | src/DataRetriever/StationInfoLoader/StationInfoCache.php:115-124 | the kept infos are never more than the cached ones |
| StationInfoCaches.TrimSpec | src/DataRetriever/StationInfoLoader/StationInfoCache.php:115-124 | exactly the infos inside the window are kept, and a removal is flagged exactly when one lies outside |
| StationInfoCaches.TrimAppend | src/DataRetriever/StationInfoLoader/StationInfoCache.php:117-124 | one more info is kept when inside the window and flagged otherwise |
| StationInfoCaches.TrimIdempotent | src/DataRetriever/StationInfoLoader/StationInfoCache.php:115-131 | trimming a trimmed list keeps it and flags nothing |
| StationInfoCaches.InWindow | src/DataRetriever/StationInfoLoader/StationInfoCache.php:119 | an info's "time" lies, as PHP compares strings, between the window's start and end written "H:i:s" (its meaning for events is EventInWindow) |
| StationInfoCaches.EventInWindow | src/DataRetriever/StationInfoLoader/StationInfoCache.php:119 | the string comparison of an event's cached time with the window agrees with comparing times of day |
| StationInfoCaches.LoadCachedInfos | src/DataRetriever/StationInfoLoader/StationInfoCache.php:108-136 | a miss exactly unless the entry is for the kind and valid; a hit returns the trimmed infos, keeps everything else of the entry, and saves only when something was left out |
| StationInfoCaches.TrimLoop | src/DataRetriever/StationInfoLoader/StationInfoCache.php:115-124 | the source's loop computes the trimmed list and the removal flag |
| StationInfoCaches.GetArrivals | src/DataRetriever/StationInfoLoader/StationInfoCache.php:54-57 | a miss exactly unless the entry holds valid arrivals |
| StationInfoCaches.GetDepartures | src/DataRetriever/StationInfoLoader/StationInfoCache.php:69-72 | a miss exactly unless the entry holds valid departures |
| StationInfoCaches.CacheInfos | src/DataRetriever/StationInfoLoader/StationInfoCache.php:145-151 | the infos become the data, marked with the kind and stamped with the reference time; the lifetime stays; the entry is saved |
| StationInfoCaches.SetArrivals | src/DataRetriever/StationInfoLoader/StationInfoCache.php:80-83 | the entry holds the infos as arrivals |
| StationInfoCaches.SetDepartures | src/DataRetriever/StationInfoLoader/StationInfoCache.php:91-94 | the entry holds the infos as departures |
| StationInfoCaches.CacheThenLoad | src/DataRetriever/StationInfoLoader/StationInfoCache.php:108-151 | infos inside the window read back unchanged while the lifetime lasts, and never as the other kind |
| StationInfoCaches.EmptyListHit | src/DataRetriever/StationInfoLoader/StationInfoCache.php:110-133 | a valid empty list is a hit with nothing written |
| StationInfoCaches.TrimPersists | src/DataRetriever/StationInfoLoader/StationInfoCache.php:127-131 | after a trimmed list is written back, reading again gives the same infos and writes nothing |
| StationInfoCaches.TimeInfoInWindow | src/DataRetriever/StationInfoLoader/StationInfoCache.php:119 | an info holding only a time lies in the window exactly when its time of day does |
| StationInfoCaches.TrimConcat | src/DataRetriever/StationInfoLoader/StationInfoCache.php:117-124 | a list split in two trims to the two trimmed halves, flagged when either half is |
| StationInfoCaches.TrimThree | src/DataRetriever/StationInfoLoader/StationInfoCache.php:117-124 | three infos trim to what each keeps, flagged when any is left out |
| StationInfoCaches.TodayInWindow | src/DataRetriever/StationInfoLoader/StationInfoCache.php:119 | for times of today, the window test is `start <= t <= end` |
| StationInfoCaches.TrimPattern | src/DataRetriever/StationInfoLoader/StationInfoCache.php:117-124 | nine infos of which four lie inside trim to those four in order, flagged |
| StationInfoCaches.ExampleTrim | tests/PublicTransportInfo/DataRetriever/StationInfoLoader/StationInfoCacheTest.php:191-226 | the test's arrivals trim to the four inside the window, limits included |
| StationInfoLoaders.ToJsonObjects | src/DataRetriever/StationInfoLoader/StationInfoLoader.php:64-66 | one JSON object per event, in order |
| StationInfoLoaders.Load | src/DataRetriever/StationInfoLoader/StationInfoLoader.php:56-71 | an inverted window gives nothing; a hit gives the cached infos; a miss succeeds exactly when the fetch does, and caches the fetched events as objects for the kind |
| StationInfoLoaders.LoadArrivals | src/DataRetriever/StationInfoLoader/StationInfoLoader.php:56-71 | an inverted window gives nothing; on a miss the load fails exactly when the arrival fetch does; the cache keeps its name |
| StationInfoLoaders.LoadDepartures | src/DataRetriever/StationInfoLoader/StationInfoLoader.php:82-97 | an inverted window gives nothing; on a miss the load fails exactly when the departure fetch does; the cache keeps its name |
| StationInfoLoaders.LoadUsesOwnFetcher | src/DataRetriever/StationInfoLoader/StationInfoLoader.php:60-63 | a load depends only on the cache and on the fetcher of its own kind |
| StationInfoLoaders.InvertedWindowIgnoresCache | src/DataRetriever/StationInfoLoader/StationInfoLoader.php:58 | an inverted window gives nothing, whatever the cache and fetcher |
| StationInfoLoaders.FetchThenHit | src/DataRetriever/StationInfoLoader/StationInfoLoader.php:60-70 | right after a miss fetched events inside the window, the next load is a hit that returns them and writes nothing |
| StationInfoLoaders.FetchedEventExample | tests/PublicTransportInfo/DataRetriever/StationInfoLoader/StationInfoLoaderTest.php:107-200 | one fetched event comes back as its JSON object, for arrivals and departures |
| StationBoardRequests.ApiPath | src/Api/Rmv/Request/ArrivalBoardRequest.php:19-22 | the arrival board's path is "arrivalBoard"; the departure board's, "departureBoard" (DepartureBoardRequest.php:21) |
| StationBoardRequests.NewRequest | src/Api/Rmv/Request/StationBoardRequest.php:69-75 | a new request has no products, empty lists and nothing else set |
| StationBoardRequests.SetId | src/Api/Rmv/Request/StationBoardRequest.php:86-90 | the id is set and nothing else changes |
| StationBoardRequests.SetExtId | src/Api/Rmv/Request/StationBoardRequest.php:100-104 | the external id is set and nothing else changes |
| StationBoardRequests.SetDirection | src/Api/Rmv/Request/StationBoardRequest.php:114-118 | the direction is set and nothing else changes |
| StationBoardRequests.SetStartDateTime | src/Api/Rmv/Request/StationBoardRequest.php:128-132 | the start is set and nothing else changes |
| StationBoardRequests.SetDuration | src/Api/Rmv/Request/StationBoardRequest.php:144-151 | the duration is always in `[0, 1439]`: the minutes when inside, 0 below, 1439 above; nothing else changes |
| StationBoardRequests.SetEndDateTime | src/Api/Rmv/Request/StationBoardRequest.php:161-165 | fails exactly without a start; otherwise the duration is the rounded minutes from the start to the end |
| StationBoardRequests.AddProducts | src/Api/Rmv/Request/StationBoardRequest.php:179-183 | the mask becomes the bitwise or of the mask and the ids' 64 bits; nothing else changes |
| StationBoardRequests.OrCommutative | src/Api/Rmv/Request/StationBoardRequest.php:181 | or-ing masks does not depend on their order |
| StationBoardRequests.OrAssociative | src/Api/Rmv/Request/StationBoardRequest.php:181 | or-ing masks does not depend on their grouping |
| StationBoardRequests.OrAbsorbs | src/Api/Rmv/Request/StationBoardRequest.php:181 | or-ing in bits already set changes nothing |
| StationBoardRequests.AddProductsAccumulates | src/Api/Rmv/Request/StationBoardRequest.php:179-183 | adding products never removes one, adding ids twice is adding them once, and the order of additions does not matter |
| StationBoardRequests.AddProductsExample | src/Api/Rmv/Request/StationBoardRequest.php:179-183 | adding 1 then 4 gives 5, and adding 5 then 4 gives 5 |
| StationBoardRequests.IncludeOperator | src/Api/Rmv/Request/StationBoardRequest.php:197-201 | the code is appended to the operators and nothing else changes |
| StationBoardRequests.ExcludeOperator | src/Api/Rmv/Request/StationBoardRequest.php:213-217 | the code with a "!" in front is appended to the operators |
| StationBoardRequests.IncludeLine | src/Api/Rmv/Request/StationBoardRequest.php:228-232 | the line is appended to the lines and nothing else changes |
| StationBoardRequests.ExcludeLine | src/Api/Rmv/Request/StationBoardRequest.php:243-247 | the line with a "!" in front is appended to the lines |
| StationBoardRequests.SetMaxJourneys | src/Api/Rmv/Request/StationBoardRequest.php:262-266 | the journey limit is set and nothing else changes |
| StationBoardRequests.SetFilterEquiv | src/Api/Rmv/Request/StationBoardRequest.php:275-279 | the filter flag is set and nothing else changes |
| StationBoardRequests.IncludeAttribute | src/Api/Rmv/Request/StationBoardRequest.php:292-296 | the code is appended to the attributes and nothing else changes |
| StationBoardRequests.ExcludeAttribute | src/Api/Rmv/Request/StationBoardRequest.php:309-313 | the code with a "!" in front is appended to the attributes |
| StationBoardRequests.SetRtMode | src/Api/Rmv/Request/StationBoardRequest.php:323-327 | the realtime mode is set and nothing else changes |
| StationBoardRequests.Validate | src/Api/Rmv/Request/StationBoardRequest.php:337-351 | passes exactly with an id or external id and no unknown realtime mode; the missing id is reported first, then the unknown mode by name |
| StationBoardRequests.ParameterKeysDistinct | src/Api/Rmv/Request/StationBoardRequest.php:363-390 | the thirteen parameter keys are distinct |
| StationBoardRequests.ParameterValues | src/Api/Rmv/Request/StationBoardRequest.php:363-390 | there is one value per parameter key |
| StationBoardRequests.GetRequestParameters | src/Api/Rmv/Request/StationBoardRequest.php:359-393 | each key finds the value of its property and is missing exactly when the property is unset |
| StationBoardRequests.IdentityParameters | src/Api/Rmv/Request/StationBoardRequest.php:363-365 | id, external id, direction and realtime mode are there exactly when set, as set |
| StationBoardRequests.TimeParameters | src/Api/Rmv/Request/StationBoardRequest.php:366-371 | a start gives the date and its "H:i" time; the duration is there exactly when set |
| StationBoardRequests.FilterParameters | src/Api/Rmv/Request/StationBoardRequest.php:372-385 | the products only when positive, the journey limit when set, the filter flag as 1 or 0 |
| StationBoardRequests.ListParameters | src/Api/Rmv/Request/StationBoardRequest.php:373-389 | operators, lines and attributes comma-joined, only when not empty |
| StationBoardRequests.OnlyExtId | src/Api/Rmv/Request/StationBoardRequest.php:359-393 | a request with only its external id has that one parameter |
| StationBoardRequests.NoParameters | src/Api/Rmv/Request/StationBoardRequest.php:359-393 | a new request has no parameters |
| StationBoardRequests.ExcludedLinesExample | tests/PublicTransportInfo/Api/Rmv/Request/StationDepartureBoardTestBase.php:30-62 | excluding "100" then "104" sends "!100,!104" |
| StationBoardRequests.DurationExamples | tests/PublicTransportInfo/Api/Rmv/Request/StationDepartureBoardTestBase.php:64-86 | -500 minutes clamp to 0, 99999 to 1439, and an end two hours after the start gives 120 |
| StationBoardRequests.ValidateNeedsStation | tests/PublicTransportInfo/Api/Rmv/Request/StationDepartureBoardTestBase.php:88-101 | a request without an id fails with "Id or extId must be set" |
| StationBoardRequests.ValidateRejectsMode | tests/PublicTransportInfo/Api/Rmv/Request/StationDepartureBoardTestBase.php:103-125 | the mode "boardDeparture" is rejected by name |
| StationBoardRequests.UnknownMode | src/Api/Rmv/Request/StationBoardRequest.php:344-347 | "boardDeparture" is none of the five realtime modes |
| StationBoardRequests.ValidateAcceptsRealtime | src/Api/Rmv/Request/StationBoardRequest.php:337-351 | an external id with the REALTIME mode validates |
| RmvInfoParsers.Member | src/DataRetriever/StationInfoLoader/StationInfoFetcher/InfoParser/RmvInfoParser.php:82-84 | `$json[key]` is the member when there is one, else null |
| RmvInfoParsers.DateTimeOf | src/DataRetriever/StationInfoLoader/StationInfoFetcher/InfoParser/RmvInfoParser.php:122 | date and time parse exactly when both parts do, to the day of the date plus the time |
| RmvInfoParsers.GetTime | src/DataRetriever/StationInfoLoader/StationInfoFetcher/InfoParser/RmvInfoParser.php:120-123 | succeeds exactly when "date" and "time" parse, with that instant |
| RmvInfoParsers.GetRealTime | src/DataRetriever/StationInfoLoader/StationInfoFetcher/InfoParser/RmvInfoParser.php:133-140 | nothing unless "rtDate" and "rtTime" are both set; then their parsed instant |
| RmvInfoParsers.EventFrom | src/DataRetriever/StationInfoLoader/StationInfoFetcher/InfoParser/RmvInfoParser.php:76-88 | builds exactly when the info is an array, the time parses and the names coerce; the predicted time falls back to the planned one |
| RmvInfoParsers.ArrivalEvent | src/DataRetriever/StationInfoLoader/StationInfoFetcher/InfoParser/RmvInfoParser.php:76-88 | an arrival of the given vehicle type, from the "origin" to the "stop", on the product's line |
| RmvInfoParsers.DepartureEvent | src/DataRetriever/StationInfoLoader/StationInfoFetcher/InfoParser/RmvInfoParser.php:98-110 | a departure of the given vehicle type, from the "stop" in the "direction", on the product's line |
| RmvInfoParsers.ParseInfos | src/DataRetriever/StationInfoLoader/StationInfoFetcher/InfoParser/RmvInfoParser.php:29-42 | a response that is no array is the `TypeError` of the `array` return and parameter types; an array without a list under the key gives no events |
| RmvInfoParsers.BuildEvents | src/DataRetriever/StationInfoLoader/StationInfoFetcher/InfoParser/RmvInfoParser.php:34-38 | a successful parse has one event per info |
| RmvInfoParsers.BuildEventsSpec | src/DataRetriever/StationInfoLoader/StationInfoFetcher/InfoParser/RmvInfoParser.php:34-38 | the parse succeeds exactly when every info builds, and its `i`-th event is built from the `i`-th info |
| RmvInfoParsers.ParseArrivalInfos | src/DataRetriever/StationInfoLoader/StationInfoFetcher/InfoParser/RmvInfoParser.php:29-42 | a response that is no array is the `TypeError`; an array without an "Arrival" list gives no events; a successful parse has one event per listed info |
| RmvInfoParsers.ParseDepartureInfos | src/DataRetriever/StationInfoLoader/StationInfoFetcher/InfoParser/RmvInfoParser.php:52-65 | a response that is no array is the `TypeError`; an array without a "Departure" list gives no events; a successful parse has one event per listed info |
| RmvInfoParsers.ParsedArrivals | src/DataRetriever/StationInfoLoader/StationInfoFetcher/InfoParser/RmvInfoParser.php:29-42 | each parsed arrival is the arrival built from the info at its position |
| RmvInfoParsers.ParsedDepartures | src/DataRetriever/StationInfoLoader/StationInfoFetcher/InfoParser/RmvInfoParser.php:52-65 | each parsed departure is the departure built from the info at its position |
| RmvInfoParsers.ArrivalInfoMembers | tests/PublicTransportInfo/DataRetriever/StationInfoLoader/StationInfoFetcher/InfoParser/RmvInfoParserTest.php:65-149 | an info as the API sends it, without a predicted time, holds the members the builder reads |
| RmvInfoParsers.LateArrivalInfoMembers | tests/PublicTransportInfo/DataRetriever/StationInfoLoader/StationInfoFetcher/InfoParser/RmvInfoParserTest.php:65-149 | an info with a predicted time holds the members the builder reads |
| RmvInfoParsers.ArrivalOfInfo | src/DataRetriever/StationInfoLoader/StationInfoFetcher/InfoParser/RmvInfoParser.php:76-88 | such an info builds the arrival at its time, with the predicted time or else the planned one, and its line and stations |
| RmvInfoParsers.ArrivalOnTimeExample | tests/PublicTransportInfo/DataRetriever/StationInfoLoader/StationInfoFetcher/InfoParser/RmvInfoParserTest.php:65-149 | an arrival without a predicted time is on time and carries the info's line and stations |
| RmvInfoParsers.ArrivalLateExample | tests/PublicTransportInfo/DataRetriever/StationInfoLoader/StationInfoFetcher/InfoParser/RmvInfoParserTest.php:65-149 | an arrival with a predicted time is late by the rounded minutes between the two times |
| RmvStationInfoFetchers.ExcludeLines | src/DataRetriever/StationInfoLoader/StationInfoFetcher/RmvStationInfoFetcher.php:111-114 | a successful loop adds one excluded line per ignore line after the lines already excluded |
| RmvStationInfoFetchers.ExcludeLinesSpec | src/DataRetriever/StationInfoLoader/StationInfoFetcher/RmvStationInfoFetcher.php:111-114 | succeeds exactly when every line coerces; then each line is appended with a "!", in order, and nothing else changes |
| RmvStationInfoFetchers.ExcludeLinesFirstError | src/DataRetriever/StationInfoLoader/StationInfoFetcher/RmvStationInfoFetcher.php:111-114 | a failure is the error of the first line that does not coerce |
| RmvStationInfoFetchers.WindowMinutes | src/Api/Rmv/Request/StationBoardRequest.php:161-165 | the window's duration is in `[0, 1439]` |
| RmvStationInfoFetchers.ConfigureGeneralRequestOptions | src/DataRetriever/StationInfoLoader/StationInfoFetcher/RmvStationInfoFetcher.php:104-115 | succeeds exactly when the ignore lines coerce; then the station is the external id, the mode REALTIME, the start and the window's duration set, and the lines excluded |
| RmvStationInfoFetchers.BoardRequest | src/DataRetriever/StationInfoLoader/StationInfoFetcher/RmvStationInfoFetcher.php:70-71 | a new request of the kind with the general options and nothing else set |
| RmvStationInfoFetchers.Fetch | src/DataRetriever/StationInfoLoader/StationInfoFetcher/RmvStationInfoFetcher.php:68-94 | a request that cannot be built, or an api exception, ends the fetch with that error |
| RmvStationInfoFetchers.FetchArrivals | src/DataRetriever/StationInfoLoader/StationInfoFetcher/RmvStationInfoFetcher.php:68-75 | the api's answer to the arrival board request, parsed as arrivals of the fetcher's vehicle type |
| RmvStationInfoFetchers.FetchDepartures | src/DataRetriever/StationInfoLoader/StationInfoFetcher/RmvStationInfoFetcher.php:87-94 | the api's answer to the departure board request, parsed as departures of the fetcher's vehicle type |
| RmvStationInfoFetchers.BoardRequestParameters | src/DataRetriever/StationInfoLoader/StationInfoFetcher/RmvStationInfoFetcher.php:104-115 | the api receives the station, REALTIME, the start's date and "H:i" time, the window's minutes and the excluded lines |
| RmvStationInfoFetchers.UnsetParameters | src/DataRetriever/StationInfoLoader/StationInfoFetcher/RmvStationInfoFetcher.php:104-115 | no other parameter is sent |
| RmvStationInfoFetchers.FiveParameters | src/DataRetriever/StationInfoLoader/StationInfoFetcher/RmvStationInfoFetcher.php:104-115 | without ignore lines the request has exactly five parameters, in key order |
| RmvStationInfoFetchers.WindowMinutesExamples | tests/PublicTransportInfo/DataRetriever/StationInfoLoader/StationInfoFetcher/RmvStationInfoFetcherTest.php:70-131 | 10:40 to 12:10 asks for 90 minutes, 14:20 to 14:45 for 25 |
| RmvStationInfoFetchers.IgnoreLineExample | tests/PublicTransportInfo/DataRetriever/StationInfoLoader/StationInfoFetcher/RmvStationInfoFetcherTest.php:70-90 | the ignore line "R48" is sent as "!R48" |
| RmvStationInfoFetchers.FetchUsesResponse | src/DataRetriever/StationInfoLoader/StationInfoFetcher/RmvStationInfoFetcher.php:72-74 | a fetch depends on the api only through its answer to the request |
| DataRetrievers.NewDataRetriever | src/DataRetriever/DataRetriever.php:54-60 | a new retriever has no loaders and keeps both time spans |
| DataRetrievers.GetVehicleTypeId | src/DataRetriever/DataRetriever.php:149-154 | succeeds exactly for "train" and "bus" in any case, giving 3 and 4; otherwise the error names the type |
| DataRetrievers.VehicleTypeIgnoresCase | src/DataRetriever/DataRetriever.php:151-152 | names equal up to letter case give the same result |
| DataRetrievers.VehicleTypeExamples | tests/PublicTransportInfo/DataRetriever/DataRetrieverTest.php:85-116 | "train" and "Bus" are known, "submarine" is rejected by name |
| DataRetrievers.StationIds | src/DataRetriever/DataRetriever.php:130-135 | the inner loop plans at most one station per id, and exactly one per id when no id fails |
| DataRetrievers.StationIdsSpec | src/DataRetriever/DataRetriever.php:130-135 | the stations planned are the ids before the first one that does not coerce, each with the vehicle type; planning fails exactly when there is such an id |
| DataRetrievers.EntryStations | src/DataRetriever/DataRetriever.php:127-135 | one entry of the setting: its key's vehicle type, then its ids (its meaning is stated by EntryStationsSpec) |
| DataRetrievers.EntryStationsSpec | src/DataRetriever/DataRetriever.php:127-135 | an entry plans one station per id exactly when it is valid; its stations are trains or buses |
| DataRetrievers.PlanEachAppend | src/DataRetriever/DataRetriever.php:127-136 | planning two lists of entries in a row gives the stations of the first, then, unless it failed, those of the second |
| DataRetrievers.ConfiguredStations | src/DataRetriever/DataRetriever.php:127-136 | the outer loop over the entries, up to the first failure (its meaning is stated by ConfiguredStationsSpec and PlanEachAppend) |
| DataRetrievers.ConfiguredStationsSpec | src/DataRetriever/DataRetriever.php:127-136 | the setting plans in full exactly when every entry is valid, one station per id; every station is a train or a bus |
| DataRetrievers.PlanningStopsAtUnknownType | tests/PublicTransportInfo/DataRetriever/DataRetrieverTest.php:85-116 | the test's train and bus stations are planned, then "submarine" ends the planning |
| DataRetrievers.CreateLoaders | src/DataRetriever/DataRetriever.php:132-134 | one loader per planned station, in order |
| DataRetrievers.AddStations | src/DataRetriever/DataRetriever.php:116-137 | a non-array "stations", then a non-array "ignoreLines", is rejected with its message and adds nothing; the spans stay and the old loaders come first |
| DataRetrievers.AddStationsLoaders | src/DataRetriever/DataRetriever.php:126-136 | with both settings arrays, one loader per planned station is added, made from its id, vehicle type and the ignore lines |
| DataRetrievers.LoadEach | src/DataRetriever/DataRetriever.php:76-80 | a successful load leaves one cache per loader; a failure is the first exception, and the directory it leaves is given by LoadEachStore |
| DataRetrievers.LoadEachStore | src/Util/Cache/Cache.php:77-84 | the cache directory the loop leaves, also when an exception stops it; after a full loop it is the loop's own |
| DataRetrievers.LoadEachFailure | src/DataRetriever/DataRetriever.php:76-80 | a failed loop stops at the first failing load: the loaders before it load in full, the exception is that load's, and their cache writes stay |
| DataRetrievers.EarlierWritesKept | src/PublicTransportInfo.php:65-104 | when the first of two loaders fetches and caches and the second's fetch throws, the retrieval fails with that exception and the first loader's file stays written |
| DataRetrievers.LoadEachAppend | src/DataRetriever/DataRetriever.php:76-80 | loading two lists in a row gives the first list's infos, then the second's, started on the directory the first left |
| DataRetrievers.LoadEachKeepsNames | src/DataRetriever/DataRetriever.php:76-80 | loaders that keep their cache's name keep them all |
| DataRetrievers.LoadAll | src/DataRetriever/DataRetriever.php:76-80 | the loop over the loaders for one window and kind (its meaning is stated by LoadEachAppend, LoadAllKeepsNames and RetrieveInOrder) |
| DataRetrievers.LoadAllKeepsNames | src/DataRetriever/StationInfoLoader/StationInfoLoader.php:56-97 | every loader's cache keeps its name through a retrieval |
| DataRetrievers.LoadEachNothing | src/DataRetriever/DataRetriever.php:75-82 | loaders that load nothing and change nothing load nothing together |
| DataRetrievers.InvertedWindowLoadsNothing | src/DataRetriever/StationInfoLoader/StationInfoLoader.php:58 | an inverted window retrieves nothing and changes nothing |
| DataRetrievers.WithCaches | src/DataRetriever/DataRetriever.php:76-80 | each loader gets the cache its load left |
| DataRetrievers.RetrieveStore | src/DataRetriever/DataRetriever.php:70-105 | the cache directory a retrieval leaves, whether it returns or throws: unchanged without a window, the returned one after a success |
| DataRetrievers.Retrieve | src/DataRetriever/DataRetriever.php:70-105 | a failed start or end time is the clone error; otherwise it succeeds exactly when every loader loads, with their infos and directory; loaders and spans stay |
| DataRetrievers.RetrieveArrivals | src/DataRetriever/DataRetriever.php:70-83 | a failed start or end of the arrival span is the clone error; otherwise it succeeds exactly when every loader's arrivals load for that window, with their infos and the cache directory they leave |
| DataRetrievers.RetrieveDepartures | src/DataRetriever/DataRetriever.php:92-105 | a failed start or end of the departure span is the clone error; otherwise it succeeds exactly when every loader's departures load for that window, with their infos and the cache directory they leave |
| DataRetrievers.NoLoadersRetrieveNothing | src/DataRetriever/DataRetriever.php:75-82 | a retriever without loaders retrieves nothing once its span gives a window |
| DataRetrievers.RetrieveInOrder | tests/PublicTransportInfo/DataRetriever/DataRetrieverTest.php:118-163 | the infos of three loaders come back in loader order, each loader's together |

## Left out

- The file system: the cache directory is a map from entry name to decoded JSON. Directory
  creation in `setEntry` (src/Util/Cache/Cache.php:80-81) has no effect on that map, and a
  file that does not decode as JSON reads as null.
- JSON's byte layout: `json_encode`/`json_decode` are not modelled, only the values.
- CacheEntries.ToJson: requires a create timestamp (as do Caching.SetEntry and Caching.Save), so
  PHP's `Error` for calling `format()` on an unset timestamp is not modelled; every caller in the
  core stamps the entry or has checked it is valid first.
- Caching.UnixTimestampFile: states this model's reading of an unparsable timestamp (unset,
  so never valid); PHP keeps `false` and `isValid` throws an `Error` on it.
- CacheEntries.LoadFromJson: a "validForSeconds" that is not an integer and a "for" that is not
  a string are dropped rather than kept as PHP keeps them; an unparsable create timestamp is
  unset, where PHP stores `false` and `isValid` would then fail.
- CacheEntries.IsFor: compares the subject strictly; PHP's loose `==` (`null == ""`) is not
  modelled, and only "arrivals" and "departures" are ever asked.
- Clock.ParseHi, Clock.ParseHis: only the strict "H:i" and "H:i:s" forms are read; the
  leniency of PHP's date parser (overflowing fields, trailing data) is not modelled.
- Calendars, time zones and daylight saving time: a "Y-m-d" date goes through caller-supplied
  functions, and `GermanDateTime` (src/Util/GermanDateTime.php) is not part of this model.
- StationInfoCaches.InWindow: follows PHP 8's comparison of an info's "time" with a string;
  what PHP 7 would do with non-string times is not modelled.
- TimeSpans.ParseDuration: an over-long digit run is read as its unbounded value; PHP's `(int)` at
  src/Util/RelativeTimeSpan.php:124 saturates at the 64-bit maximum, and such an interval is not modelled.
- TimeSpans.Configure: a setting that cannot be passed as a string is a `TypeError` failure; an
  invalid "H:i" limit is kept as `None` where PHP keeps `false`.
- DisplayModes.Configure: likewise for the three display settings.
- RmvInfoParsers.DateTimeOf: the date and the time are parsed separately and then combined,
  not as one "Y-m-dH:i:s" string.
- RmvInfoParsers.Member: a "Product" that is an integer or a boolean reads as null, as PHP does
  (with a warning). A "Product" that is a string is read as null too, so the event fails with
  the string `TypeError`; PHP 7 instead reads `"abc"["line"]` as the first character (with an
  "Illegal string offset" warning) and builds the event, and PHP 8 throws.
- Floating point: `round` works on integer seconds only, and the `Json` values hold no
  floats, so a decimal setting cannot be expressed.
- The HTTP API (`RmvApi`, src/Api/RmvApi.php) is an abstract function from request to decoded
  response or error.
- The loader factories (src/DataRetriever/StationInfoLoaderFactory/) are an abstract function;
  `PublicTransportInfo` (src/PublicTransportInfo.php) with its sorting and output is not part
  of this model.
- The fetcher's vehicle type is kept as the integer the factory passes, not converted to the
  string the `RmvStationInfoFetcher` constructor is typed with and back.

=== FILE: cache.dfy ===
/** `Cache`: entries saved as files below a base directory, one file per entry name.

    The directory is modelled as a map from entry name (the path below the base directory) to
    the file's decoded JSON content; a file that does not decode is `JNull`. Directories are not
    keys, so they are never entries. */
module Caching {
  import opened Wrappers
  import opened JsonValues
  import opened Clock
  import opened CacheEntries

  type Store = map<string, Json>

  /** `hasEntry`: there is a file of that name. */
  predicate HasEntry(store: Store, name: string) {
    name in store
  }

  /** `getEntry`: a fresh entry of that name, loaded from its file when the file exists and
      holds a JSON object. */
  function GetEntry(store: Store, name: string): (e: CacheEntry)
    ensures e.name == name
    ensures !(HasEntry(store, name) && store[name].JObject?) ==> e == NewEntry(name)
    ensures HasEntry(store, name) && store[name].JObject? ==>
              e.data == (if Field(store[name], "data").Some? then Field(store[name], "data").value else JNull)
  {
    if HasEntry(store, name) && store[name].JObject? then LoadFromJson(NewEntry(name), store[name])
    else NewEntry(name)
  }

  /** `setEntry`: the entry's JSON is written to the file of its name (missing directories are
      created on the way); every other file stays as it was. */
  function SetEntry(store: Store, e: CacheEntry): (r: Store)
    requires e.createTimestamp.Some?
    ensures HasEntry(r, e.name) && r[e.name] == ToJson(e)
    ensures r.Keys == store.Keys + {e.name}
    ensures forall n :: n in store && n != e.name ==> r[n] == store[n]
  {
    store[e.name := ToJson(e)]
  }

  /** `createEntry`: a new entry with only its name and lifetime set. */
  function CreateEntry(name: string, validForSeconds: int): (e: CacheEntry)
    ensures e == SetValidForSeconds(NewEntry(name), validForSeconds)
    ensures e.data == JNull && e.createTimestamp.None? && e.subject.None?
  {
    SetValidForSeconds(NewEntry(name), validForSeconds)
  }

  /** `getOrCreateEntry`: the stored entry when its file exists (its own lifetime wins over the
      one asked for), a new entry with the asked lifetime otherwise. */
  function GetOrCreateEntry(store: Store, name: string, validForSeconds: int): (e: CacheEntry)
    ensures e.name == name
    ensures !HasEntry(store, name) ==> e.validForSeconds == Some(validForSeconds) && e.data == JNull
    ensures HasEntry(store, name) ==> e == GetEntry(store, name)
  {
    if HasEntry(store, name) then GetEntry(store, name) else CreateEntry(name, validForSeconds)
  }

  /** `CacheEntry::save`: the entry is written through its parent cache. */
  function Save(store: Store, e: CacheEntry): (r: Store)
    requires e.createTimestamp.Some?
    ensures GetEntry(r, e.name) == e.(createTimestamp := Some(TimeOfDay(e.createTimestamp.value)))
    ensures forall n :: n != e.name ==> HasEntry(r, n) == HasEntry(store, n)
    ensures forall n :: n in store && n != e.name ==> n in r && r[n] == store[n]
  {
    LoadToJson(e, NewEntry(e.name));
    SetEntry(store, e)
  }

  /** Only the time of day of an instant shows in its "H:i:s" form. */
  lemma FormatHisTimeOfDay(t: int)
    ensures FormatHis(TimeOfDay(t)) == FormatHis(t)
  {
    assert TimeOfDay(TimeOfDay(t)) == TimeOfDay(t);
  }

  /** Reading back a saved entry gives the saved entry, except that its create timestamp is
      moved onto today; any entry of another name reads as before. */
  lemma {:induction false} SetThenGet(store: Store, e: CacheEntry, other: string)
    requires e.createTimestamp.Some?
    ensures GetEntry(SetEntry(store, e), e.name) == e.(createTimestamp := Some(TimeOfDay(e.createTimestamp.value)))
    ensures other != e.name ==> GetEntry(SetEntry(store, e), other) == GetEntry(store, other)
  {
    LoadToJson(e, NewEntry(e.name));
  }

  /** A restored entry serialises exactly like the one that was saved. */
  lemma {:induction false} RestoreSavedEntry(store: Store, e: CacheEntry)
    requires e.createTimestamp.Some?
    ensures ToJson(GetEntry(SetEntry(store, e), e.name)) == ToJson(e)
  {
    SetThenGet(store, e, e.name);
    FormatHisTimeOfDay(e.createTimestamp.value);
  }

  /** Once an entry has been saved, `getOrCreateEntry` returns it with its saved lifetime and
      data, whatever lifetime it is asked for. */
  lemma {:induction false} GetOrCreateAfterSave(store: Store, e: CacheEntry, validForSeconds: int)
    requires e.createTimestamp.Some?
    ensures var r := GetOrCreateEntry(SetEntry(store, e), e.name, validForSeconds);
      r.validForSeconds == e.validForSeconds && r.data == e.data && r.subject == e.subject
  {
    SetThenGet(store, e, e.name);
  }

  /** The cache directory of the repository's tests: files below "Rmv", and a top-level file. */
  function ExampleStore(): Store {
    map["Rmv/152341/last-result.json" := JObject([]),
        "Rmv/3458u29/last-result.json" := JObject([("someKey", JString("someValue"))]),
        "global-cache" := JObject([])]
  }

  /** Files are entries; directories, missing files and differently cased names are not. */
  lemma HasEntryExamples()
    ensures HasEntry(ExampleStore(), "Rmv/152341/last-result.json")
    ensures HasEntry(ExampleStore(), "global-cache")
    ensures !HasEntry(ExampleStore(), "Rmv/152341")
    ensures !HasEntry(ExampleStore(), "Rmv")
    ensures !HasEntry(ExampleStore(), "Rmv/nothere")
    ensures !HasEntry(ExampleStore(), "Rmv/3458u29/LAST-RESULT.json")
  {
  }

  /** A file whose create timestamp is a unix timestamp string, as in the repository's tests:
      subject and data are read, but the timestamp is no "H:i:s" time, so this model reads the
      entry as never created and never valid (PHP keeps `false` there and `isValid` throws). */
  lemma UnixTimestampFile(referenceTime: int)
    ensures var store := map["Rmv/blablub/last-result.json" := JObject([
        ("createTimestamp", JString("1568966400")), ("validForSeconds", JInt(600)),
        ("data", JString("no complex data")), ("for", JString("nothing"))])];
      var e := GetEntry(store, "Rmv/blablub/last-result.json");
      IsFor(e, "nothing") && e.data == JString("no complex data") && e.validForSeconds == Some(600)
      && e.createTimestamp.None? && !IsValid(e, referenceTime)
  {
  }
}

=== FILE: cacheentry.dfy ===
/** `CacheEntry`: one named record of the cache, holding a payload, the subject it is for,
    when its data was created and for how many seconds it stays valid. */
module CacheEntries {
  import opened Wrappers
  import opened JsonValues
  import opened Clock

  /** An unset field is `None`; unset data is `JNull`, which is what `isset` rejects. */
  datatype CacheEntry = CacheEntry(
    name: string,
    validForSeconds: Option<int>,
    createTimestamp: Option<int>,
    data: Json,
    subject: Option<string>)

  /** The constructor: an entry that carries only its name. */
  function NewEntry(name: string): (e: CacheEntry)
    ensures e.name == name
    ensures e.validForSeconds.None? && e.createTimestamp.None? && e.data == JNull && e.subject.None?
  {
    CacheEntry(name, None, None, JNull, None)
  }

  /** `setValidForSeconds`: only the lifetime changes. */
  function SetValidForSeconds(e: CacheEntry, seconds: int): (r: CacheEntry)
    ensures r.validForSeconds == Some(seconds)
    ensures r.name == e.name && r.createTimestamp == e.createTimestamp && r.data == e.data && r.subject == e.subject
  {
    e.(validForSeconds := Some(seconds))
  }

  /** `setCreateTimestamp`: only the create timestamp changes. */
  function SetCreateTimestamp(e: CacheEntry, t: int): (r: CacheEntry)
    ensures r.createTimestamp == Some(t)
    ensures r.name == e.name && r.validForSeconds == e.validForSeconds && r.data == e.data && r.subject == e.subject
  {
    e.(createTimestamp := Some(t))
  }

  /** `setData`: only the payload changes. */
  function SetData(e: CacheEntry, data: Json): (r: CacheEntry)
    ensures r.data == data
    ensures r.name == e.name && r.validForSeconds == e.validForSeconds && r.createTimestamp == e.createTimestamp
            && r.subject == e.subject
  {
    e.(data := data)
  }

  /** `setFor`: only the subject changes. */
  function SetFor(e: CacheEntry, subject: string): (r: CacheEntry)
    ensures r.subject == Some(subject)
    ensures r.name == e.name && r.validForSeconds == e.validForSeconds && r.createTimestamp == e.createTimestamp
            && r.data == e.data
  {
    e.(subject := Some(subject))
  }

  /** `isFor`: the entry holds data for that subject. */
  predicate IsFor(e: CacheEntry, subject: string) {
    e.subject == Some(subject)
  }

  /** `isValid`: data, create timestamp and lifetime are all set, and the reference time is
      at most the create timestamp plus the lifetime. */
  predicate IsValid(e: CacheEntry, referenceTime: int) {
    e.data != JNull && e.createTimestamp.Some? && e.validForSeconds.Some?
    && referenceTime <= e.createTimestamp.value + e.validForSeconds.value
  }

  function OptionalInt(v: Option<int>): Json {
    if v.Some? then JInt(v.value) else JNull
  }

  function OptionalString(v: Option<string>): Json {
    if v.Some? then JString(v.value) else JNull
  }

  /** `toJson`: the object written to the cache. The create timestamp is written as its
      "H:i:s" time of day; PHP fails on an entry without one. */
  function ToJson(e: CacheEntry): (j: Json)
    requires e.createTimestamp.Some?
    ensures j.JObject?
    ensures Field(j, "createTimestamp") == Some(JString(FormatHis(e.createTimestamp.value)))
    ensures Field(j, "validForSeconds") == Some(OptionalInt(e.validForSeconds))
    ensures Field(j, "data") == Some(e.data)
    ensures Field(j, "for") == Some(OptionalString(e.subject))
  {
    var m := [
      ("createTimestamp", JString(FormatHis(e.createTimestamp.value))),
      ("validForSeconds", OptionalInt(e.validForSeconds)),
      ("data", e.data),
      ("for", OptionalString(e.subject))];
    LookupFirst(m, 0, "createTimestamp");
    LookupFirst(m, 1, "validForSeconds");
    LookupFirst(m, 2, "data");
    LookupFirst(m, 3, "for");
    JObject(m)
  }

  /** `loadFromJson`: the four fields are replaced by those of the object; the name stays.
      The create timestamp is read as "H:i:s" onto today. */
  function LoadFromJson(e: CacheEntry, j: Json): (r: CacheEntry)
    requires j.JObject?
    ensures r.name == e.name
    ensures Field(j, "data").Some? ==> r.data == Field(j, "data").value
    ensures Field(j, "data").None? ==> r.data == JNull
    ensures r.createTimestamp.Some? ==> 0 <= r.createTimestamp.value
  {
    var create := Field(j, "createTimestamp");
    var valid := Field(j, "validForSeconds");
    var data := Field(j, "data");
    var subject := Field(j, "for");
    CacheEntry(
      e.name,
      if valid.Some? && valid.value.JInt? then Some(valid.value.i) else None,
      if create.Some? && create.value.JString? then ParseHis(create.value.s) else None,
      if data.Some? then data.value else JNull,
      if subject.Some? && subject.value.JString? then Some(subject.value.s) else None)
  }

  /** A new entry is never valid, and neither is one missing any of data, create timestamp
      or lifetime. */
  lemma UnsetFieldsInvalid(e: CacheEntry, referenceTime: int)
    ensures !IsValid(NewEntry(e.name), referenceTime)
    ensures e.data == JNull || e.createTimestamp.None? || e.validForSeconds.None? ==> !IsValid(e, referenceTime)
  {
  }

  /** With everything set, validity is exactly "not later than create + lifetime": inclusive
      at the end, with no lower bound. */
  lemma ValidityWindow(e: CacheEntry, referenceTime: int)
    requires e.data != JNull && e.createTimestamp.Some? && e.validForSeconds.Some?
    ensures IsValid(e, referenceTime) <==> referenceTime <= e.createTimestamp.value + e.validForSeconds.value
    ensures IsValid(e, e.createTimestamp.value + e.validForSeconds.value)
    ensures !IsValid(e, e.createTimestamp.value + e.validForSeconds.value + 1)
  {
  }

  /** Validity only ends: an entry valid at some time was valid at every earlier time. */
  lemma ValidityMonotone(e: CacheEntry, a: int, b: int)
    requires a <= b && IsValid(e, b)
    ensures IsValid(e, a)
  {
  }

  /** `setFor` replaces the subject: afterwards the entry is for the new subject only. */
  lemma SetForReplaces(e: CacheEntry, s: string, t: string)
    ensures IsFor(SetFor(e, s), t) <==> s == t
  {
  }

  /** Writing and reading back restores lifetime, data and subject exactly, and the create
      timestamp up to its time of day. */
  lemma {:induction false} LoadToJson(e: CacheEntry, target: CacheEntry)
    requires e.createTimestamp.Some?
    ensures LoadFromJson(target, ToJson(e)) ==
      CacheEntry(target.name, e.validForSeconds, Some(TimeOfDay(e.createTimestamp.value)), e.data, e.subject)
  {
    ParseFormatHis(e.createTimestamp.value);
  }

  /** The date of the create timestamp does not survive: an entry created yesterday and
      expired by the same time today reads back as created today, and so as valid. */
  lemma ReloadForgetsDate(e: CacheEntry)
    requires e.data != JNull && e.createTimestamp.Some? && e.validForSeconds.Some?
    requires -SecondsPerDay <= e.createTimestamp.value < 0
    requires 0 <= e.validForSeconds.value < SecondsPerDay
    ensures var now := e.createTimestamp.value + SecondsPerDay;
      !IsValid(e, now) && IsValid(LoadFromJson(NewEntry(e.name), ToJson(e)), now)
  {
    LoadToJson(e, NewEntry(e.name));
    assert TimeOfDay(e.createTimestamp.value) == e.createTimestamp.value + SecondsPerDay;
  }
}

=== FILE: clock.dfy ===
/** Times of day as the core writes and reads them: `DateTime::format("H:i:s")`,
    `DateTime::createFromFormat("H:i", …)` and `createFromFormat("H:i:s", …)`.

    An instant is a number of seconds counted from midnight of the day the program runs
    ("today"); negative values lie on earlier days, values of 86400 and more on later ones.
    Parsing a time of day with no date in the format places it on today, and fields past their
    usual range roll over into the next hour or day ("24:00" is tomorrow's midnight). */
module Clock {
  import opened Wrappers
  import opened Text

  const SecondsPerDay := 86400

  /** The seconds since the most recent midnight. */
  function TimeOfDay(t: int): (r: int)
    ensures 0 <= r < SecondsPerDay
    ensures (t - r) % SecondsPerDay == 0
  {
    t % SecondsPerDay
  }

  /** A number below 100 written with exactly two digits. */
  function TwoDigits(n: int): (s: string)
    requires 0 <= n < 100
    ensures |s| == 2 && AllDigits(s)
  {
    [Digit(n / 10), Digit(n % 10)]
  }

  /** `format("H:i:s")`: hours, minutes and seconds of the time of day, two digits each. */
  function FormatHis(t: int): (s: string)
    ensures |s| == 8
  {
    var d := TimeOfDay(t);
    TwoDigits(d / 3600) + ":" + TwoDigits(d % 3600 / 60) + ":" + TwoDigits(d % 60)
  }

  /** Euclidean division is determined by quotient and remainder. */
  lemma DivMod(x: int, d: int, q: int, r: int)
    requires 0 < d && 0 <= r < d && x == q * d + r
    ensures x / d == q && x % d == r
  {
    var k := q - x / d;
    assert k * d == x % d - r;
  }

  /** An instant of today is its own time of day. */
  lemma TimeOfDayToday(t: int)
    requires 0 <= t < SecondsPerDay
    ensures TimeOfDay(t) == t
  {
    DivMod(t, SecondsPerDay, 0, t);
  }

  /** An instant given by its hours, minutes and seconds is written with those fields. */
  lemma FormatHisFields(h: int, m: int, c: int)
    requires 0 <= h < 24 && 0 <= m < 60 && 0 <= c < 60
    ensures FormatHis(h * 3600 + m * 60 + c) == TwoDigits(h) + ":" + TwoDigits(m) + ":" + TwoDigits(c)
  {
    var t := h * 3600 + m * 60 + c;
    DivMod(t, SecondsPerDay, 0, t);
    DivMod(t, 3600, h, m * 60 + c);
    DivMod(m * 60 + c, 60, m, c);
    DivMod(t, 60, h * 60 + m, c);
  }

  /** `format("H:i")`: hours and minutes of the time of day. */
  function FormatHi(t: int): (s: string)
    ensures |s| == 5
  {
    var d := TimeOfDay(t);
    TwoDigits(d / 3600) + ":" + TwoDigits(d % 3600 / 60)
  }

  /** How many digits the hour field `H` takes from the front of `s`: one or two. */
  function HourLength(s: string): (n: nat)
    ensures n <= 2 && n <= |s|
    ensures AllDigits(s[..n])
  {
    if |s| >= 2 && IsDigit(s[0]) && IsDigit(s[1]) then 2
    else if |s| >= 1 && IsDigit(s[0]) then 1
    else 0
  }

  /** Whether `s[i..]` starts with a colon followed by two digits. */
  predicate ColonTwoDigitsAt(s: string, i: nat) {
    i + 3 <= |s| && s[i] == ':' && IsDigit(s[i + 1]) && IsDigit(s[i + 2])
  }

  /** `createFromFormat("H:i", s)`: an hour of one or two digits, a colon and two minute digits,
      nothing after them; the seconds become zero. `None` is PHP's `false`. */
  function ParseHi(s: string): (r: Option<int>)
    ensures r.Some? ==> r.value >= 0 && r.value % 60 == 0
  {
    var h := HourLength(s);
    if h > 0 && |s| == h + 3 && ColonTwoDigitsAt(s, h) then
      Some(DigitsValue(s[..h]) * 3600 + DigitsValue(s[h + 1..h + 3]) * 60)
    else None
  }

  /** `createFromFormat("H:i:s", s)`: as `ParseHi`, followed by a colon and two second digits. */
  function ParseHis(s: string): (r: Option<int>)
    ensures r.Some? ==> r.value >= 0
  {
    var h := HourLength(s);
    if h > 0 && |s| == h + 6 && ColonTwoDigitsAt(s, h) && ColonTwoDigitsAt(s, h + 3) then
      Some(DigitsValue(s[..h]) * 3600 + DigitsValue(s[h + 1..h + 3]) * 60
           + DigitsValue(s[h + 4..h + 6]))
    else None
  }

  /** `$t < $limit` where `$limit` came from `createFromFormat`: a failed parse left `false`
      there, and a DateTime compared with `false` counts as the greater of the two. */
  predicate EarlierThan(t: int, limit: Option<int>) {
    limit.Some? && t < limit.value
  }

  /** `$t > $limit`, with the same reading of a `false` limit. */
  predicate LaterThan(t: int, limit: Option<int>) {
    limit.None? || t > limit.value
  }

  lemma TwoDigitsValue(n: int)
    requires 0 <= n < 100
    ensures DigitsValue(TwoDigits(n)) == n
  {
    var s := TwoDigits(n);
    assert s[..1][..0] == [];
    assert DigitsValue(s[..1]) == DigitValue(s[0]);
    assert s[..|s| - 1] == s[..1];
  }

  /** Two-digit strings compare like the numbers they show. */
  lemma TwoDigitsOrder(x: int, y: int)
    requires 0 <= x < 100 && 0 <= y < 100
    ensures LexLe(TwoDigits(x), TwoDigits(y)) <==> x <= y
  {
    var a, b := TwoDigits(x), TwoDigits(y);
    assert a[1..][1..] == [] && b[1..][1..] == [];
    assert a[1..][0] == a[1] && b[1..][0] == b[1];
    assert a[0] < b[0] <==> x / 10 < y / 10;
    assert a[0] == b[0] <==> x / 10 == y / 10;
    assert a[1] < b[1] <==> x % 10 < y % 10;
    assert a[1] == b[1] <==> x % 10 == y % 10;
    assert x <= y <==> x / 10 < y / 10 || (x / 10 == y / 10 && x % 10 <= y % 10);
    assert LexLe(a[1..], b[1..]) <==> x % 10 <= y % 10;
  }

  /** Reading back a formatted time gives the time of day it showed. */
  lemma ParseFormatHis(t: int)
    ensures ParseHis(FormatHis(t)) == Some(TimeOfDay(t))
  {
    var d := TimeOfDay(t);
    var s := FormatHis(t);
    TwoDigitsValue(d / 3600);
    TwoDigitsValue(d % 3600 / 60);
    TwoDigitsValue(d % 60);
    assert s[..2] == TwoDigits(d / 3600);
    assert s[3..5] == TwoDigits(d % 3600 / 60);
    assert s[6..8] == TwoDigits(d % 60);
  }

  /** "H:i" text of two two-digit fields reads as that many hours and minutes. */
  lemma ParseHiFields(h: int, m: int)
    requires 0 <= h < 100 && 0 <= m < 100
    ensures ParseHi(TwoDigits(h) + ":" + TwoDigits(m)) == Some(h * 3600 + m * 60)
  {
    var s := TwoDigits(h) + ":" + TwoDigits(m);
    TwoDigitsValue(h);
    TwoDigitsValue(m);
    assert s[..2] == TwoDigits(h);
    assert s[3..5] == TwoDigits(m);
  }

  /** Reading back a formatted "H:i" gives the time of day with its seconds dropped. */
  lemma ParseFormatHi(t: int)
    ensures ParseHi(FormatHi(t)) == Some(TimeOfDay(t) - TimeOfDay(t) % 60)
  {
    var d := TimeOfDay(t);
    ParseHiFields(d / 3600, d % 3600 / 60);
  }

  /** Three two-digit fields separated by colons compare field by field. */
  lemma FieldsOrder(h: int, m: int, c: int, h': int, m': int, c': int)
    requires 0 <= h < 100 && 0 <= m < 100 && 0 <= c < 100
    requires 0 <= h' < 100 && 0 <= m' < 100 && 0 <= c' < 100
    ensures LexLe(TwoDigits(h) + ":" + TwoDigits(m) + ":" + TwoDigits(c),
                  TwoDigits(h') + ":" + TwoDigits(m') + ":" + TwoDigits(c'))
        <==> h < h' || (h == h' && (m < m' || (m == m' && c <= c')))
  {
    var hx, mx, sx := TwoDigits(h), TwoDigits(m), TwoDigits(c);
    var hy, my, sy := TwoDigits(h'), TwoDigits(m'), TwoDigits(c');
    assert hx + ":" + mx + ":" + sx == hx + (":" + (mx + (":" + sx)));
    assert hy + ":" + my + ":" + sy == hy + (":" + (my + (":" + sy)));
    TwoDigitsValue(h);
    TwoDigitsValue(h');
    TwoDigitsValue(m);
    TwoDigitsValue(m');
    TwoDigitsOrder(h, h');
    TwoDigitsOrder(m, m');
    TwoDigitsOrder(c, c');
    LexLeSplit(hx, ":" + (mx + (":" + sx)), hy, ":" + (my + (":" + sy)));
    LexLeSplit(":", mx + (":" + sx), ":", my + (":" + sy));
    LexLeSplit(mx, ":" + sx, my, ":" + sy);
    LexLeSplit(":", sx, ":", sy);
  }

  /** A time of day orders like its (hours, minutes, seconds) triple. */
  lemma TimeOfDayFieldsOrder(x: int, y: int)
    requires 0 <= x < SecondsPerDay && 0 <= y < SecondsPerDay
    ensures x <= y <==>
      x / 3600 < y / 3600 || (x / 3600 == y / 3600 &&
        (x % 3600 / 60 < y % 3600 / 60 || (x % 3600 / 60 == y % 3600 / 60 && x % 60 <= y % 60)))
  {
    assert x == x / 3600 * 3600 + x % 3600 / 60 * 60 + x % 60;
    assert y == y / 3600 * 3600 + y % 3600 / 60 * 60 + y % 60;
  }

  /** Comparing two "H:i:s" texts as strings, as PHP does, agrees with comparing the times of
      day they show. */
  lemma FormatHisOrder(a: int, b: int)
    ensures LexLe(FormatHis(a), FormatHis(b)) <==> TimeOfDay(a) <= TimeOfDay(b)
  {
    var x, y := TimeOfDay(a), TimeOfDay(b);
    FieldsOrder(x / 3600, x % 3600 / 60, x % 60, y / 3600, y % 3600 / 60, y % 60);
    TimeOfDayFieldsOrder(x, y);
  }

  /** 15:00 is written "15:00:00". */
  lemma FormatHisOnTime()
    ensures FormatHis(15 * 3600) == "15:00:00"
  {
    FormatHisFields(15, 0, 0);
    assert TwoDigits(15) == "15" && TwoDigits(0) == "00";
  }

  /** 12:20 is written "12:20:00". */
  lemma FormatHisTwenty()
    ensures FormatHis(12 * 3600 + 20 * 60) == "12:20:00"
  {
    FormatHisFields(12, 20, 0);
    assert TwoDigits(12) == "12" && TwoDigits(20) == "20" && TwoDigits(0) == "00";
  }

  /** 12:30 is written "12:30:00". */
  lemma FormatHisThirty()
    ensures FormatHis(12 * 3600 + 30 * 60) == "12:30:00"
  {
    FormatHisFields(12, 30, 0);
    assert TwoDigits(12) == "12" && TwoDigits(30) == "30" && TwoDigits(0) == "00";
  }
}

=== FILE: configparser.dfy ===
/** `ConfigParser`: reads values out of an associative configuration array. */
module Configuration {
  import opened Wrappers
  import opened JsonValues

  /** The configuration array, as its key/value pairs in order. */
  datatype ConfigParser = ConfigParser(values: seq<(string, Json)>)

  /** A PHP array never holds the same key twice. */
  predicate UniqueKeys(values: seq<(string, Json)>) {
    forall i, j :: 0 <= i < j < |values| ==> values[i].0 != values[j].0
  }

  /** `get(key, default)`: the configured value when it is set (present and not null), the
      default otherwise. A stored `false`, `0` or `""` is returned, not replaced. */
  function Get(c: ConfigParser, key: string, default: Json): (r: Json)
    ensures (forall i :: 0 <= i < |c.values| ==> c.values[i].0 != key) ==> r == default
    ensures r != default ==> r != JNull && exists i :: 0 <= i < |c.values| && c.values[i] == (key, r)
  {
    LookupSpec(c.values, key);
    var v := Lookup(c.values, key);
    if IsSet(v) then v.value else default
  }

  /** Every key that is set yields its own value, whatever the default. */
  lemma GetStoredValue(c: ConfigParser, i: nat, default: Json)
    requires UniqueKeys(c.values)
    requires i < |c.values| && c.values[i].1 != JNull
    ensures Get(c, c.values[i].0, default) == c.values[i].1
  {
    var key := c.values[i].0;
    var v := Lookup(c.values, key);
    LookupSpec(c.values, key);
    var j :| 0 <= j < |c.values| && c.values[j] == (key, v.value);
    assert j == i;
  }

  /** A key stored as null reads as the default, like an absent one. */
  lemma GetStoredNull(c: ConfigParser, i: nat, default: Json)
    requires UniqueKeys(c.values)
    requires i < |c.values| && c.values[i].1 == JNull
    ensures Get(c, c.values[i].0, default) == default
  {
    var key := c.values[i].0;
    var v := Lookup(c.values, key);
    LookupSpec(c.values, key);
    var j :| 0 <= j < |c.values| && c.values[j] == (key, v.value);
    assert j == i;
  }

  /** The examples of the repository's tests: absent keys give the default, a stored `false`
      is returned as `false` although the default is `true`. */
  lemma GetExamples()
    ensures Get(ConfigParser([("hallo", JString("welt"))]), "universum", JNull) == JNull
    ensures Get(ConfigParser([("hallo", JString("welt"))]), "falsch", JBool(false)) == JBool(false)
    ensures Get(ConfigParser([("hallo", JString("welt"))]), "wichtigeZahl", JInt(192387)) == JInt(192387)
    ensures Get(ConfigParser([("text", JString("Wortschlange")), ("Unwahrheit", JBool(false))]),
                "Unwahrheit", JBool(true)) == JBool(false)
    ensures Get(ConfigParser([("text", JString("Wortschlange")), ("Unwahrheit", JBool(false))]),
                "text", JNull) == JString("Wortschlange")
  {
  }
}

=== FILE: dataretriever.dfy ===
/** `DataRetriever`: the station info loaders of the configured stations, and the arrivals and
    departures of all of them for a reference time. */
module DataRetrievers {
  import opened Wrappers
  import opened Text
  import opened JsonValues
  import opened Configuration
  import opened TimeSpans
  import opened StationEvents
  import opened Caching
  import opened StationInfoCaches
  import opened StationInfoLoaders

  const InvalidStationsError := "Station IDs property must be an array"
  const InvalidIgnoreLinesError := "Ignore lines property must be an array"

  /** `StationInfoLoaderFactory::createStationInfoLoader`: the loader of a station id, vehicle
      type and ignore lines. */
  type Factory = (string, int, seq<Json>) -> StationInfoLoader

  datatype DataRetriever = DataRetriever(
    loaders: seq<StationInfoLoader>,
    arrivalTimeSpan: RelativeTimeSpan,
    departureTimeSpan: RelativeTimeSpan)

  /** The constructor: no loaders yet. */
  function NewDataRetriever(arrivalTimeSpan: RelativeTimeSpan, departureTimeSpan: RelativeTimeSpan)
    : (d: DataRetriever)
    ensures d.loaders == [] && d.arrivalTimeSpan == arrivalTimeSpan && d.departureTimeSpan == departureTimeSpan
  {
    DataRetriever([], arrivalTimeSpan, departureTimeSpan)
  }

  function VehicleTypeError(name: string): string {
    "Invalid vehicle type \"" + name + "\""
  }

  /** `getVehicleTypeId`: "train" and "bus" in any letter case; any other name is rejected. */
  function GetVehicleTypeId(name: string): (r: Result<int>)
    ensures r.Success? <==> Lower(name) == "train" || Lower(name) == "bus"
    ensures r.Success? ==> r.value == (if Lower(name) == "train" then VehicleTrain else VehicleBus)
    ensures r.Failure? ==> r.error == VehicleTypeError(name)
  {
    if Lower(name) == "train" then Success(VehicleTrain)
    else if Lower(name) == "bus" then Success(VehicleBus)
    else Failure(VehicleTypeError(name))
  }

  /** Names that differ only in letter case name the same vehicle type. */
  lemma VehicleTypeIgnoresCase(a: string, b: string)
    requires Lower(a) == Lower(b)
    ensures GetVehicleTypeId(a).Success? <==> GetVehicleTypeId(b).Success?
    ensures GetVehicleTypeId(a).Success? ==> GetVehicleTypeId(a).value == GetVehicleTypeId(b).value
  {
  }

  /** The names of the repository's tests. */
  lemma VehicleTypeExamples()
    ensures GetVehicleTypeId("train") == Success(VehicleTrain)
    ensures GetVehicleTypeId("Bus") == Success(VehicleBus)
    ensures GetVehicleTypeId("submarine") == Failure("Invalid vehicle type \"submarine\"")
  {
    assert Lower("train") == "train";
    assert Lower("Bus") == "bus";
    assert Lower("submarine")[0] == 's';
  }

  /** The stations planned from the configuration, as (station id, vehicle type) pairs in the
      order their loaders are created, and how the planning ended. */
  datatype Planned = Planned(stations: seq<(string, int)>, outcome: Outcome)

  /** The inner `foreach` over the station ids of one vehicle type: each id is coerced to the
      string the factory takes; the first that does not coerce raises the `TypeError`. */
  function StationIds(ids: seq<Json>, vehicleType: int): (p: Planned)
    ensures |p.stations| <= |ids|
    ensures p.outcome.Pass? ==> |p.stations| == |ids|
    decreases |ids|
  {
    if |ids| == 0 then Planned([], Pass)
    else
      var id := CoerceToString(ids[0]);
      if id.Failure? then Planned([], Fail(id.error))
      else
        var rest := StationIds(ids[1..], vehicleType);
        Planned([(id.value, vehicleType)] + rest.stations, rest.outcome)
  }

  /** The planned stations are the ids before the first one that does not coerce, each with
      the vehicle type; the planning fails exactly when there is such an id, with its error. */
  lemma {:induction false} StationIdsSpec(ids: seq<Json>, vehicleType: int)
    ensures var p := StationIds(ids, vehicleType);
      |p.stations| <= |ids|
      && (forall i :: 0 <= i < |p.stations| ==>
            CoerceToString(ids[i]) == Success(p.stations[i].0) && p.stations[i].1 == vehicleType)
    ensures var p := StationIds(ids, vehicleType);
      p.outcome.Pass? <==> forall i :: 0 <= i < |ids| ==> CoerceToString(ids[i]).Success?
    ensures var p := StationIds(ids, vehicleType);
      p.outcome.Pass? ==> |p.stations| == |ids|
    ensures var p := StationIds(ids, vehicleType);
      p.outcome.Fail? ==>
        |p.stations| < |ids| && CoerceToString(ids[|p.stations|]).Failure?
        && p.outcome.error == CoerceToString(ids[|p.stations|]).error
    decreases |ids|
  {
    if |ids| > 0 && CoerceToString(ids[0]).Success? {
      StationIdsSpec(ids[1..], vehicleType);
      var rest := StationIds(ids[1..], vehicleType);
      assert forall i :: 1 <= i < |ids| ==> ids[1..][i - 1] == ids[i];
      var p := StationIds(ids, vehicleType);
      assert forall i :: 1 <= i < |p.stations| ==> p.stations[i] == rest.stations[i - 1];
    }
  }

  /** The stations of one entry of the "stations" setting: its key names the vehicle type. */
  function EntryStations(entry: (string, Json)): Planned {
    var vehicleType := GetVehicleTypeId(entry.0);
    if vehicleType.Failure? then Planned([], Fail(vehicleType.error))
    else StationIds(Elements(entry.1), vehicleType.value)
  }

  /** An entry whose vehicle type is known and whose station ids all coerce. */
  predicate ValidEntry(entry: (string, Json)) {
    GetVehicleTypeId(entry.0).Success?
    && forall j :: 0 <= j < |Elements(entry.1)| ==> CoerceToString(Elements(entry.1)[j]).Success?
  }

  /** An entry plans one station per listed id exactly when it is valid; the stations it plans
      are trains or buses. */
  lemma EntryStationsSpec(entry: (string, Json))
    ensures EntryStations(entry).outcome.Pass? <==> ValidEntry(entry)
    ensures EntryStations(entry).outcome.Pass? ==> |EntryStations(entry).stations| == |Elements(entry.1)|
    ensures forall i :: 0 <= i < |EntryStations(entry).stations| ==>
      EntryStations(entry).stations[i].1 in {VehicleTrain, VehicleBus}
  {
    var vehicleType := GetVehicleTypeId(entry.0);
    if vehicleType.Success? {
      StationIdsSpec(Elements(entry.1), vehicleType.value);
    }
  }

  /** Plans the entries one after the other, up to the first one whose plan fails. */
  function PlanEach<T>(plan: T -> Planned, entries: seq<T>): Planned
    decreases |entries|
  {
    if |entries| == 0 then Planned([], Pass)
    else
      var first := plan(entries[0]);
      if first.outcome.Fail? then first
      else
        var rest := PlanEach(plan, entries[1..]);
        Planned(first.stations + rest.stations, rest.outcome)
  }

  /** The outer `foreach` over the "stations" setting, in its order, up to the first error. */
  function ConfiguredStations(entries: seq<(string, Json)>): Planned {
    PlanEach(EntryStations, entries)
  }

  /** The stations of two lists of entries one after the other: those of the first, then, when
      the first did not fail, those of the second. */
  lemma {:induction false} PlanEachAppend<T>(plan: T -> Planned, a: seq<T>, b: seq<T>)
    ensures PlanEach(plan, a + b)
            == if PlanEach(plan, a).outcome.Fail? then PlanEach(plan, a)
               else Planned(PlanEach(plan, a).stations + PlanEach(plan, b).stations, PlanEach(plan, b).outcome)
    decreases |a|
  {
    if |a| == 0 {
      assert a + b == b;
      var second := PlanEach(plan, b);
      assert [] + second.stations == second.stations;
    } else {
      assert (a + b)[0] == a[0];
      assert (a + b)[1..] == a[1..] + b;
      var first := plan(a[0]);
      if first.outcome.Pass? {
        PlanEachAppend(plan, a[1..], b);
        var tail := PlanEach(plan, a[1..]);
        if tail.outcome.Pass? {
          var second := PlanEach(plan, b);
          assert PlanEach(plan, a) == Planned(first.stations + tail.stations, Pass);
          assert (first.stations + tail.stations) + second.stations == first.stations + (tail.stations + second.stations);
        }
      }
    }
  }

  /** The number of station ids the entries list. */
  function TotalIds(entries: seq<(string, Json)>): nat
    decreases |entries|
  {
    if |entries| == 0 then 0 else |Elements(entries[0].1)| + TotalIds(entries[1..])
  }

  /** The setting is planned in full exactly when every entry is valid: then there is one
      station per listed id. Every planned station is a train or bus station. */
  lemma {:induction false} ConfiguredStationsSpec(entries: seq<(string, Json)>)
    ensures ConfiguredStations(entries).outcome.Pass? <==> forall i :: 0 <= i < |entries| ==> ValidEntry(entries[i])
    ensures ConfiguredStations(entries).outcome.Pass? ==> |ConfiguredStations(entries).stations| == TotalIds(entries)
    ensures forall i :: 0 <= i < |ConfiguredStations(entries).stations| ==>
      ConfiguredStations(entries).stations[i].1 in {VehicleTrain, VehicleBus}
    decreases |entries|
  {
    if |entries| > 0 {
      EntryStationsSpec(entries[0]);
      ConfiguredStationsSpec(entries[1..]);
      assert forall i :: 1 <= i < |entries| ==> entries[1..][i - 1] == entries[i];
    }
  }

  /** The setting of the repository's vehicle type test: the train and bus stations are
      planned, then the unknown vehicle type ends the planning. */
  lemma PlanningStopsAtUnknownType()
    ensures ConfiguredStations([("train", JArray([JString("abc")])), ("bus", JArray([JString("def")])),
                                ("submarine", JArray([JString("wrong")]))])
            == Planned([("abc", VehicleTrain), ("def", VehicleBus)], Fail("Invalid vehicle type \"submarine\""))
  {
    var entries := [("train", JArray([JString("abc")])), ("bus", JArray([JString("def")])),
                    ("submarine", JArray([JString("wrong")]))];
    VehicleTypeExamples();
    assert Lower("bus") == "bus";
    assert EntryStations(entries[0]) == Planned([("abc", VehicleTrain)], Pass);
    assert EntryStations(entries[1]) == Planned([("def", VehicleBus)], Pass);
    assert entries[1..][1..] == [entries[2]];
    assert ConfiguredStations(entries[1..][1..]) == Planned([], Fail("Invalid vehicle type \"submarine\""));
  }

  /** What `addStations` leaves: the retriever with the loaders it created, and how it ended. */
  datatype Added = Added(retriever: DataRetriever, outcome: Outcome)

  /** The loaders the factory creates for planned stations, in order. */
  function CreateLoaders(factory: Factory, stations: seq<(string, int)>, ignoreLines: seq<Json>)
    : (loaders: seq<StationInfoLoader>)
    ensures |loaders| == |stations|
  {
    seq(|stations|, i requires 0 <= i < |stations| => factory(stations[i].0, stations[i].1, ignoreLines))
  }

  /** `addStations`: both settings must be arrays, "stations" checked first; then one loader is
      appended per configured station id. An invalid vehicle type or station id ends the
      loop, and the loaders created before it stay. */
  function AddStations(d: DataRetriever, config: ConfigParser, factory: Factory): (r: Added)
    ensures !IsArray(Get(config, "stations", JArray([]))) ==> r.outcome == Fail(InvalidStationsError)
    ensures IsArray(Get(config, "stations", JArray([]))) && !IsArray(Get(config, "ignoreLines", JArray([]))) ==>
      r.outcome == Fail(InvalidIgnoreLinesError)
    ensures !IsArray(Get(config, "stations", JArray([]))) || !IsArray(Get(config, "ignoreLines", JArray([]))) ==>
      |r.retriever.loaders| == |d.loaders|
    ensures r.retriever.arrivalTimeSpan == d.arrivalTimeSpan && r.retriever.departureTimeSpan == d.departureTimeSpan
    ensures |d.loaders| <= |r.retriever.loaders| && r.retriever.loaders[..|d.loaders|] == d.loaders
  {
    var stations := Get(config, "stations", JArray([]));
    if !IsArray(stations) then Added(d, Fail(InvalidStationsError))
    else
      var ignoreLines := Get(config, "ignoreLines", JArray([]));
      if !IsArray(ignoreLines) then Added(d, Fail(InvalidIgnoreLinesError))
      else
        var planned := ConfiguredStations(Entries(stations));
        var loaders := d.loaders + CreateLoaders(factory, planned.stations, Elements(ignoreLines));
        assert loaders[..|d.loaders|] == d.loaders;
        Added(d.(loaders := loaders), planned.outcome)
  }

  /** With both settings arrays, the retriever gains one loader per planned station, created
      by the factory from the station's id and vehicle type and the ignore lines listed. */
  lemma AddStationsLoaders(d: DataRetriever, config: ConfigParser, factory: Factory)
    requires IsArray(Get(config, "stations", JArray([])))
    requires IsArray(Get(config, "ignoreLines", JArray([])))
    ensures var planned := ConfiguredStations(Entries(Get(config, "stations", JArray([]))));
      var r := AddStations(d, config, factory);
      r.outcome == planned.outcome
      && |r.retriever.loaders| == |d.loaders| + |planned.stations|
      && forall i :: 0 <= i < |planned.stations| ==>
           r.retriever.loaders[|d.loaders| + i]
             == factory(planned.stations[i].0, planned.stations[i].1, Elements(Get(config, "ignoreLines", JArray([]))))
  {
  }

  /** The infos of all loaders, with each loader's cache and the cache directory afterwards. */
  datatype Retrieved = Retrieved(infos: seq<Json>, caches: seq<StationInfoCache>, store: Store)

  /** One loader's load on a cache directory. */
  type Step = (StationInfoLoader, Store) -> Result<Loaded>

  /** The `foreach` over the loaders: each loads in turn, on the cache directory the previous
      one left, and its infos are appended (`array_merge`). The first exception ends it. */
  function LoadEach(step: Step, loaders: seq<StationInfoLoader>, store: Store): (r: Result<Retrieved>)
    ensures r.Success? ==> |r.value.caches| == |loaders|
    decreases |loaders|
  {
    if |loaders| == 0 then Success(Retrieved([], [], store))
    else
      var first := step(loaders[0], store);
      if first.Failure? then Failure(first.error)
      else
        var rest := LoadEach(step, loaders[1..], first.value.store);
        if rest.Failure? then Failure(rest.error)
        else Success(Retrieved(first.value.infos + rest.value.infos, [first.value.cache] + rest.value.caches,
                               rest.value.store))
  }

  /** The cache directory the `foreach` over the loaders leaves, whether it runs to the end or
      an exception stops it: the files the loaders before the failing one wrote stay written.
      A load that fails writes nothing. */
  function LoadEachStore(step: Step, loaders: seq<StationInfoLoader>, store: Store): (s: Store)
    ensures LoadEach(step, loaders, store).Success? ==> s == LoadEach(step, loaders, store).value.store
    decreases |loaders|
  {
    if |loaders| == 0 then store
    else
      var first := step(loaders[0], store);
      if first.Failure? then store else LoadEachStore(step, loaders[1..], first.value.store)
  }

  /** A failed loop over the loaders stops at the first load that fails: the loaders before it
      load in full, the exception is that load's, and the cache directory is the one they
      left. */
  lemma {:induction false} LoadEachFailure(step: Step, loaders: seq<StationInfoLoader>, store: Store)
    requires LoadEach(step, loaders, store).Failure?
    ensures exists k :: (0 <= k < |loaders| && LoadEach(step, loaders[..k], store).Success?
                         && var before := LoadEach(step, loaders[..k], store).value.store;
                            step(loaders[k], before).Failure?
                            && LoadEach(step, loaders, store).error == step(loaders[k], before).error
                            && LoadEachStore(step, loaders, store) == before)
    decreases |loaders|
  {
    var first := step(loaders[0], store);
    if first.Failure? {
      assert loaders[..0] == [];
      assert LoadEach(step, loaders[..0], store).value.store == store;
    } else {
      var rest := loaders[1..];
      LoadEachFailure(step, rest, first.value.store);
      var k :| 0 <= k < |rest| && LoadEach(step, rest[..k], first.value.store).Success?
        && var before := LoadEach(step, rest[..k], first.value.store).value.store;
           step(rest[k], before).Failure?
           && LoadEach(step, rest, first.value.store).error == step(rest[k], before).error
           && LoadEachStore(step, rest, first.value.store) == before;
      assert loaders[..k + 1][0] == loaders[0] && loaders[..k + 1][1..] == rest[..k];
      assert loaders[k + 1] == rest[k];
    }
  }

  /** The repository's scenario of two loaders that both miss their cache: the first fetches
      and caches, the second's fetch fails; the exception ends the retrieval, but the first
      loader's file stays written. */
  lemma EarlierWritesKept(step: Step, l1: StationInfoLoader, l2: StationInfoLoader, store: Store)
    requires step(l1, store).Success? && step(l2, step(l1, store).value.store).Failure?
    ensures LoadEach(step, [l1, l2], store) == Failure(step(l2, step(l1, store).value.store).error)
    ensures LoadEachStore(step, [l1, l2], store) == step(l1, store).value.store
  {
    assert [l1, l2][1..] == [l2];
    assert [l2][1..] == [];
  }

  /** The loads of all loaders for one window. */
  function LoadAll(loaders: seq<StationInfoLoader>, store: Store, kind: InfoKind, referenceTime: int, start: int,
                   end: int): Result<Retrieved>
  {
    LoadEach((l, s) => Load(l, s, kind, referenceTime, start, end), loaders, store)
  }

  /** Loading two lists of loaders one after the other: the infos of the first list, then
      those of the second, which starts on the cache directory the first left. */
  lemma {:induction false} LoadEachAppend(step: Step, a: seq<StationInfoLoader>, b: seq<StationInfoLoader>,
                                          store: Store)
    ensures var first := LoadEach(step, a, store);
      var both := LoadEach(step, a + b, store);
      if first.Failure? then both == Failure(first.error)
      else
        var second := LoadEach(step, b, first.value.store);
        if second.Failure? then both == Failure(second.error)
        else both == Success(Retrieved(first.value.infos + second.value.infos, first.value.caches + second.value.caches,
                                       second.value.store))
    decreases |a|
  {
    if |a| == 0 {
      assert a + b == b;
      var second := LoadEach(step, b, store);
      if second.Success? {
        assert [] + second.value.infos == second.value.infos && [] + second.value.caches == second.value.caches;
      }
    } else {
      assert (a + b)[0] == a[0];
      assert (a + b)[1..] == a[1..] + b;
      var head := step(a[0], store);
      if head.Success? {
        LoadEachAppend(step, a[1..], b, head.value.store);
        var first := LoadEach(step, a, store);
        if first.Success? {
          var tail := LoadEach(step, a[1..], head.value.store);
          var second := LoadEach(step, b, first.value.store);
          if second.Success? {
            assert (head.value.infos + tail.value.infos) + second.value.infos
                   == head.value.infos + (tail.value.infos + second.value.infos);
            assert ([head.value.cache] + tail.value.caches) + second.value.caches
                   == [head.value.cache] + (tail.value.caches + second.value.caches);
          }
        }
      }
    }
  }

  /** Loaders that each keep their cache's name keep them all. */
  lemma {:induction false} LoadEachKeepsNames(step: Step, loaders: seq<StationInfoLoader>, store: Store)
    requires forall l, s :: step(l, s).Success? ==> step(l, s).value.cache.entry.name == l.cache.entry.name
    requires LoadEach(step, loaders, store).Success?
    ensures var r := LoadEach(step, loaders, store).value;
      forall i :: 0 <= i < |loaders| ==> r.caches[i].entry.name == loaders[i].cache.entry.name
    decreases |loaders|
  {
    if |loaders| > 0 {
      LoadEachKeepsNames(step, loaders[1..], step(loaders[0], store).value.store);
    }
  }

  /** Each loader keeps its own cache: the cache a loader leaves has the name of the cache it
      had. */
  lemma LoadAllKeepsNames(loaders: seq<StationInfoLoader>, store: Store, kind: InfoKind, referenceTime: int,
                          start: int, end: int)
    requires LoadAll(loaders, store, kind, referenceTime, start, end).Success?
    ensures var r := LoadAll(loaders, store, kind, referenceTime, start, end).value;
      forall i :: 0 <= i < |loaders| ==> r.caches[i].entry.name == loaders[i].cache.entry.name
  {
    var step: Step := (l, s) => Load(l, s, kind, referenceTime, start, end);
    forall l, s | step(l, s).Success? ensures step(l, s).value.cache.entry.name == l.cache.entry.name {
      if kind == Arrivals {
        assert step(l, s) == LoadArrivals(l, s, referenceTime, start, end);
      } else {
        assert step(l, s) == LoadDepartures(l, s, referenceTime, start, end);
      }
    }
    LoadEachKeepsNames(step, loaders, store);
  }

  /** Loaders that each load nothing and change nothing load nothing together. */
  lemma {:induction false} LoadEachNothing(step: Step, loaders: seq<StationInfoLoader>, store: Store)
    requires forall l, s :: step(l, s) == Success(Loaded([], l.cache, s))
    ensures var r := LoadEach(step, loaders, store);
      r.Success? && r.value.infos == [] && r.value.store == store
      && forall i :: 0 <= i < |loaders| ==> r.value.caches[i] == loaders[i].cache
    decreases |loaders|
  {
    if |loaders| > 0 {
      LoadEachNothing(step, loaders[1..], store);
    }
  }

  /** An inverted window retrieves nothing and changes nothing. */
  lemma InvertedWindowLoadsNothing(loaders: seq<StationInfoLoader>, store: Store, kind: InfoKind,
                                   referenceTime: int, start: int, end: int)
    requires end < start
    ensures var r := LoadAll(loaders, store, kind, referenceTime, start, end);
      r.Success? && r.value.infos == [] && r.value.store == store
      && forall i :: 0 <= i < |loaders| ==> r.value.caches[i] == loaders[i].cache
  {
    LoadEachNothing((l, s) => Load(l, s, kind, referenceTime, start, end), loaders, store);
  }

  /** The loaders with the caches a retrieval left them. */
  function WithCaches(loaders: seq<StationInfoLoader>, caches: seq<StationInfoCache>): (r: seq<StationInfoLoader>)
    requires |caches| == |loaders|
    ensures |r| == |loaders|
    ensures forall i :: 0 <= i < |r| ==> r[i].cache == caches[i]
  {
    seq(|loaders|, i requires 0 <= i < |loaders| => loaders[i].(cache := caches[i]))
  }

  /** A retrieval: the infos, the retriever with its loaders' caches updated, and the cache
      directory. */
  datatype Retrieval = Retrieval(infos: seq<Json>, retriever: DataRetriever, store: Store)

  /** `retrieveArrivals` / `retrieveDepartures`: the window of the kind's time span around the
      reference time, loaded from every loader. */
  function Retrieve(d: DataRetriever, store: Store, kind: InfoKind, referenceTime: int): (r: Result<Retrieval>)
    ensures var span := if kind == Arrivals then d.arrivalTimeSpan else d.departureTimeSpan;
      GetStartTime(span, referenceTime).Failure? || GetEndTime(span, referenceTime).Failure? ==> r == Failure(CloneError)
    ensures var span := if kind == Arrivals then d.arrivalTimeSpan else d.departureTimeSpan;
      GetStartTime(span, referenceTime).Success? && GetEndTime(span, referenceTime).Success? ==>
        var loaded := LoadAll(d.loaders, store, kind, referenceTime, GetStartTime(span, referenceTime).value,
                              GetEndTime(span, referenceTime).value);
        (r.Success? <==> loaded.Success?)
        && (r.Success? ==> r.value.infos == loaded.value.infos && r.value.store == loaded.value.store)
    ensures r.Success? ==>
      |r.value.retriever.loaders| == |d.loaders| && r.value.retriever.arrivalTimeSpan == d.arrivalTimeSpan
      && r.value.retriever.departureTimeSpan == d.departureTimeSpan
  {
    var span := if kind == Arrivals then d.arrivalTimeSpan else d.departureTimeSpan;
    var start := GetStartTime(span, referenceTime);
    if start.Failure? then Failure(start.error)
    else
      var end := GetEndTime(span, referenceTime);
      if end.Failure? then Failure(end.error)
      else
        var loaded := LoadAll(d.loaders, store, kind, referenceTime, start.value, end.value);
        if loaded.Failure? then Failure(loaded.error)
        else Success(Retrieval(loaded.value.infos, d.(loaders := WithCaches(d.loaders, loaded.value.caches)),
                               loaded.value.store))
  }

  /** The cache directory a retrieval leaves, whether it returns or throws: unchanged when the
      time span gives no window, otherwise what the loaders wrote up to the first exception. */
  function RetrieveStore(d: DataRetriever, store: Store, kind: InfoKind, referenceTime: int): (s: Store)
    ensures Retrieve(d, store, kind, referenceTime).Success? ==> s == Retrieve(d, store, kind, referenceTime).value.store
    ensures var span := if kind == Arrivals then d.arrivalTimeSpan else d.departureTimeSpan;
      GetStartTime(span, referenceTime).Failure? || GetEndTime(span, referenceTime).Failure? ==> s == store
  {
    var span := if kind == Arrivals then d.arrivalTimeSpan else d.departureTimeSpan;
    var start := GetStartTime(span, referenceTime);
    var end := GetEndTime(span, referenceTime);
    if start.Failure? || end.Failure? then store
    else LoadEachStore((l, s) => Load(l, s, kind, referenceTime, start.value, end.value), d.loaders, store)
  }

  /** `retrieveArrivals`: the window of the arrival time span, loaded as arrivals. */
  function RetrieveArrivals(d: DataRetriever, store: Store, referenceTime: int): (r: Result<Retrieval>)
    ensures GetStartTime(d.arrivalTimeSpan, referenceTime).Failure? || GetEndTime(d.arrivalTimeSpan, referenceTime).Failure? ==>
      r == Failure(CloneError)
    ensures GetStartTime(d.arrivalTimeSpan, referenceTime).Success? && GetEndTime(d.arrivalTimeSpan, referenceTime).Success? ==>
      var loaded := LoadAll(d.loaders, store, Arrivals, referenceTime, GetStartTime(d.arrivalTimeSpan, referenceTime).value,
                            GetEndTime(d.arrivalTimeSpan, referenceTime).value);
      (r.Success? <==> loaded.Success?)
      && (r.Success? ==> r.value.infos == loaded.value.infos && r.value.store == loaded.value.store)
  {
    Retrieve(d, store, Arrivals, referenceTime)
  }

  /** `retrieveDepartures`: the window of the departure time span, loaded as departures. */
  function RetrieveDepartures(d: DataRetriever, store: Store, referenceTime: int): (r: Result<Retrieval>)
    ensures GetStartTime(d.departureTimeSpan, referenceTime).Failure? || GetEndTime(d.departureTimeSpan, referenceTime).Failure? ==>
      r == Failure(CloneError)
    ensures GetStartTime(d.departureTimeSpan, referenceTime).Success? && GetEndTime(d.departureTimeSpan, referenceTime).Success? ==>
      var loaded := LoadAll(d.loaders, store, Departures, referenceTime, GetStartTime(d.departureTimeSpan, referenceTime).value,
                            GetEndTime(d.departureTimeSpan, referenceTime).value);
      (r.Success? <==> loaded.Success?)
      && (r.Success? ==> r.value.infos == loaded.value.infos && r.value.store == loaded.value.store)
  {
    Retrieve(d, store, Departures, referenceTime)
  }

  /** A retriever without loaders retrieves nothing once its time span gives a window. */
  lemma NoLoadersRetrieveNothing(d: DataRetriever, store: Store, kind: InfoKind, referenceTime: int)
    requires d.loaders == []
    requires var span := if kind == Arrivals then d.arrivalTimeSpan else d.departureTimeSpan;
      span.minimumTime.Some? && span.maximumTime.Some? && span.minimumTime.value <= span.maximumTime.value
    ensures Retrieve(d, store, kind, referenceTime).Success?
    ensures Retrieve(d, store, kind, referenceTime).value.infos == []
  {
    var span := if kind == Arrivals then d.arrivalTimeSpan else d.departureTimeSpan;
    SpanWithinLimits(span, referenceTime);
  }

  /** The retrievals of the repository's tests: the loaders' infos come back in loader order,
      each loader's infos together. */
  lemma {:induction false} RetrieveInOrder(step: Step, l1: StationInfoLoader, l2: StationInfoLoader,
                                           l3: StationInfoLoader, store: Store)
    requires LoadEach(step, [l1, l2, l3], store).Success?
    ensures var s1 := step(l1, store);
      s1.Success? &&
      var s2 := step(l2, s1.value.store);
      s2.Success? &&
      var s3 := step(l3, s2.value.store);
      s3.Success?
      && LoadEach(step, [l1, l2, l3], store).value.infos == s1.value.infos + s2.value.infos + s3.value.infos
  {
    assert [l1, l2, l3][1..] == [l2, l3];
    assert [l2, l3][1..] == [l3];
    assert [l3][1..] == [];
    var s1 := step(l1, store);
    assert s1.Success?;
    assert LoadEach(step, [l2, l3], s1.value.store).Success?;
    var s2 := step(l2, s1.value.store);
    assert s2.Success?;
    assert LoadEach(step, [l3], s2.value.store).Success?;
    var s3 := step(l3, s2.value.store);
    assert s3.Success?;
    var i1, i2, i3 := s1.value.infos, s2.value.infos, s3.value.infos;
    assert LoadEach(step, [l3], s2.value.store).value.infos == i3 + [];
    assert LoadEach(step, [l2, l3], s1.value.store).value.infos == i2 + (i3 + []);
    assert i1 + (i2 + (i3 + [])) == i1 + i2 + i3;
  }
}

=== FILE: dateintervalconverter.dfy ===
/** `DateInterval` values and `DateIntervalConverter`, which turns them into seconds and
    rounded minutes. */
module DateIntervalConverter {

  /** A `DateInterval` with its day part folded into the hours; `invert` marks an interval
      that points into the past. */
  datatype Interval = Interval(hours: nat, minutes: nat, seconds: nat, invert: bool)

  /** `toSeconds`: the timestamp reached by adding the interval to the epoch. */
  function ToSeconds(iv: Interval): (r: int)
    ensures iv.invert ==> r <= 0
    ensures !iv.invert ==> r >= 0
  {
    var length := 3600 * iv.hours + 60 * iv.minutes + iv.seconds;
    if iv.invert then -length else length
  }

  /** PHP's `round(x / 60)`: the nearest whole number of minutes, halves away from zero. */
  function RoundDiv60(x: int): (r: int)
    ensures 60 * r - 30 <= x <= 60 * r + 30
    ensures x == 60 * r + 30 ==> x < 0
    ensures x == 60 * r - 30 ==> x > 0
  {
    if x >= 0 then (x + 30) / 60 else -((-x + 30) / 60)
  }

  /** `toMinutes`: the interval's seconds, rounded to whole minutes. */
  function ToMinutes(iv: Interval): (r: int)
    ensures 60 * r - 30 <= ToSeconds(iv) <= 60 * r + 30
    ensures ToSeconds(iv) % 60 == 0 ==> r * 60 == ToSeconds(iv)
  {
    RoundDiv60(ToSeconds(iv))
  }

  /** `$a->diff($b)`: the interval leading from instant `a` to instant `b` (in seconds). */
  function Diff(a: int, b: int): (r: Interval)
    ensures ToSeconds(r) == b - a
    ensures r.minutes < 60 && r.seconds < 60
    ensures r.invert <==> b < a
  {
    var d := if b < a then a - b else b - a;
    Interval(d / 3600, d % 3600 / 60, d % 60, b < a)
  }

  /** Rounded minutes are unique: any whole number of minutes within half a minute of the
      seconds, with ties away from zero, is the one `ToMinutes` returns. */
  lemma ToMinutesUnique(iv: Interval, m: int)
    requires 60 * m - 30 <= ToSeconds(iv) <= 60 * m + 30
    requires ToSeconds(iv) == 60 * m + 30 ==> ToSeconds(iv) < 0
    requires ToSeconds(iv) == 60 * m - 30 ==> ToSeconds(iv) > 0
    ensures ToMinutes(iv) == m
  {
  }

  /** The examples of the repository's tests. */
  lemma ConverterExamples()
    ensures ToSeconds(Interval(2, 4, 3, false)) == 7443
    ensures ToSeconds(Interval(0, 10, 0, false)) == 600
    ensures ToMinutes(Interval(2, 4, 3, false)) == 124
    ensures ToMinutes(Interval(0, 10, 35, false)) == 11
  {
  }
}

=== FILE: displaymodeselector.dfy ===
/** `DisplayModeSelector`: whether the board shows nothing, arrivals or departures at a given
    time. Times here are milliseconds on the timeline of `Clock` (seconds times 1000), because
    the repository's tests probe instants a millisecond before and after each limit. */
module DisplayModes {
  import opened Wrappers
  import opened JsonValues
  import opened Clock
  import opened Configuration

  datatype DisplayMode = DisplayNone | DisplayArrival | DisplayDeparture

  /** The `DISPLAY_*` constants. */
  function Code(m: DisplayMode): (r: int)
    ensures 1 <= r <= 3
  {
    match m
    case DisplayNone => 1
    case DisplayArrival => 2
    case DisplayDeparture => 3
  }

  /** The configured limits; `None` is a setting that was not a valid "H:i" time. */
  datatype DisplayModeSelector = DisplayModeSelector(
    startTime: Option<int>,
    modeSwitchTime: Option<int>,
    endTime: Option<int>)

  /** `createFromFormat("H:i", …)` of a setting, in milliseconds. */
  function TimeSetting(c: ConfigParser, key: string, default: string): (r: Result<Option<int>>)
    ensures r.Success? && r.value.Some? ==> r.value.value % 60000 == 0
  {
    var v := CoerceToString(Get(c, key, JString(default)));
    if v.Failure? then Failure(v.error)
    else
      var t := ParseHi(v.value);
      Success(if t.Some? then Some(t.value * 1000) else None)
  }

  /** `configure`: "start" (default "0:00"), "end" (default "24:00", tomorrow's midnight) and
      "modeSwitch" (default "12:00"), read in that order. */
  function Configure(c: ConfigParser): (r: Result<DisplayModeSelector>)
    ensures r.Success? <==> TimeSetting(c, "start", "0:00").Success? && TimeSetting(c, "end", "24:00").Success?
                            && TimeSetting(c, "modeSwitch", "12:00").Success?
    ensures r.Success? ==> r == Success(DisplayModeSelector(TimeSetting(c, "start", "0:00").value,
      TimeSetting(c, "modeSwitch", "12:00").value, TimeSetting(c, "end", "24:00").value))
  {
    var start := TimeSetting(c, "start", "0:00");
    if start.Failure? then Failure(start.error) else
    var end := TimeSetting(c, "end", "24:00");
    if end.Failure? then Failure(end.error) else
    var modeSwitch := TimeSetting(c, "modeSwitch", "12:00");
    if modeSwitch.Failure? then Failure(modeSwitch.error) else
    Success(DisplayModeSelector(start.value, modeSwitch.value, end.value))
  }

  /** `getDisplayMode`: nothing before the start or after the end, arrivals before the mode
      switch, departures from it on. */
  function GetDisplayMode(sel: DisplayModeSelector, time: int): (m: DisplayMode)
    ensures sel.endTime.None? ==> m == DisplayNone
  {
    if EarlierThan(time, sel.startTime) || LaterThan(time, sel.endTime) then DisplayNone
    else if EarlierThan(time, sel.modeSwitchTime) then DisplayArrival
    else DisplayDeparture
  }

  /** With every limit valid, each mode holds on exactly one stretch of time: nothing outside
      `[start, end]`, arrivals on `[start, modeSwitch)`, departures on `[modeSwitch, end]`. */
  lemma DisplayModeIntervals(sel: DisplayModeSelector, time: int)
    requires sel.startTime.Some? && sel.modeSwitchTime.Some? && sel.endTime.Some?
    ensures GetDisplayMode(sel, time) == DisplayNone <==>
      time < sel.startTime.value || time > sel.endTime.value
    ensures GetDisplayMode(sel, time) == DisplayArrival <==>
      sel.startTime.value <= time <= sel.endTime.value && time < sel.modeSwitchTime.value
    ensures GetDisplayMode(sel, time) == DisplayDeparture <==>
      sel.startTime.value <= time <= sel.endTime.value && sel.modeSwitchTime.value <= time
  {
  }

  /** With limits in order, the modes follow one another through the day: nothing, arrivals,
      departures, nothing; in particular departures are never followed by arrivals. */
  lemma DisplayModeOrder(sel: DisplayModeSelector, a: int, b: int)
    requires sel.startTime.Some? && sel.modeSwitchTime.Some? && sel.endTime.Some?
    requires a <= b
    requires GetDisplayMode(sel, a) != DisplayNone && GetDisplayMode(sel, b) != DisplayNone
    ensures Code(GetDisplayMode(sel, a)) <= Code(GetDisplayMode(sel, b))
  {
  }

  /** An invalid end shows nothing at any time; an invalid mode switch never shows arrivals;
      an invalid start is no lower limit. */
  lemma InvalidSettings(sel: DisplayModeSelector, time: int)
    ensures sel.endTime.None? ==> GetDisplayMode(sel, time) == DisplayNone
    ensures sel.modeSwitchTime.None? ==> GetDisplayMode(sel, time) != DisplayArrival
    ensures sel.startTime.None? && sel.endTime.Some? && time <= sel.endTime.value ==>
      GetDisplayMode(sel, time) != DisplayNone
  {
  }

  function Ms(h: int, m: int, s: int, ms: int): int { ((h * 60 + m) * 60 + s) * 1000 + ms }

  lemma LiteralTimes()
    ensures ParseHi("07:00") == Some(7 * 3600)
    ensures ParseHi("11:00") == Some(11 * 3600)
    ensures ParseHi("18:00") == Some(18 * 3600)
  {
    assert TwoDigits(7) + ":" + TwoDigits(0) == "07:00";
    ParseHiFields(7, 0);
    assert TwoDigits(11) + ":" + TwoDigits(0) == "11:00";
    ParseHiFields(11, 0);
    assert TwoDigits(18) + ":" + TwoDigits(0) == "18:00";
    ParseHiFields(18, 0);
  }

  lemma LiteralMidnight()
    ensures ParseHi("0:00") == Some(0)
  {
    var s := "0:00";
    assert s[..1] == "0" && s[2..4] == "00";
  }

  lemma LiteralDefaults()
    ensures ParseHi("24:00") == Some(24 * 3600)
    ensures ParseHi("12:00") == Some(12 * 3600)
  {
    assert TwoDigits(24) + ":" + TwoDigits(0) == "24:00";
    ParseHiFields(24, 0);
    assert TwoDigits(12) + ":" + TwoDigits(0) == "12:00";
    ParseHiFields(12, 0);
  }

  function ExampleConfig(): ConfigParser {
    ConfigParser([("start", JString("07:00")), ("modeSwitch", JString("11:00")), ("end", JString("18:00"))])
  }

  lemma ExampleConfiguration()
    ensures Configure(ExampleConfig()) ==
      Success(DisplayModeSelector(Some(Ms(7, 0, 0, 0)), Some(Ms(11, 0, 0, 0)), Some(Ms(18, 0, 0, 0))))
  {
    assert Get(ExampleConfig(), "start", JString("0:00")) == JString("07:00");
    assert Get(ExampleConfig(), "end", JString("24:00")) == JString("18:00");
    assert Get(ExampleConfig(), "modeSwitch", JString("12:00")) == JString("11:00");
    LiteralTimes();
  }

  /** The instants the repository's tests probe, with start 07:00, mode switch 11:00 and end
      18:00: a millisecond either side of each limit decides. */
  lemma ExampleModes()
    ensures var sel := DisplayModeSelector(Some(Ms(7, 0, 0, 0)), Some(Ms(11, 0, 0, 0)), Some(Ms(18, 0, 0, 0)));
      GetDisplayMode(sel, Ms(6, 35, 0, 0)) == DisplayNone
      && GetDisplayMode(sel, Ms(6, 59, 59, 999)) == DisplayNone
      && GetDisplayMode(sel, Ms(7, 0, 0, 0)) == DisplayArrival
      && GetDisplayMode(sel, Ms(9, 20, 0, 0)) == DisplayArrival
      && GetDisplayMode(sel, Ms(10, 59, 59, 999)) == DisplayArrival
      && GetDisplayMode(sel, Ms(11, 0, 0, 0)) == DisplayDeparture
      && GetDisplayMode(sel, Ms(14, 45, 0, 0)) == DisplayDeparture
      && GetDisplayMode(sel, Ms(18, 0, 0, 0)) == DisplayDeparture
      && GetDisplayMode(sel, Ms(18, 0, 0, 1)) == DisplayNone
      && GetDisplayMode(sel, Ms(19, 15, 0, 0)) == DisplayNone
  {
  }

  /** Without settings the whole day up to and including tomorrow's midnight is shown. */
  lemma DefaultConfiguration()
    ensures Configure(ConfigParser([])) ==
      Success(DisplayModeSelector(Some(0), Some(Ms(12, 0, 0, 0)), Some(Ms(24, 0, 0, 0))))
  {
    LiteralMidnight();
    LiteralDefaults();
    assert TimeSetting(ConfigParser([]), "start", "0:00") == Success(Some(0));
    assert TimeSetting(ConfigParser([]), "end", "24:00") == Success(Some(Ms(24, 0, 0, 0)));
    assert TimeSetting(ConfigParser([]), "modeSwitch", "12:00") == Success(Some(Ms(12, 0, 0, 0)));
  }

  /** The default selector shows arrivals until noon and departures from noon on. */
  lemma DefaultModes()
    ensures var sel := DisplayModeSelector(Some(0), Some(Ms(12, 0, 0, 0)), Some(Ms(24, 0, 0, 0)));
      GetDisplayMode(sel, Ms(0, 0, 0, 0)) == DisplayArrival
      && GetDisplayMode(sel, Ms(5, 34, 0, 0)) == DisplayArrival
      && GetDisplayMode(sel, Ms(11, 59, 59, 999)) == DisplayArrival
      && GetDisplayMode(sel, Ms(12, 0, 0, 0)) == DisplayDeparture
      && GetDisplayMode(sel, Ms(19, 37, 0, 0)) == DisplayDeparture
      && GetDisplayMode(sel, Ms(24, 0, 0, 0)) == DisplayDeparture
  {
  }
}

=== FILE: jsonvalues.dfy ===
/** The PHP values the core passes around: decoded JSON (`json_decode` objects and arrays),
    configuration arrays and the objects written to the cache. A PHP associative array or
    `stdClass` object is a `JObject` whose members keep their insertion order; a list is a
    `JArray`. Floating point numbers do not occur in the core and are not modelled. */
module JsonValues {
  import opened Wrappers
  import opened Text

  datatype Json =
    | JNull
    | JBool(b: bool)
    | JInt(i: int)
    | JString(s: string)
    | JArray(items: seq<Json>)
    | JObject(members: seq<(string, Json)>)

  /** The value bound to `key`: the first member with that name. */
  function Lookup(members: seq<(string, Json)>, key: string): Option<Json> {
    if |members| == 0 then None
    else if members[0].0 == key then Some(members[0].1)
    else Lookup(members[1..], key)
  }

  /** A key is found exactly when some member has it, and what is found is bound to it. */
  lemma {:induction false} LookupSpec(members: seq<(string, Json)>, key: string)
    ensures Lookup(members, key).None? <==> forall i :: 0 <= i < |members| ==> members[i].0 != key
    ensures Lookup(members, key).Some? ==>
              exists i :: 0 <= i < |members| && members[i] == (key, Lookup(members, key).value)
  {
    if |members| > 0 && members[0].0 != key {
      var r := Lookup(members[1..], key);
      LookupSpec(members[1..], key);
      if r.Some? {
        var i :| 0 <= i < |members[1..]| && members[1..][i] == (key, r.value);
        assert members[i + 1] == (key, r.value);
      } else {
        forall i | 0 <= i < |members| ensures members[i].0 != key {
          if i > 0 { assert members[i] == members[1..][i - 1]; }
        }
      }
    }
  }

  /** The member at position `i` is the one found when no earlier member has its name. */
  lemma {:induction false} LookupFirst(members: seq<(string, Json)>, i: nat, key: string)
    requires i < |members| && members[i].0 == key
    requires forall k :: 0 <= k < i ==> members[k].0 != key
    ensures Lookup(members, key) == Some(members[i].1)
    decreases i
  {
    if i > 0 {
      assert members[0].0 != key;
      LookupFirst(members[1..], i - 1, key);
    }
  }

  /** `$value->key` / `$value[key]`: the member of an object, absent for anything else.
      The core only reads named fields, never list positions, so a list has no fields. */
  function Field(j: Json, key: string): Option<Json> {
    if j.JObject? then Lookup(j.members, key) else None
  }

  /** PHP's `isset`: the value exists and is not null. */
  predicate IsSet(v: Option<Json>) {
    v.Some? && v.value != JNull
  }

  /** PHP's `is_array`; a decoded configuration array is either a list or a map. */
  predicate IsArray(j: Json) {
    j.JArray? || j.JObject?
  }

  /** The values `foreach` visits, in order. A scalar is not iterable: the loop body never runs. */
  function Elements(j: Json): (r: seq<Json>)
    ensures j.JArray? ==> r == j.items
    ensures j.JObject? ==> |r| == |j.members| && forall i :: 0 <= i < |r| ==> r[i] == j.members[i].1
    ensures !IsArray(j) ==> r == []
  {
    match j
    case JArray(items) => items
    case JObject(members) => seq(|members|, i requires 0 <= i < |members| => members[i].1)
    case _ => []
  }

  /** The key/value pairs `foreach ($a as $k => $v)` visits; list keys are positions, which
      become decimal strings wherever a string is expected. */
  function Entries(j: Json): (r: seq<(string, Json)>)
    ensures |r| == |Elements(j)|
    ensures forall i :: 0 <= i < |r| ==> r[i].1 == Elements(j)[i]
    ensures j.JObject? ==> r == j.members
    ensures j.JArray? ==> forall i :: 0 <= i < |r| ==> r[i].0 == NatToDecimal(i)
  {
    match j
    case JArray(items) => seq(|items|, i requires 0 <= i < |items| => (NatToDecimal(i), items[i]))
    case JObject(members) => members
    case _ => []
  }

  const StringTypeError := "Argument must be of type string"

  /** Passing a value to a parameter typed `string` (coercive typing mode): a string is kept,
      an integer is written in decimal, a boolean becomes "1" or "", and anything else is a
      `TypeError`. */
  function CoerceToString(j: Json): (r: Result<string>)
    ensures j.JString? ==> r == Success(j.s)
    ensures j.JInt? ==> r == Success(IntToDecimal(j.i))
    ensures r.Failure? <==> (j.JNull? || IsArray(j))
    ensures r.Failure? ==> r.error == StringTypeError
  {
    match j
    case JString(s) => Success(s)
    case JInt(i) => Success(IntToDecimal(i))
    case JBool(b) => Success(if b then "1" else "")
    case _ => Failure(StringTypeError)
  }

  /** The text a value contributes to a string concatenation with `.`. */
  function ConcatText(j: Json): string {
    match j
    case JNull => ""
    case JBool(b) => if b then "1" else ""
    case JInt(i) => IntToDecimal(i)
    case JString(s) => s
    case _ => "Array"
  }
}

=== FILE: relativetimespan.dfy ===
/** `RelativeTimeSpan`: a window reaching a configured duration into the past and into the
    future of a reference time, held between a configured earliest and latest time of day. */
module TimeSpans {
  import opened Wrappers
  import opened Text
  import opened JsonValues
  import opened Clock
  import opened Configuration
  import opened DateIntervalConverter

  const DurationFormatError := "Relative time span duration is not in expected format"

  /** What PHP raises when the code clones the `false` a failed `createFromFormat` left. */
  const CloneError := "__clone method called on non-object"

  /** The configured span. A limit is `None` when its setting was not a valid "H:i" time. */
  datatype RelativeTimeSpan = RelativeTimeSpan(
    pastDuration: Interval,
    futureDuration: Interval,
    minimumTime: Option<int>,
    maximumTime: Option<int>)

  /** The position of the first colon, or the length when there is none (`explode(":")`). */
  function ColonIndex(s: string): (k: nat)
    ensures k <= |s|
    ensures k < |s| ==> s[k] == ':'
    ensures forall i :: 0 <= i < k ==> s[i] != ':'
  {
    if |s| == 0 || s[0] == ':' then 0 else 1 + ColonIndex(s[1..])
  }

  /** The text the pattern `^\d+:\d+$` is matched against: PCRE's `$` also matches just before
      a newline that ends the subject, so one final "\n" is not part of the match. */
  function MatchedPart(s: string): string {
    if |s| > 0 && s[|s| - 1] == '\n' then s[..|s| - 1] else s
  }

  /** `createDateIntervalFromDurationString`: "hours:minutes", each a run of decimal digits
      (leading zeros allowed, minutes not limited to 59), becomes an interval of that many hours
      and minutes; anything else is rejected. */
  function ParseDuration(s: string): (r: Result<Interval>)
    ensures r.Failure? ==> r.error == DurationFormatError
    ensures r.Success? ==> r.value.seconds == 0 && !r.value.invert
    ensures r.Success? ==> exists k :: 0 < k < |s| - 1 && s[k] == ':' && AllDigits(s[..k])
  {
    var body := MatchedPart(s);
    var k := ColonIndex(body);
    if 0 < k < |body| - 1 && AllDigits(body[..k]) && AllDigits(body[k + 1..]) then
      assert s[..k] == body[..k];
      Success(Interval(DigitsValue(body[..k]), DigitsValue(body[k + 1..]), 0, false))
    else Failure(DurationFormatError)
  }

  lemma ColonIndexAt(s: string, j: nat)
    requires j < |s| && s[j] == ':'
    requires forall i :: 0 <= i < j ==> s[i] != ':'
    ensures ColonIndex(s) == j
  {
  }

  /** What `^\d+:\d+$` matches: a non-empty run of digits `p`, a colon and a non-empty run of
      digits `q`, optionally followed by the one final newline PCRE's `$` allows. */
  predicate DurationMatch(s: string, p: string, q: string) {
    |p| > 0 && |q| > 0 && AllDigits(p) && AllDigits(q) && (s == p + ":" + q || s == p + ":" + q + "\n")
  }

  /** Every matching text is accepted, as `p` hours and `q` minutes. */
  lemma DurationMatchAccepted(s: string, p: string, q: string)
    requires DurationMatch(s, p, q)
    ensures ParseDuration(s) == Success(Interval(DigitsValue(p), DigitsValue(q), 0, false))
  {
    var body := p + ":" + q;
    assert MatchedPart(s) == body by {
      if s != body {
        assert s[..|s| - 1] == body;
      }
    }
    assert forall i :: 0 <= i < |p| ==> body[i] == p[i];
    ColonIndexAt(body, |p|);
    assert body[..|p|] == p && body[|p| + 1..] == q;
  }

  /** Only matching texts are accepted, and then as the hours and minutes they spell. */
  lemma DurationAcceptedMatches(s: string)
    requires ParseDuration(s).Success?
    ensures exists p, q :: (DurationMatch(s, p, q)
                            && ParseDuration(s) == Success(Interval(DigitsValue(p), DigitsValue(q), 0, false)))
  {
    var body := MatchedPart(s);
    var k := ColonIndex(body);
    var p, q := body[..k], body[k + 1..];
    assert body == p + ":" + q;
    assert s == body || s == body + "\n";
    assert DurationMatch(s, p, q);
  }

  /** A duration written the way the configuration writes it. */
  function DurationText(hours: nat, minutes: nat): string {
    NatToDecimal(hours) + ":" + NatToDecimal(minutes)
  }

  /** Every written duration reads back as itself, with or without a final newline. */
  lemma ParseDurationText(hours: nat, minutes: nat)
    ensures ParseDuration(DurationText(hours, minutes)) == Success(Interval(hours, minutes, 0, false))
    ensures ParseDuration(DurationText(hours, minutes) + "\n") == Success(Interval(hours, minutes, 0, false))
  {
    var p, q := NatToDecimal(hours), NatToDecimal(minutes);
    var s := DurationText(hours, minutes);
    assert forall i :: 0 <= i < |p| ==> s[i] == p[i] && IsDigit(p[i]);
    ColonIndexAt(s, |p|);
    assert s[..|p|] == p && s[|p| + 1..] == q;
    assert MatchedPart(s) == s;
    assert MatchedPart(s + "\n") == s;
    DecimalRoundTrip(hours);
    DecimalRoundTrip(minutes);
  }

  /** The malformed durations of the repository's tests are rejected. */
  lemma ParseDurationRejects()
    ensures ParseDuration("5:") == Failure(DurationFormatError)
    ensures ParseDuration(":7") == Failure(DurationFormatError)
    ensures ParseDuration("4567") == Failure(DurationFormatError)
    ensures ParseDuration("") == Failure(DurationFormatError)
    ensures ParseDuration(":") == Failure(DurationFormatError)
    ensures ParseDuration("notanumber") == Failure(DurationFormatError)
    ensures ParseDuration("hours:minutes") == Failure(DurationFormatError)
  {
    assert ColonIndex("5:") == 1;
    assert ColonIndex("4567") == 4;
    assert !IsDigit('n');
    assert !IsDigit('h');
  }

  /** A duration setting: the configured value (passed as a `string`) or the default. */
  function DurationSetting(c: ConfigParser, key: string, default: string): (r: Result<Interval>)
    ensures r.Success? ==> r.value.seconds == 0 && !r.value.invert
    ensures r.Failure? ==> r.error == StringTypeError || r.error == DurationFormatError
  {
    var v := CoerceToString(Get(c, key, JString(default)));
    if v.Failure? then Failure(v.error) else ParseDuration(v.value)
  }

  /** A limit setting: `createFromFormat("H:i", …)` of the configured value or the default. */
  function LimitSetting(c: ConfigParser, key: string, default: string): (r: Result<Option<int>>)
    ensures r.Success? && r.value.Some? ==> r.value.value >= 0 && r.value.value % 60 == 0
    ensures r.Failure? ==> r.error == StringTypeError
  {
    var v := CoerceToString(Get(c, key, JString(default)));
    if v.Failure? then Failure(v.error) else Success(ParseHi(v.value))
  }

  /** `configure`: durations "past" and "future" (default "0:0"), limits "min" (default "00:00")
      and "max" (default "23:59"), read in that order; the first failure is raised. */
  function Configure(c: ConfigParser): (r: Result<RelativeTimeSpan>)
    ensures r.Success? <==>
      DurationSetting(c, "past", "0:0").Success? && DurationSetting(c, "future", "0:0").Success?
      && LimitSetting(c, "min", "00:00").Success? && LimitSetting(c, "max", "23:59").Success?
    ensures r.Success? ==> !r.value.pastDuration.invert && !r.value.futureDuration.invert
    ensures r.Success? ==> r.value.minimumTime == LimitSetting(c, "min", "00:00").value
    ensures r.Success? ==> r.value.maximumTime == LimitSetting(c, "max", "23:59").value
    ensures r.Success? ==> r.value.pastDuration == DurationSetting(c, "past", "0:0").value
    ensures r.Success? ==> r.value.futureDuration == DurationSetting(c, "future", "0:0").value
    ensures DurationSetting(c, "past", "0:0").Failure? ==> r == Failure(DurationSetting(c, "past", "0:0").error)
    ensures (DurationSetting(c, "past", "0:0").Success? && DurationSetting(c, "future", "0:0").Failure?)
      ==> r == Failure(DurationSetting(c, "future", "0:0").error)
    ensures (DurationSetting(c, "past", "0:0").Success? && DurationSetting(c, "future", "0:0").Success?
             && LimitSetting(c, "min", "00:00").Failure?)
      ==> r == Failure(LimitSetting(c, "min", "00:00").error)
    ensures (DurationSetting(c, "past", "0:0").Success? && DurationSetting(c, "future", "0:0").Success?
             && LimitSetting(c, "min", "00:00").Success? && LimitSetting(c, "max", "23:59").Failure?)
      ==> r == Failure(LimitSetting(c, "max", "23:59").error)
  {
    var past := DurationSetting(c, "past", "0:0");
    if past.Failure? then Failure(past.error) else
    var future := DurationSetting(c, "future", "0:0");
    if future.Failure? then Failure(future.error) else
    var minimum := LimitSetting(c, "min", "00:00");
    if minimum.Failure? then Failure(minimum.error) else
    var maximum := LimitSetting(c, "max", "23:59");
    if maximum.Failure? then Failure(maximum.error) else
    Success(RelativeTimeSpan(past.value, future.value, minimum.value, maximum.value))
  }

  /** `getStartTime`: the reference time moved back by the past duration, raised to the minimum
      when below it, else lowered to the maximum when above it. */
  function GetStartTime(span: RelativeTimeSpan, relativeFrom: int): (r: Result<int>)
    ensures span.maximumTime.Some? ==> r.Success?
    ensures r.Failure? ==> r.error == CloneError
  {
    var start := relativeFrom - ToSeconds(span.pastDuration);
    if EarlierThan(start, span.minimumTime) then Success(span.minimumTime.value)
    else if LaterThan(start, span.maximumTime) then
      if span.maximumTime.Some? then Success(span.maximumTime.value) else Failure(CloneError)
    else Success(start)
  }

  /** `getEndTime`: the reference time moved forward by the future duration, lowered to the
      maximum when above it, else raised to the minimum when below it. */
  function GetEndTime(span: RelativeTimeSpan, relativeFrom: int): (r: Result<int>)
    ensures r.Success? <==> span.maximumTime.Some?
    ensures r.Failure? ==> r.error == CloneError
  {
    var end := relativeFrom + ToSeconds(span.futureDuration);
    if LaterThan(end, span.maximumTime) then
      if span.maximumTime.Some? then Success(span.maximumTime.value) else Failure(CloneError)
    else if EarlierThan(end, span.minimumTime) then Success(span.minimumTime.value)
    else Success(end)
  }

  function Min(a: int, b: int): int { if a <= b then a else b }
  function Max(a: int, b: int): int { if a <= b then b else a }

  /** A value held within `[lo, hi]`. */
  function Clamp(x: int, lo: int, hi: int): int {
    Max(lo, Min(x, hi))
  }

  /** With both limits valid and in order, the start and end times are the shifted reference
      time held within the limits. */
  lemma SpanWithinLimits(span: RelativeTimeSpan, relativeFrom: int)
    requires span.minimumTime.Some? && span.maximumTime.Some?
    requires span.minimumTime.value <= span.maximumTime.value
    ensures GetStartTime(span, relativeFrom) == Success(Clamp(relativeFrom - ToSeconds(span.pastDuration),
      span.minimumTime.value, span.maximumTime.value))
    ensures GetEndTime(span, relativeFrom) == Success(Clamp(relativeFrom + ToSeconds(span.futureDuration),
      span.minimumTime.value, span.maximumTime.value))
  {
  }

  /** A span read from the configuration never starts after it ends, once its limits are valid
      and in order. */
  lemma StartNotAfterEnd(span: RelativeTimeSpan, relativeFrom: int)
    requires !span.pastDuration.invert && !span.futureDuration.invert
    requires span.minimumTime.Some? && span.maximumTime.Some?
    requires span.minimumTime.value <= span.maximumTime.value
    ensures GetStartTime(span, relativeFrom).Success? && GetEndTime(span, relativeFrom).Success?
    ensures span.minimumTime.value <= GetStartTime(span, relativeFrom).value
    ensures GetStartTime(span, relativeFrom).value <= GetEndTime(span, relativeFrom).value
    ensures GetEndTime(span, relativeFrom).value <= span.maximumTime.value
  {
    SpanWithinLimits(span, relativeFrom);
  }

  /** A later reference time never gives an earlier start or end. */
  lemma SpanMonotone(span: RelativeTimeSpan, a: int, b: int)
    requires a <= b
    requires span.minimumTime.Some? && span.maximumTime.Some?
    requires span.minimumTime.value <= span.maximumTime.value
    ensures GetStartTime(span, a).value <= GetStartTime(span, b).value
    ensures GetEndTime(span, a).value <= GetEndTime(span, b).value
  {
    SpanWithinLimits(span, a);
    SpanWithinLimits(span, b);
  }

  /** An invalid minimum is no limit at all; an invalid maximum makes `getEndTime` fail, and
      `getStartTime` too unless the minimum caught the start first. */
  lemma InvalidLimits(span: RelativeTimeSpan, relativeFrom: int)
    ensures span.minimumTime.None? && span.maximumTime.Some? ==>
      GetStartTime(span, relativeFrom) == Success(Min(relativeFrom - ToSeconds(span.pastDuration), span.maximumTime.value))
      && GetEndTime(span, relativeFrom) == Success(Min(relativeFrom + ToSeconds(span.futureDuration), span.maximumTime.value))
    ensures span.maximumTime.None? ==> GetEndTime(span, relativeFrom) == Failure(CloneError)
    ensures span.maximumTime.None? ==>
      (GetStartTime(span, relativeFrom).Success? <==> EarlierThan(relativeFrom - ToSeconds(span.pastDuration), span.minimumTime))
  {
  }

  function Hm(h: int, m: int): int { h * 3600 + m * 60 }

  /** The durations written in the defaults and in the worked example. */
  lemma LiteralDurations()
    ensures ParseDuration("0:0") == Success(Interval(0, 0, 0, false))
  {
    assert DurationText(0, 0) == "0:0";
    ParseDurationText(0, 0);
  }

  /** The durations of the worked example. */
  lemma ExampleDurationTexts()
    ensures ParseDuration("1:5") == Success(Interval(1, 5, 0, false))
    ensures ParseDuration("2:20") == Success(Interval(2, 20, 0, false))
  {
    assert DurationText(1, 5) == "1:5";
    ParseDurationText(1, 5);
    assert DurationText(2, 20) == "2:20";
    ParseDurationText(2, 20);
  }

  /** The limits written in the defaults and in the worked example. */
  lemma LiteralLimits()
    ensures ParseHi("00:00") == Some(0)
    ensures ParseHi("23:59") == Some(Hm(23, 59))
    ensures ParseHi("08:00") == Some(Hm(8, 0))
    ensures ParseHi("18:00") == Some(Hm(18, 0))
  {
    assert TwoDigits(0) + ":" + TwoDigits(0) == "00:00";
    ParseHiFields(0, 0);
    assert TwoDigits(23) + ":" + TwoDigits(59) == "23:59";
    ParseHiFields(23, 59);
    assert TwoDigits(8) + ":" + TwoDigits(0) == "08:00";
    ParseHiFields(8, 0);
    assert TwoDigits(18) + ":" + TwoDigits(0) == "18:00";
    ParseHiFields(18, 0);
  }

  /** A configuration without any setting keeps the reference time within the whole day. */
  lemma DefaultConfiguration()
    ensures Configure(ConfigParser([])) ==
      Success(RelativeTimeSpan(Interval(0, 0, 0, false), Interval(0, 0, 0, false), Some(0), Some(Hm(23, 59))))
  {
    LiteralDurations();
    LiteralLimits();
    assert DurationSetting(ConfigParser([]), "past", "0:0") == Success(Interval(0, 0, 0, false));
    assert DurationSetting(ConfigParser([]), "future", "0:0") == Success(Interval(0, 0, 0, false));
    assert LimitSetting(ConfigParser([]), "min", "00:00") == Success(Some(0));
    assert LimitSetting(ConfigParser([]), "max", "23:59") == Success(Some(Hm(23, 59)));
  }

  /** A malformed duration setting is reported with the duration format message. */
  lemma MalformedPastDuration(value: string)
    requires ParseDuration(value).Failure?
    ensures Configure(ConfigParser([("past", JString(value))])) == Failure(DurationFormatError)
  {
  }

  /** The configuration of the repository's worked example: past "1:5", future "2:20",
      limits 08:00 and 18:00. */
  function ExampleConfig(): ConfigParser {
    ConfigParser([("past", JString("1:5")), ("future", JString("2:20")),
                  ("min", JString("08:00")), ("max", JString("18:00"))])
  }

  function ExampleSpan(): RelativeTimeSpan {
    RelativeTimeSpan(Interval(1, 5, 0, false), Interval(2, 20, 0, false), Some(Hm(8, 0)), Some(Hm(18, 0)))
  }

  lemma ExampleDurations()
    ensures DurationSetting(ExampleConfig(), "past", "0:0") == Success(Interval(1, 5, 0, false))
    ensures DurationSetting(ExampleConfig(), "future", "0:0") == Success(Interval(2, 20, 0, false))
  {
    assert Get(ExampleConfig(), "past", JString("0:0")) == JString("1:5");
    assert Get(ExampleConfig(), "future", JString("0:0")) == JString("2:20");
    ExampleDurationTexts();
  }

  lemma ExampleLimits()
    ensures LimitSetting(ExampleConfig(), "min", "00:00") == Success(Some(Hm(8, 0)))
    ensures LimitSetting(ExampleConfig(), "max", "23:59") == Success(Some(Hm(18, 0)))
  {
    assert Get(ExampleConfig(), "min", JString("00:00")) == JString("08:00");
    assert Get(ExampleConfig(), "max", JString("23:59")) == JString("18:00");
    LiteralLimits();
  }

  lemma ExampleConfiguration()
    ensures Configure(ExampleConfig()) == Success(ExampleSpan())
  {
    ExampleDurations();
    ExampleLimits();
  }

  /** The start and end times the repository's tests expect of the worked example: inside the
      limits, start caught by the minimum, end caught by the maximum, and both caught. */
  lemma ExampleTimes()
    ensures GetStartTime(ExampleSpan(), Hm(13, 0)) == Success(Hm(11, 55))
    ensures GetEndTime(ExampleSpan(), Hm(13, 0)) == Success(Hm(15, 20))
    ensures GetStartTime(ExampleSpan(), Hm(8, 30)) == Success(Hm(8, 0))
    ensures GetEndTime(ExampleSpan(), Hm(8, 30)) == Success(Hm(10, 50))
    ensures GetStartTime(ExampleSpan(), Hm(16, 55)) == Success(Hm(15, 50))
    ensures GetEndTime(ExampleSpan(), Hm(16, 55)) == Success(Hm(18, 0))
    ensures GetStartTime(ExampleSpan(), Hm(5, 15)) == Success(Hm(8, 0))
    ensures GetEndTime(ExampleSpan(), Hm(5, 15)) == Success(Hm(8, 0))
    ensures GetStartTime(ExampleSpan(), Hm(19, 30)) == Success(Hm(18, 0))
    ensures GetEndTime(ExampleSpan(), Hm(19, 30)) == Success(Hm(18, 0))
  {
  }
}

=== FILE: rmvinfoparser.dfy ===
/** `RmvInfoParser`: turns the decoded arrival board and departure board responses of the RMV
    API into station events. */
module RmvInfoParsers {
  import opened Wrappers
  import opened JsonValues
  import opened Clock
  import opened DateIntervalConverter
  import opened StationEvents

  /** The parser reads "Y-m-d" dates through a calendar that gives the day of a date, counted
      from the day of the `Clock` timeline; the calendar itself is not part of this model. */
  datatype RmvInfoParser = RmvInfoParser(parseDate: string -> Option<int>)

  /** `$json[key]`: the member, or `null` when there is none. */
  function Member(j: Json, key: string): (v: Json)
    ensures Field(j, key).Some? ==> v == Field(j, key).value
    ensures Field(j, key).None? ==> v == JNull
  {
    var f := Field(j, key);
    if f.Some? then f.value else JNull
  }

  /** `createFromFormat("Y-m-dH:i:s", date . time)`: the instant of the day of the date at the
      time; `None` when either part does not parse. */
  function DateTimeOf(p: RmvInfoParser, date: string, time: string): (t: Option<int>)
    ensures t.Some? <==> p.parseDate(date).Some? && ParseHis(time).Some?
    ensures t.Some? ==> t.value == p.parseDate(date).value * SecondsPerDay + ParseHis(time).value
  {
    var day := p.parseDate(date);
    var clock := ParseHis(time);
    if day.Some? && clock.Some? then Some(day.value * SecondsPerDay + clock.value) else None
  }

  /** `getTime`: the planned instant. A date and time that do not parse leave `false`, which
      the `DateTime` return type rejects. */
  function GetTime(p: RmvInfoParser, info: Json): (r: Result<int>)
    ensures r.Success? <==> DateTimeOf(p, ConcatText(Member(info, "date")), ConcatText(Member(info, "time"))).Some?
    ensures r.Success? ==> Some(r.value) == DateTimeOf(p, ConcatText(Member(info, "date")), ConcatText(Member(info, "time")))
  {
    var t := DateTimeOf(p, ConcatText(Member(info, "date")), ConcatText(Member(info, "time")));
    if t.Some? then Success(t.value) else Failure("Return value must be of type DateTime, bool returned")
  }

  /** `getRealTime`: the predicted instant when both "rtDate" and "rtTime" are set. A predicted
      time that does not parse is `false`, which the builders treat like a missing one. */
  function GetRealTime(p: RmvInfoParser, info: Json): (r: Option<int>)
    ensures !(IsSet(Field(info, "rtDate")) && IsSet(Field(info, "rtTime"))) ==> r.None?
    ensures IsSet(Field(info, "rtDate")) && IsSet(Field(info, "rtTime")) ==>
              r == DateTimeOf(p, ConcatText(Member(info, "rtDate")), ConcatText(Member(info, "rtTime")))
  {
    if IsSet(Field(info, "rtDate")) && IsSet(Field(info, "rtTime")) then
      DateTimeOf(p, ConcatText(Member(info, "rtDate")), ConcatText(Member(info, "rtTime")))
    else None
  }

  /** The event builders: the planned time, the predicted time or else the planned one, the
      line of the product and the two station names under the given keys. The info must be a
      PHP array, and each name must be convertible to a string. */
  function EventFrom(p: RmvInfoParser, info: Json, fromKey: string, toKey: string, eventType: int,
                     vehicleType: int): (r: Result<StationEvent>)
    ensures r.Success? <==>
      IsArray(info) && GetTime(p, info).Success? && CoerceToString(Member(Member(info, "Product"), "line")).Success?
      && CoerceToString(Member(info, fromKey)).Success? && CoerceToString(Member(info, toKey)).Success?
    ensures r.Success? ==>
      var time := GetTime(p, info).value;
      var realTime := GetRealTime(p, info);
      r.value == NewStationEvent(time, if realTime.Some? then realTime.value else time,
                                 CoerceToString(Member(Member(info, "Product"), "line")).value,
                                 CoerceToString(Member(info, fromKey)).value,
                                 CoerceToString(Member(info, toKey)).value, eventType, vehicleType)
  {
    if !IsArray(info) then Failure("Argument must be of type array")
    else
      var time := GetTime(p, info);
      if time.Failure? then Failure(time.error)
      else
        var rt := GetRealTime(p, info);
        var realTime := if rt.Some? then rt.value else time.value;
        var line := CoerceToString(Member(Member(info, "Product"), "line"));
        var from := CoerceToString(Member(info, fromKey));
        var to := CoerceToString(Member(info, toKey));
        if line.Failure? then Failure(line.error)
        else if from.Failure? then Failure(from.error)
        else if to.Failure? then Failure(to.error)
        else Success(NewStationEvent(time.value, realTime, line.value, from.value, to.value, eventType, vehicleType))
  }

  /** `createStationEventFromArrivalInfo`: from the "origin" to the "stop". */
  function ArrivalEvent(p: RmvInfoParser, info: Json, vehicleType: int): (r: Result<StationEvent>)
    ensures r.Success? ==> r.value.eventType == TypeArrival && r.value.vehicleType == vehicleType
    ensures r.Success? ==> CoerceToString(Member(Member(info, "Product"), "line")) == Success(r.value.lineName)
    ensures r.Success? ==> CoerceToString(Member(info, "origin")) == Success(r.value.departureStationName)
    ensures r.Success? ==> CoerceToString(Member(info, "stop")) == Success(r.value.arrivalStationName)
  {
    EventFrom(p, info, "origin", "stop", TypeArrival, vehicleType)
  }

  /** `createStationEventFromDepartureInfo`: from the "stop" in the "direction". */
  function DepartureEvent(p: RmvInfoParser, info: Json, vehicleType: int): (r: Result<StationEvent>)
    ensures r.Success? ==> r.value.eventType == TypeDeparture && r.value.vehicleType == vehicleType
    ensures r.Success? ==> CoerceToString(Member(Member(info, "Product"), "line")) == Success(r.value.lineName)
    ensures r.Success? ==> CoerceToString(Member(info, "stop")) == Success(r.value.departureStationName)
    ensures r.Success? ==> CoerceToString(Member(info, "direction")) == Success(r.value.arrivalStationName)
  {
    EventFrom(p, info, "stop", "direction", TypeDeparture, vehicleType)
  }

  /** A builder of one event from one info. */
  type Builder = Json -> Result<StationEvent>

  /** What PHP raises when a decoded response that is no array reaches the `array` return type
      of `doRequest` and the `array` parameter of the parse. */
  const ResponseTypeError := "Return value must be of type array"

  /** The events of the response's list under `listKey`, built in list order; the first info
      that cannot be built ends the parse with its error. A response that is no array is the
      `TypeError`. */
  function ParseInfos(response: Json, listKey: string, build: Builder): (r: Result<seq<StationEvent>>)
    ensures !IsArray(response) ==> r == Failure(ResponseTypeError)
    ensures IsArray(response) && !IsSet(Field(response, listKey)) ==> r == Success([])
  {
    if !IsArray(response) then Failure(ResponseTypeError)
    else if IsSet(Field(response, listKey)) then BuildEvents(build, Elements(Field(response, listKey).value))
    else Success([])
  }

  /** The `foreach` of the parse over the infos. */
  function BuildEvents(build: Builder, infos: seq<Json>): (r: Result<seq<StationEvent>>)
    ensures r.Success? ==> |r.value| == |infos|
    decreases |infos|
  {
    if |infos| == 0 then Success([])
    else
      var init := BuildEvents(build, infos[..|infos| - 1]);
      if init.Failure? then init
      else
        var ev := build(infos[|infos| - 1]);
        if ev.Failure? then Failure(ev.error) else Success(init.value + [ev.value])
  }

  /** One event per info, in order: the parse succeeds exactly when every info can be built,
      and then its `i`-th event is the one built from the `i`-th info. */
  lemma {:induction false} BuildEventsSpec(build: Builder, infos: seq<Json>)
    ensures BuildEvents(build, infos).Success? <==> forall i :: 0 <= i < |infos| ==> build(infos[i]).Success?
    ensures BuildEvents(build, infos).Success? ==>
              forall i :: 0 <= i < |infos| ==> BuildEvents(build, infos).value[i] == build(infos[i]).value
    decreases |infos|
  {
    if |infos| > 0 {
      var init := infos[..|infos| - 1];
      BuildEventsSpec(build, init);
      assert forall i :: 0 <= i < |init| ==> init[i] == infos[i];
    }
  }

  /** `parseArrivalInfos`: the infos listed under "Arrival". */
  function ParseArrivalInfos(p: RmvInfoParser, response: Json, vehicleType: int): (r: Result<seq<StationEvent>>)
    ensures !IsArray(response) ==> r == Failure(ResponseTypeError)
    ensures IsArray(response) && !IsSet(Field(response, "Arrival")) ==> r == Success([])
    ensures r.Success? && IsSet(Field(response, "Arrival")) ==> |r.value| == |Elements(Field(response, "Arrival").value)|
  {
    ParseInfos(response, "Arrival", info => ArrivalEvent(p, info, vehicleType))
  }

  /** `parseDepartureInfos`: the infos listed under "Departure". */
  function ParseDepartureInfos(p: RmvInfoParser, response: Json, vehicleType: int): (r: Result<seq<StationEvent>>)
    ensures !IsArray(response) ==> r == Failure(ResponseTypeError)
    ensures IsArray(response) && !IsSet(Field(response, "Departure")) ==> r == Success([])
    ensures r.Success? && IsSet(Field(response, "Departure")) ==> |r.value| == |Elements(Field(response, "Departure").value)|
  {
    ParseInfos(response, "Departure", info => DepartureEvent(p, info, vehicleType))
  }

  /** The arrivals of a response are its arrival infos, one by one: each parsed arrival is the
      arrival built from the info at the same position, and has the given vehicle type. */
  lemma {:induction false} ParsedArrivals(p: RmvInfoParser, response: Json, vehicleType: int, i: int)
    requires ParseArrivalInfos(p, response, vehicleType).Success?
    requires 0 <= i < |ParseArrivalInfos(p, response, vehicleType).value|
    ensures IsSet(Field(response, "Arrival"))
    ensures var info := Elements(Field(response, "Arrival").value)[i];
      ArrivalEvent(p, info, vehicleType).Success?
      && ParseArrivalInfos(p, response, vehicleType).value[i] == ArrivalEvent(p, info, vehicleType).value
  {
    BuildEventsSpec(info => ArrivalEvent(p, info, vehicleType), Elements(Field(response, "Arrival").value));
  }

  /** The departures of a response, likewise. */
  lemma {:induction false} ParsedDepartures(p: RmvInfoParser, response: Json, vehicleType: int, i: int)
    requires ParseDepartureInfos(p, response, vehicleType).Success?
    requires 0 <= i < |ParseDepartureInfos(p, response, vehicleType).value|
    ensures IsSet(Field(response, "Departure"))
    ensures var info := Elements(Field(response, "Departure").value)[i];
      DepartureEvent(p, info, vehicleType).Success?
      && ParseDepartureInfos(p, response, vehicleType).value[i] == DepartureEvent(p, info, vehicleType).value
  {
    BuildEventsSpec(info => DepartureEvent(p, info, vehicleType), Elements(Field(response, "Departure").value));
  }

  /** An arrival info as the API sends it, without and with a predicted time. */
  function ArrivalInfo(line: string, origin: string, stop: string, date: string, time: string): Json {
    JObject([("Product", JObject([("line", JString(line))])), ("origin", JString(origin)), ("stop", JString(stop)),
             ("date", JString(date)), ("time", JString(time))])
  }

  function LateArrivalInfo(line: string, origin: string, stop: string, date: string, time: string,
                           realTime: string): Json {
    JObject([("Product", JObject([("line", JString(line))])), ("origin", JString(origin)), ("stop", JString(stop)),
             ("date", JString(date)), ("time", JString(time)), ("rtDate", JString(date)), ("rtTime", JString(realTime))])
  }

  /** The members the builders read from an info with a planned time only. */
  lemma {:induction false} ArrivalInfoMembers(line: string, origin: string, stop: string, date: string,
                                              time: string)
    ensures var info := ArrivalInfo(line, origin, stop, date, time);
      Member(Member(info, "Product"), "line") == JString(line) && Member(info, "origin") == JString(origin)
      && Member(info, "stop") == JString(stop) && Member(info, "date") == JString(date)
      && Member(info, "time") == JString(time) && Field(info, "rtDate").None?
  {
    var info := ArrivalInfo(line, origin, stop, date, time);
    LookupFirst(info.members, 0, "Product");
    LookupFirst(info.members, 1, "origin");
    LookupFirst(info.members, 2, "stop");
    LookupFirst(info.members, 3, "date");
    LookupFirst(info.members, 4, "time");
    LookupSpec(info.members, "rtDate");
  }

  /** The members the builders read from an info with a predicted time. */
  lemma {:induction false} LateArrivalInfoMembers(line: string, origin: string, stop: string, date: string,
                                                  time: string, realTime: string)
    ensures var info := LateArrivalInfo(line, origin, stop, date, time, realTime);
      Member(Member(info, "Product"), "line") == JString(line) && Member(info, "origin") == JString(origin)
      && Member(info, "stop") == JString(stop) && Member(info, "date") == JString(date)
      && Member(info, "time") == JString(time) && Member(info, "rtDate") == JString(date)
      && Member(info, "rtTime") == JString(realTime)
  {
    var info := LateArrivalInfo(line, origin, stop, date, time, realTime);
    LookupFirst(info.members, 0, "Product");
    LookupFirst(info.members, 1, "origin");
    LookupFirst(info.members, 2, "stop");
    LookupFirst(info.members, 3, "date");
    LookupFirst(info.members, 4, "time");
    LookupFirst(info.members, 5, "rtDate");
    LookupFirst(info.members, 6, "rtTime");
  }

  /** An arrival built from an info with a planned time only, and one with a predicted time:
      the first is on time; the second is late by the rounded minutes between the two times.
      Either way the event carries the line and the stations of the info. */
  lemma {:induction false} ArrivalOfInfo(p: RmvInfoParser, info: Json, line: string, origin: string, stop: string,
                                         date: string, t: int, realTime: Option<int>, vehicleType: int)
    requires info.JObject? && p.parseDate(date) == Some(0)
    requires Member(Member(info, "Product"), "line") == JString(line) && Member(info, "origin") == JString(origin)
    requires Member(info, "stop") == JString(stop) && Member(info, "date") == JString(date)
    requires Member(info, "time") == JString(FormatHis(t))
    requires realTime.None? ==> Field(info, "rtDate").None?
    requires realTime.Some? ==> Member(info, "rtDate") == JString(date)
                                && Member(info, "rtTime") == JString(FormatHis(realTime.value))
    ensures var rt := if realTime.Some? then TimeOfDay(realTime.value) else TimeOfDay(t);
      ArrivalEvent(p, info, vehicleType)
        == Success(NewStationEvent(TimeOfDay(t), rt, line, origin, stop, TypeArrival, vehicleType))
  {
    ParseFormatHis(t);
    assert GetTime(p, info) == Success(TimeOfDay(t));
    if realTime.Some? {
      ParseFormatHis(realTime.value);
      assert IsSet(Field(info, "rtDate")) && IsSet(Field(info, "rtTime"));
      assert GetRealTime(p, info) == Some(TimeOfDay(realTime.value));
    } else {
      assert GetRealTime(p, info).None?;
    }
  }

  /** The repository's example arrival without a predicted time: it is on time, and carries the
      line and the stations of the info. */
  lemma ArrivalOnTimeExample(p: RmvInfoParser, line: string, origin: string, stop: string, date: string,
                             t: int, vehicleType: int)
    requires p.parseDate(date) == Some(0)
    ensures var ev := ArrivalEvent(p, ArrivalInfo(line, origin, stop, date, FormatHis(t)), vehicleType);
      ev.Success? && ev.value.time == TimeOfDay(t) && ev.value.realTime == TimeOfDay(t)
      && Field(ToJsonObject(ev.value), "delay") == Some(JInt(0))
      && Field(ToJsonObject(ev.value), "line") == Some(JString(line))
      && Field(ToJsonObject(ev.value), "departureStationName") == Some(JString(origin))
      && Field(ToJsonObject(ev.value), "arrivalStationName") == Some(JString(stop))
  {
    ArrivalInfoMembers(line, origin, stop, date, FormatHis(t));
    ArrivalOfInfo(p, ArrivalInfo(line, origin, stop, date, FormatHis(t)), line, origin, stop, date, t, None,
                  vehicleType);
    EventDelay(TimeOfDay(t), TimeOfDay(t), line, origin, stop, TypeArrival, vehicleType);
  }

  /** The repository's example arrival with a predicted time: it is late by the rounded minutes
      between the two times. */
  lemma ArrivalLateExample(p: RmvInfoParser, line: string, origin: string, stop: string, date: string,
                           t: int, t': int, vehicleType: int)
    requires p.parseDate(date) == Some(0)
    ensures var ev := ArrivalEvent(p, LateArrivalInfo(line, origin, stop, date, FormatHis(t), FormatHis(t')),
                                   vehicleType);
      ev.Success? && ev.value.time == TimeOfDay(t) && ev.value.realTime == TimeOfDay(t')
      && Field(ToJsonObject(ev.value), "delay") == Some(JInt(RoundDiv60(TimeOfDay(t') - TimeOfDay(t))))
  {
    LateArrivalInfoMembers(line, origin, stop, date, FormatHis(t), FormatHis(t'));
    ArrivalOfInfo(p, LateArrivalInfo(line, origin, stop, date, FormatHis(t), FormatHis(t')), line, origin, stop,
                  date, t, Some(t'), vehicleType);
    EventDelay(TimeOfDay(t), TimeOfDay(t'), line, origin, stop, TypeArrival, vehicleType);
  }
}

=== FILE: rmvstationinfofetcher.dfy ===
/** `RmvStationInfoFetcher`: the arrivals and departures of one station, asked of the RMV api as
    an arrival or departure board request and read back by the info parser. */
module RmvStationInfoFetchers {
  import opened Wrappers
  import opened Text
  import opened JsonValues
  import opened Clock
  import opened DateIntervalConverter
  import opened StationEvents
  import opened StationBoardRequests
  import opened RmvInfoParsers

  /** `RmvApi::doRequest`: the decoded response to a request, or the exception the HTTP client
      raises. */
  type Api = StationBoardRequest -> Result<Json>

  /** The station id is the string the constructor received; the ignore lines are kept as the
      config gave them and become strings only when they are excluded. */
  datatype RmvStationInfoFetcher = RmvStationInfoFetcher(
    api: Api,
    parser: RmvInfoParser,
    stationId: string,
    ignoreLines: seq<Json>,
    vehicleType: int)

  /** The `foreach` over the ignore lines: each is coerced to the string `excludeLine` takes
      and excluded in turn; the first that does not coerce raises the `TypeError`. */
  function ExcludeLines(r: StationBoardRequest, lines: seq<Json>): (res: Result<StationBoardRequest>)
    ensures res.Success? ==> |res.value.lines| == |r.lines| + |lines| && res.value.lines[..|r.lines|] == r.lines
    decreases |lines|
  {
    if |lines| == 0 then Success(r)
    else
      var line := CoerceToString(lines[0]);
      if line.Failure? then Failure(line.error)
      else ExcludeLines(ExcludeLine(r, line.value), lines[1..])
  }

  /** Excluding a list of lines succeeds exactly when every line coerces to a string; it then
      appends each, with a "!" in front, after the lines already excluded, and changes nothing
      else. */
  lemma {:induction false} ExcludeLinesSpec(r: StationBoardRequest, lines: seq<Json>)
    ensures var res := ExcludeLines(r, lines);
      res.Success? <==> forall i :: 0 <= i < |lines| ==> CoerceToString(lines[i]).Success?
    ensures var res := ExcludeLines(r, lines);
      res.Success? ==>
        res.value == r.(lines := res.value.lines)
        && |res.value.lines| == |r.lines| + |lines|
        && res.value.lines[..|r.lines|] == r.lines
        && forall i :: 0 <= i < |lines| ==>
             CoerceToString(lines[i]).Success? && res.value.lines[|r.lines| + i] == "!" + CoerceToString(lines[i]).value
    decreases |lines|
  {
    if |lines| > 0 {
      var line := CoerceToString(lines[0]);
      if line.Success? {
        var r' := ExcludeLine(r, line.value);
        ExcludeLinesSpec(r', lines[1..]);
        assert forall i :: 1 <= i < |lines| ==> lines[1..][i - 1] == lines[i];
        var res := ExcludeLines(r, lines);
        if res.Success? {
          assert res.value.lines[|r.lines|] == r'.lines[|r.lines|];
          assert res.value.lines[..|r.lines|] == r'.lines[..|r'.lines|][..|r.lines|];
        }
      }
    }
  }

  /** A failed exclusion is the `TypeError` of the first line that does not coerce. */
  lemma {:induction false} ExcludeLinesFirstError(r: StationBoardRequest, lines: seq<Json>)
    requires ExcludeLines(r, lines).Failure?
    ensures exists i :: (0 <= i < |lines| && CoerceToString(lines[i]).Failure?
                         && ExcludeLines(r, lines).error == CoerceToString(lines[i]).error
                         && forall k :: 0 <= k < i ==> CoerceToString(lines[k]).Success?)
    decreases |lines|
  {
    var line := CoerceToString(lines[0]);
    if line.Success? {
      ExcludeLinesFirstError(ExcludeLine(r, line.value), lines[1..]);
      var i :| 0 <= i < |lines[1..]| && CoerceToString(lines[1..][i]).Failure?
               && ExcludeLines(ExcludeLine(r, line.value), lines[1..]).error == CoerceToString(lines[1..][i]).error
               && forall k :: 0 <= k < i ==> CoerceToString(lines[1..][k]).Success?;
      assert lines[1..][i] == lines[i + 1];
      forall k | 0 <= k < i + 1 ensures CoerceToString(lines[k]).Success? {
        if k > 0 {
          assert lines[1..][k - 1] == lines[k];
        }
      }
    }
  }

  /** The duration the request gets for a window: its rounded minutes, clamped to a day. */
  function WindowMinutes(start: int, end: int): (m: int)
    ensures 0 <= m <= MaxDuration
  {
    var minutes := RoundDiv60(end - start);
    if minutes < 0 then 0 else if minutes > MaxDuration then MaxDuration else minutes
  }

  /** `configureGeneralRequestOptions`: the station as external id, realtime mode, the window's
      start and duration, and the ignore lines excluded. */
  function ConfigureGeneralRequestOptions(f: RmvStationInfoFetcher, r: StationBoardRequest, start: int, end: int)
    : (res: Result<StationBoardRequest>)
    ensures res.Success? <==> forall i :: 0 <= i < |f.ignoreLines| ==> CoerceToString(f.ignoreLines[i]).Success?
    ensures res.Success? ==>
      res.value == r.(extId := Some(f.stationId), rtMode := Some(RtModeRealtime), startDateTime := Some(start),
                      duration := Some(WindowMinutes(start, end)), lines := res.value.lines)
    ensures res.Success? ==>
      |res.value.lines| == |r.lines| + |f.ignoreLines| && res.value.lines[..|r.lines|] == r.lines
      && forall i :: 0 <= i < |f.ignoreLines| ==>
           CoerceToString(f.ignoreLines[i]).Success?
           && res.value.lines[|r.lines| + i] == "!" + CoerceToString(f.ignoreLines[i]).value
  {
    var configured := SetStartDateTime(SetRtMode(SetExtId(r, f.stationId), RtModeRealtime), start);
    var timed := SetEndDateTime(configured, end).value;
    ExcludeLinesSpec(timed, f.ignoreLines);
    ExcludeLines(timed, f.ignoreLines)
  }

  /** The request of a kind the fetcher sends for a window: a new request with the general
      options, and nothing else set. */
  function BoardRequest(f: RmvStationInfoFetcher, kind: BoardKind, start: int, end: int)
    : (res: Result<StationBoardRequest>)
    ensures res.Success? <==> forall i :: 0 <= i < |f.ignoreLines| ==> CoerceToString(f.ignoreLines[i]).Success?
    ensures res.Success? ==>
      var r := res.value;
      r.kind == kind && r.extId == Some(f.stationId) && r.rtMode == Some(RtModeRealtime)
      && r.startDateTime == Some(start) && r.duration == Some(WindowMinutes(start, end))
      && r.id.None? && r.direction.None? && r.products == 0 && r.operators == [] && r.maxJourneys.None?
      && r.filterEquiv.None? && r.attributes == [] && |r.lines| == |f.ignoreLines|
  {
    ConfigureGeneralRequestOptions(f, NewRequest(kind), start, end)
  }

  /** A fetch: the request is sent and its response parsed; an ignore line that does not
      coerce or an exception of the api ends the fetch. */
  function Fetch(f: RmvStationInfoFetcher, kind: BoardKind, start: int, end: int)
    : (r: Result<seq<StationEvent>>)
    ensures BoardRequest(f, kind, start, end).Failure? ==> r == Failure(BoardRequest(f, kind, start, end).error)
    ensures BoardRequest(f, kind, start, end).Success? && f.api(BoardRequest(f, kind, start, end).value).Failure? ==>
      r == Failure(f.api(BoardRequest(f, kind, start, end).value).error)
  {
    var request := BoardRequest(f, kind, start, end);
    if request.Failure? then Failure(request.error)
    else
      var response := f.api(request.value);
      if response.Failure? then Failure(response.error)
      else if kind == ArrivalBoard then ParseArrivalInfos(f.parser, response.value, f.vehicleType)
      else ParseDepartureInfos(f.parser, response.value, f.vehicleType)
  }

  /** `fetchArrivals`: an arrival board request, parsed as arrivals of the fetcher's vehicle
      type. */
  function FetchArrivals(f: RmvStationInfoFetcher, start: int, end: int): (r: Result<seq<StationEvent>>)
    ensures BoardRequest(f, ArrivalBoard, start, end).Success?
            && f.api(BoardRequest(f, ArrivalBoard, start, end).value).Success? ==>
      r == ParseArrivalInfos(f.parser, f.api(BoardRequest(f, ArrivalBoard, start, end).value).value, f.vehicleType)
  {
    Fetch(f, ArrivalBoard, start, end)
  }

  /** `fetchDepartures`: a departure board request, parsed as departures of the fetcher's
      vehicle type. */
  function FetchDepartures(f: RmvStationInfoFetcher, start: int, end: int): (r: Result<seq<StationEvent>>)
    ensures BoardRequest(f, DepartureBoard, start, end).Success?
            && f.api(BoardRequest(f, DepartureBoard, start, end).value).Success? ==>
      r == ParseDepartureInfos(f.parser, f.api(BoardRequest(f, DepartureBoard, start, end).value).value, f.vehicleType)
  {
    Fetch(f, DepartureBoard, start, end)
  }

  /** The parameters the api receives: the station, realtime mode, the date and "H:i" time of
      the start, the clamped minutes of the window, and the excluded lines when there are any;
      no other parameter is set. */
  lemma BoardRequestParameters(f: RmvStationInfoFetcher, kind: BoardKind, start: int, end: int,
                               formatDate: int -> string)
    requires BoardRequest(f, kind, start, end).Success?
    ensures var r := BoardRequest(f, kind, start, end).value;
      var p := GetRequestParameters(r, formatDate);
      Field(p, "extId") == Some(JString(f.stationId))
      && Field(p, "rtMode") == Some(JString(RtModeRealtime))
      && Field(p, "date") == Some(JString(formatDate(start)))
      && Field(p, "time") == Some(JString(FormatHi(start)))
      && Field(p, "duration") == Some(JInt(WindowMinutes(start, end)))
      && Field(p, "lines") == JoinedList(r.lines)
  {
    var r := BoardRequest(f, kind, start, end).value;
    IdentityParameters(r, formatDate);
    TimeParameters(r, formatDate);
    ListParameters(r, formatDate);
  }

  /** No other parameter is set. */
  lemma UnsetParameters(f: RmvStationInfoFetcher, kind: BoardKind, start: int, end: int, formatDate: int -> string)
    requires BoardRequest(f, kind, start, end).Success?
    ensures var p := GetRequestParameters(BoardRequest(f, kind, start, end).value, formatDate);
      Field(p, "id").None? && Field(p, "direction").None? && Field(p, "products").None?
      && Field(p, "operators").None? && Field(p, "maxJourneys").None? && Field(p, "filterEquiv").None?
      && Field(p, "attributes").None?
  {
    var r := BoardRequest(f, kind, start, end).value;
    assert Signed(0) == 0;
    IdentityParameters(r, formatDate);
    FilterParameters(r, formatDate);
    ListParameters(r, formatDate);
  }

  /** The members of thirteen values of which those at 1, 3, 4, 5 and 12 are present. */
  lemma FivePresent(k: seq<string>, v: seq<Option<Json>>)
    requires |k| == |v| == 13
    requires v[0].None? && v[1].Some? && v[2].None? && v[3].Some? && v[4].Some? && v[5].Some? && v[12].Some?
    requires forall a :: 6 <= a < 12 ==> v[a].None?
    ensures Present(k, v)
            == [(k[1], v[1].value), (k[3], v[3].value), (k[4], v[4].value), (k[5], v[5].value), (k[12], v[12].value)]
  {
    PresentSingle(k[6..], v[6..], 6);
    var tail := Present(k[6..], v[6..]);
    PresentStep(k, v, 5);
    PresentStep(k, v, 4);
    PresentStep(k, v, 3);
    PresentStep(k, v, 2);
    PresentStep(k, v, 1);
    PresentStep(k, v, 0);
    assert k[0..] == k && v[0..] == v;
  }

  /** Without ignore lines the request has exactly its five parameters, in key order. */
  lemma {:induction false} FiveParameters(f: RmvStationInfoFetcher, kind: BoardKind, start: int, end: int,
                                          formatDate: int -> string)
    requires f.ignoreLines == []
    ensures BoardRequest(f, kind, start, end).Success?
    ensures GetRequestParameters(BoardRequest(f, kind, start, end).value, formatDate).members
            == [("extId", JString(f.stationId)), ("date", JString(formatDate(start))),
                ("time", JString(FormatHi(start))), ("duration", JInt(WindowMinutes(start, end))),
                ("rtMode", JString(RtModeRealtime))]
  {
    var r := BoardRequest(f, kind, start, end).value;
    assert r.lines == [];
    assert Signed(0) == 0;
    assert ParameterValues(r, formatDate)
           == [None, Some(JString(f.stationId)), None, Some(JString(formatDate(start))), Some(JString(FormatHi(start))),
               Some(JInt(WindowMinutes(start, end))), None, None, None, None, None, None,
               Some(JString(RtModeRealtime))];
    FivePresent(ParameterKeys, ParameterValues(r, formatDate));
  }

  /** The fetches of the repository's tests: 10:40 to 12:10 asks for 90 minutes, 14:20 to
      14:45 for 25. */
  lemma WindowMinutesExamples()
    ensures WindowMinutes(10 * 3600 + 40 * 60, 12 * 3600 + 10 * 60) == 90
    ensures WindowMinutes(14 * 3600 + 20 * 60, 14 * 3600 + 45 * 60) == 25
  {
  }

  /** A single ignore line "R48" is sent as "!R48". */
  lemma {:induction false} IgnoreLineExample(f: RmvStationInfoFetcher, kind: BoardKind, start: int, end: int,
                                             formatDate: int -> string)
    requires f.ignoreLines == [JString("R48")]
    ensures BoardRequest(f, kind, start, end).Success?
    ensures Field(GetRequestParameters(BoardRequest(f, kind, start, end).value, formatDate), "lines")
            == Some(JString("!R48"))
  {
    var r := BoardRequest(f, kind, start, end).value;
    assert r.lines == ["!" + "R48"];
    assert "!" + "R48" == "!R48";
    BoardRequestParameters(f, kind, start, end, formatDate);
  }

  /** A fetch hands the api's response to the parser unchanged: a fetcher whose api answers
      the request alike fetches the same. */
  lemma {:induction false} FetchUsesResponse(f: RmvStationInfoFetcher, api: Api, kind: BoardKind, start: int,
                                             end: int)
    requires BoardRequest(f, kind, start, end).Success?
    requires api(BoardRequest(f, kind, start, end).value) == f.api(BoardRequest(f, kind, start, end).value)
    ensures Fetch(f.(api := api), kind, start, end) == Fetch(f, kind, start, end)
  {
    assert BoardRequest(f.(api := api), kind, start, end) == BoardRequest(f, kind, start, end);
  }
}

=== FILE: stationboardrequest.dfy ===
/** `StationBoardRequest`: the parameters of an RMV arrival board or departure board query,
    built up by setters and turned into the query parameters of the HTTP request. The two
    request classes differ only in their API path, which is the `kind` of the request here. */
module StationBoardRequests {
  import opened Wrappers
  import opened Text
  import opened JsonValues
  import opened Clock
  import opened DateIntervalConverter

  /** The `RT_MODE_*` constants. */
  const RtModeOff := "OFF"
  const RtModeInfos := "INFOS"
  const RtModeFull := "FULL"
  const RtModeRealtime := "REALTIME"
  const RtModeServerDefault := "SERVER_DEFAULT"
  const RtModes := [RtModeOff, RtModeInfos, RtModeFull, RtModeRealtime, RtModeServerDefault]

  /** The longest duration the API accepts, in minutes. */
  const MaxDuration := 1439

  datatype BoardKind = ArrivalBoard | DepartureBoard

  /** `getApiPath` of `ArrivalBoardRequest` and `DepartureBoardRequest`. */
  function ApiPath(kind: BoardKind): (path: string)
    ensures kind == ArrivalBoard <==> path == "arrivalBoard"
    ensures kind == DepartureBoard <==> path == "departureBoard"
  {
    match kind
    case ArrivalBoard => "arrivalBoard"
    case DepartureBoard => "departureBoard"
  }

  /** An unset property is `None`. The product bit mask is a 64-bit PHP integer; the start is
      an instant of the `Clock` timeline. */
  datatype StationBoardRequest = StationBoardRequest(
    kind: BoardKind,
    id: Option<string>,
    extId: Option<string>,
    direction: Option<string>,
    startDateTime: Option<int>,
    duration: Option<int>,
    products: Word,
    operators: seq<string>,
    lines: seq<string>,
    maxJourneys: Option<int>,
    filterEquiv: Option<bool>,
    attributes: seq<string>,
    rtMode: Option<string>)

  /** The constructor: no products and empty operator, line and attribute lists. */
  function NewRequest(kind: BoardKind): (r: StationBoardRequest)
    ensures r.kind == kind && r.products == 0
    ensures r.operators == [] && r.lines == [] && r.attributes == []
    ensures r.id.None? && r.extId.None? && r.direction.None? && r.startDateTime.None? && r.duration.None?
    ensures r.maxJourneys.None? && r.filterEquiv.None? && r.rtMode.None?
  {
    StationBoardRequest(kind, None, None, None, None, None, 0, [], [], None, None, [], None)
  }

  /** `setId`. */
  function SetId(r: StationBoardRequest, id: string): (r': StationBoardRequest)
    ensures r' == r.(id := Some(id))
  {
    r.(id := Some(id))
  }

  /** `setExtId`. */
  function SetExtId(r: StationBoardRequest, extId: string): (r': StationBoardRequest)
    ensures r' == r.(extId := Some(extId))
  {
    r.(extId := Some(extId))
  }

  /** `setDirection`. */
  function SetDirection(r: StationBoardRequest, direction: string): (r': StationBoardRequest)
    ensures r' == r.(direction := Some(direction))
  {
    r.(direction := Some(direction))
  }

  /** `setStartDateTime`. */
  function SetStartDateTime(r: StationBoardRequest, start: int): (r': StationBoardRequest)
    ensures r' == r.(startDateTime := Some(start))
  {
    r.(startDateTime := Some(start))
  }

  /** `setDuration`: the minutes, clamped into `[0, 1439]`. */
  function SetDuration(r: StationBoardRequest, minutes: int): (r': StationBoardRequest)
    ensures r'.duration.Some? && 0 <= r'.duration.value <= MaxDuration
    ensures 0 <= minutes <= MaxDuration ==> r'.duration == Some(minutes)
    ensures minutes < 0 ==> r'.duration == Some(0)
    ensures minutes > MaxDuration ==> r'.duration == Some(MaxDuration)
    ensures r' == r.(duration := r'.duration)
  {
    if minutes < 0 then r.(duration := Some(0))
    else if minutes > MaxDuration then r.(duration := Some(MaxDuration))
    else r.(duration := Some(minutes))
  }

  /** `setEndDateTime`: the duration becomes the rounded minutes from the start to `end`,
      clamped; without a start PHP fails calling `diff` on `null`. */
  function SetEndDateTime(r: StationBoardRequest, end: int): (res: Result<StationBoardRequest>)
    ensures res.Success? <==> r.startDateTime.Some?
    ensures res.Success? ==> res.value == SetDuration(r, RoundDiv60(end - r.startDateTime.value))
  {
    if r.startDateTime.None? then Failure("Call to a member function diff() on null")
    else Success(SetDuration(r, ToMinutes(Diff(r.startDateTime.value, end))))
  }

  /** 2 to the power `n`. */
  function Pow2(n: nat): (p: nat)
    ensures p >= 1
  {
    if n == 0 then 1 else 2 * Pow2(n - 1)
  }

  /** The 64-bit patterns, read as unsigned numbers. */
  type Word = x: int | 0 <= x < 0x1_0000_0000_0000_0000

  /** PHP's `|` on the bit patterns of two non-negative numbers. */
  function Or(a: nat, b: nat): nat
    decreases a + b
  {
    if a == 0 && b == 0 then 0
    else 2 * Or(a / 2, b / 2) + (if a % 2 == 1 || b % 2 == 1 then 1 else 0)
  }

  /** Or-ing numbers below a power of two stays below it. */
  lemma {:induction false} OrBound(a: nat, b: nat, n: nat)
    requires a < Pow2(n) && b < Pow2(n)
    ensures Or(a, b) < Pow2(n)
    decreases n
  {
    if n > 0 && !(a == 0 && b == 0) {
      OrBound(a / 2, b / 2, n - 1);
    }
  }

  lemma {:induction false} OrCommutative(a: nat, b: nat)
    ensures Or(a, b) == Or(b, a)
    decreases a + b
  {
    if !(a == 0 && b == 0) {
      OrCommutative(a / 2, b / 2);
    }
  }

  lemma {:induction false} OrAssociative(a: nat, b: nat, c: nat)
    ensures Or(Or(a, b), c) == Or(a, Or(b, c))
    decreases a + b + c
  {
    if !(a == 0 && b == 0 && c == 0) {
      OrAssociative(a / 2, b / 2, c / 2);
      var ab := Or(a, b);
      var bc := Or(b, c);
      assert ab / 2 == Or(a / 2, b / 2) && ab % 2 == (if a % 2 == 1 || b % 2 == 1 then 1 else 0);
      assert bc / 2 == Or(b / 2, c / 2) && bc % 2 == (if b % 2 == 1 || c % 2 == 1 then 1 else 0);
    }
  }

  /** Or-ing in bits that are already set changes nothing. */
  lemma {:induction false} OrAbsorbs(a: nat, b: nat)
    ensures Or(Or(a, b), b) == Or(a, b)
    ensures Or(Or(a, b), a) == Or(a, b)
    decreases a + b
  {
    if !(a == 0 && b == 0) {
      OrAbsorbs(a / 2, b / 2);
      var ab := Or(a, b);
      assert ab / 2 == Or(a / 2, b / 2) && ab % 2 == (if a % 2 == 1 || b % 2 == 1 then 1 else 0);
    }
  }

  /** A PHP integer as its 64 bits, two's complement. */
  function Bits(i: int): (w: Word)
    requires -0x8000_0000_0000_0000 <= i < 0x8000_0000_0000_0000
    ensures i >= 0 ==> w == i
  {
    if i < 0 then i + 0x1_0000_0000_0000_0000 else i
  }

  /** The PHP integer of 64 bits. */
  function Signed(w: Word): (i: int)
    ensures -0x8000_0000_0000_0000 <= i < 0x8000_0000_0000_0000
    ensures Bits(i) == w
  {
    if w < 0x8000_0000_0000_0000 then w else w - 0x1_0000_0000_0000_0000
  }

  /** `addProducts`: the product ids are or-ed into the mask. */
  function AddProducts(r: StationBoardRequest, productIds: int): (r': StationBoardRequest)
    requires -0x8000_0000_0000_0000 <= productIds < 0x8000_0000_0000_0000
    ensures r'.products == Or(r.products, Bits(productIds))
    ensures r' == r.(products := r'.products)
  {
    assert Pow2(64) == 0x1_0000_0000_0000_0000 by { Pow2Value(); }
    OrBound(r.products, Bits(productIds), 64);
    r.(products := Or(r.products, Bits(productIds)))
  }

  lemma {:induction false} Pow2Add(a: nat, b: nat)
    ensures Pow2(a + b) == Pow2(a) * Pow2(b)
    decreases a
  {
    if a > 0 {
      Pow2Add(a - 1, b);
    }
  }

  lemma Pow2Value()
    ensures Pow2(64) == 0x1_0000_0000_0000_0000
  {
    assert Pow2(8) == 256;
    Pow2Add(8, 8);
    Pow2Add(16, 16);
    Pow2Add(32, 32);
  }

  /** Adding products never removes one, adding the same ids twice is adding them once, and
      the order in which ids are added does not matter. */
  lemma {:induction false} AddProductsAccumulates(r: StationBoardRequest, x: int, y: int)
    requires -0x8000_0000_0000_0000 <= x < 0x8000_0000_0000_0000
    requires -0x8000_0000_0000_0000 <= y < 0x8000_0000_0000_0000
    ensures Or(AddProducts(r, x).products, r.products) == AddProducts(r, x).products
    ensures Or(AddProducts(r, x).products, Bits(x)) == AddProducts(r, x).products
    ensures AddProducts(AddProducts(r, x), x) == AddProducts(r, x)
    ensures AddProducts(AddProducts(r, x), y) == AddProducts(AddProducts(r, y), x)
  {
    OrAbsorbs(r.products, Bits(x));
    OrAssociative(r.products, Bits(x), Bits(y));
    OrAssociative(r.products, Bits(y), Bits(x));
    OrCommutative(Bits(x), Bits(y));
  }

  /** Products added to a new request are exactly the or of the ids. */
  lemma AddProductsExample(kind: BoardKind)
    ensures AddProducts(AddProducts(NewRequest(kind), 1), 4).products == 5
    ensures AddProducts(AddProducts(NewRequest(kind), 5), 4).products == 5
  {
    assert Or(0, 0) == 0;
    assert Or(0, 1) == 1;
    assert Or(0, 2) == 2;
    assert Or(0, 4) == 4;
    assert Or(0, 5) == 5;
    assert Or(1, 4) == 5 by { assert Or(0, 2) == 2; }
    assert Or(2, 2) == 2 by { assert Or(1, 1) == 1; }
    assert Or(5, 4) == 5;
  }

  /** `includeOperator`. */
  function IncludeOperator(r: StationBoardRequest, code: string): (r': StationBoardRequest)
    ensures r' == r.(operators := r.operators + [code])
  {
    r.(operators := r.operators + [code])
  }

  /** `excludeOperator`: the code with a "!" in front. */
  function ExcludeOperator(r: StationBoardRequest, code: string): (r': StationBoardRequest)
    ensures r' == r.(operators := r.operators + ["!" + code])
  {
    r.(operators := r.operators + ["!" + code])
  }

  /** `includeLine`. */
  function IncludeLine(r: StationBoardRequest, line: string): (r': StationBoardRequest)
    ensures r' == r.(lines := r.lines + [line])
  {
    r.(lines := r.lines + [line])
  }

  /** `excludeLine`: the line with a "!" in front. */
  function ExcludeLine(r: StationBoardRequest, line: string): (r': StationBoardRequest)
    ensures r' == r.(lines := r.lines + ["!" + line])
  {
    r.(lines := r.lines + ["!" + line])
  }

  /** `setMaxJourneys`. */
  function SetMaxJourneys(r: StationBoardRequest, maxJourneys: int): (r': StationBoardRequest)
    ensures r' == r.(maxJourneys := Some(maxJourneys))
  {
    r.(maxJourneys := Some(maxJourneys))
  }

  /** `setFilterEquiv`. */
  function SetFilterEquiv(r: StationBoardRequest, filterEquiv: bool): (r': StationBoardRequest)
    ensures r' == r.(filterEquiv := Some(filterEquiv))
  {
    r.(filterEquiv := Some(filterEquiv))
  }

  /** `includeAttribute`. */
  function IncludeAttribute(r: StationBoardRequest, code: string): (r': StationBoardRequest)
    ensures r' == r.(attributes := r.attributes + [code])
  {
    r.(attributes := r.attributes + [code])
  }

  /** `excludeAttribute`: the code with a "!" in front. */
  function ExcludeAttribute(r: StationBoardRequest, code: string): (r': StationBoardRequest)
    ensures r' == r.(attributes := r.attributes + ["!" + code])
  {
    r.(attributes := r.attributes + ["!" + code])
  }

  /** `setRtMode`. */
  function SetRtMode(r: StationBoardRequest, rtMode: string): (r': StationBoardRequest)
    ensures r' == r.(rtMode := Some(rtMode))
  {
    r.(rtMode := Some(rtMode))
  }

  /** `validate`: an id or an external id must be set, and a realtime mode that is set must
      be one of the five modes. */
  function Validate(r: StationBoardRequest): (o: Outcome)
    ensures o.Pass? <==> (r.id.Some? || r.extId.Some?) && (r.rtMode.Some? ==> r.rtMode.value in RtModes)
    ensures r.id.None? && r.extId.None? ==> o == Fail("Id or extId must be set")
    ensures (r.id.Some? || r.extId.Some?) && r.rtMode.Some? && r.rtMode.value !in RtModes ==>
              o == Fail("Specified realtime mode \"" + r.rtMode.value + "\" is invalid")
  {
    if r.id.None? && r.extId.None? then Fail("Id or extId must be set")
    else if r.rtMode.Some? && r.rtMode.value !in RtModes then
      Fail("Specified realtime mode \"" + r.rtMode.value + "\" is invalid")
    else Pass
  }

  /** The keys of the query parameters, in the order they are added. */
  const ParameterKeys: seq<string> := ["id", "extId", "direction", "date", "time", "duration", "products",
                                       "operators", "lines", "maxJourneys", "filterEquiv", "attributes", "rtMode"]

  lemma ParameterKeysDistinct()
    ensures |ParameterKeys| == 13
    ensures forall a, b :: 0 <= a < b < |ParameterKeys| ==> ParameterKeys[a] != ParameterKeys[b]
  {
  }

  /** The members for the values that are present, in key order. */
  function Present(keys: seq<string>, values: seq<Option<Json>>): (m: seq<(string, Json)>)
    requires |keys| == |values|
    ensures |m| <= |keys|
    decreases |keys|
  {
    if |keys| == 0 then []
    else (if values[0].Some? then [(keys[0], values[0].value)] else []) + Present(keys[1..], values[1..])
  }

  /** A key that is not among the keys is not found. */
  lemma {:induction false} PresentAbsent(keys: seq<string>, values: seq<Option<Json>>, key: string)
    requires |keys| == |values|
    requires forall a :: 0 <= a < |keys| ==> keys[a] != key
    ensures Lookup(Present(keys, values), key).None?
    decreases |keys|
  {
    if |keys| > 0 {
      PresentAbsent(keys[1..], values[1..], key);
      var rest := Present(keys[1..], values[1..]);
      if values[0].Some? {
        assert ([(keys[0], values[0].value)] + rest)[1..] == rest;
      } else {
        assert [] + rest == rest;
      }
    }
  }

  /** With distinct keys, each key finds its own value, and is missing exactly when its value
      is. */
  lemma {:induction false} PresentLookup(keys: seq<string>, values: seq<Option<Json>>, i: int)
    requires |keys| == |values| && 0 <= i < |keys|
    requires forall a, b :: 0 <= a < b < |keys| ==> keys[a] != keys[b]
    ensures Lookup(Present(keys, values), keys[i]) == values[i]
    decreases |keys|
  {
    var rest := Present(keys[1..], values[1..]);
    if i == 0 {
      if values[0].None? {
        assert [] + rest == rest;
        PresentAbsent(keys[1..], values[1..], keys[0]);
      }
    } else {
      PresentLookup(keys[1..], values[1..], i - 1);
      if values[0].Some? {
        assert ([(keys[0], values[0].value)] + rest)[1..] == rest;
      } else {
        assert [] + rest == rest;
      }
    }
  }

  /** With one value present, the members are that one key and value. */
  lemma {:induction false} PresentSingle(keys: seq<string>, values: seq<Option<Json>>, i: int)
    requires |keys| == |values| && 0 <= i < |keys| && values[i].Some?
    requires forall a :: 0 <= a < |values| && a != i ==> values[a].None?
    ensures Present(keys, values) == [(keys[i], values[i].value)]
    decreases |keys|
  {
    if i == 0 {
      PresentNone(keys[1..], values[1..]);
    } else {
      PresentSingle(keys[1..], values[1..], i - 1);
    }
  }

  /** The members from position `i` on: the member of key `i` when present, then the rest. */
  lemma PresentStep(keys: seq<string>, values: seq<Option<Json>>, i: int)
    requires |keys| == |values| && 0 <= i < |keys|
    ensures Present(keys[i..], values[i..])
            == (if values[i].Some? then [(keys[i], values[i].value)] else []) + Present(keys[i + 1..], values[i + 1..])
  {
    assert keys[i..][1..] == keys[i + 1..];
    assert values[i..][1..] == values[i + 1..];
  }

  /** With no value present there are no members. */
  lemma {:induction false} PresentNone(keys: seq<string>, values: seq<Option<Json>>)
    requires |keys| == |values|
    requires forall a :: 0 <= a < |values| ==> values[a].None?
    ensures Present(keys, values) == []
    decreases |keys|
  {
    if |keys| > 0 {
      PresentNone(keys[1..], values[1..]);
    }
  }

  function OptionalText(v: Option<string>): Option<Json> {
    if v.Some? then Some(JString(v.value)) else None
  }

  function OptionalNumber(v: Option<int>): Option<Json> {
    if v.Some? then Some(JInt(v.value)) else None
  }

  /** A list parameter: its codes comma-joined, absent when there are none. */
  function JoinedList(xs: seq<string>): Option<Json> {
    if |xs| > 0 then Some(JString(Join(",", xs))) else None
  }

  /** The value of each parameter key, `None` where the key is left out. The "Y-m-d" date of
      an instant comes from the calendar, which is not part of this model. */
  function ParameterValues(r: StationBoardRequest, formatDate: int -> string): (v: seq<Option<Json>>)
    ensures |v| == |ParameterKeys|
  {
    [OptionalText(r.id),
     OptionalText(r.extId),
     OptionalText(r.direction),
     if r.startDateTime.Some? then Some(JString(formatDate(r.startDateTime.value))) else None,
     if r.startDateTime.Some? then Some(JString(FormatHi(r.startDateTime.value))) else None,
     OptionalNumber(r.duration),
     if Signed(r.products) > 0 then Some(JInt(Signed(r.products))) else None,
     JoinedList(r.operators),
     JoinedList(r.lines),
     OptionalNumber(r.maxJourneys),
     if r.filterEquiv.Some? then Some(JInt(if r.filterEquiv.value then 1 else 0)) else None,
     JoinedList(r.attributes),
     OptionalText(r.rtMode)]
  }

  /** `getRequestParameters`: one member per set property, in key order; each key finds the
      value of its property, and is missing exactly when the property is unset. */
  function GetRequestParameters(r: StationBoardRequest, formatDate: int -> string): (p: Json)
    ensures p.JObject? && |p.members| <= |ParameterKeys|
    ensures forall k :: 0 <= k < |ParameterKeys| ==> Field(p, ParameterKeys[k]) == ParameterValues(r, formatDate)[k]
  {
    var v := ParameterValues(r, formatDate);
    ParameterKeysDistinct();
    forall k | 0 <= k < |ParameterKeys|
      ensures Lookup(Present(ParameterKeys, v), ParameterKeys[k]) == v[k]
    {
      PresentLookup(ParameterKeys, v, k);
    }
    JObject(Present(ParameterKeys, v))
  }

  /** The station, direction and realtime parameters are there exactly when set, as set. */
  lemma IdentityParameters(r: StationBoardRequest, formatDate: int -> string)
    ensures var p := GetRequestParameters(r, formatDate);
      Field(p, "id") == OptionalText(r.id)
      && Field(p, "extId") == OptionalText(r.extId)
      && Field(p, "direction") == OptionalText(r.direction)
      && Field(p, "rtMode") == OptionalText(r.rtMode)
  {
    assert ParameterKeys[0] == "id" && ParameterKeys[1] == "extId" && ParameterKeys[2] == "direction";
    assert ParameterKeys[12] == "rtMode";
  }

  /** The start gives the date and its "H:i" time; the duration is there when set. */
  lemma TimeParameters(r: StationBoardRequest, formatDate: int -> string)
    ensures var p := GetRequestParameters(r, formatDate);
      Field(p, "date") == (if r.startDateTime.Some? then Some(JString(formatDate(r.startDateTime.value))) else None)
      && Field(p, "time") == (if r.startDateTime.Some? then Some(JString(FormatHi(r.startDateTime.value))) else None)
      && Field(p, "duration") == OptionalNumber(r.duration)
  {
    assert ParameterKeys[3] == "date" && ParameterKeys[4] == "time" && ParameterKeys[5] == "duration";
  }

  /** The product mask is there when positive, `filterEquiv` as 1 or 0, and the journey limit
      when set. */
  lemma FilterParameters(r: StationBoardRequest, formatDate: int -> string)
    ensures var p := GetRequestParameters(r, formatDate);
      Field(p, "products") == (if Signed(r.products) > 0 then Some(JInt(Signed(r.products))) else None)
      && Field(p, "maxJourneys") == OptionalNumber(r.maxJourneys)
      && Field(p, "filterEquiv") == (if r.filterEquiv.Some? then Some(JInt(if r.filterEquiv.value then 1 else 0)) else None)
  {
    assert ParameterKeys[6] == "products" && ParameterKeys[9] == "maxJourneys" && ParameterKeys[10] == "filterEquiv";
  }

  /** The operator, line and attribute lists are there, comma-joined, when non-empty. */
  lemma ListParameters(r: StationBoardRequest, formatDate: int -> string)
    ensures var p := GetRequestParameters(r, formatDate);
      Field(p, "operators") == JoinedList(r.operators)
      && Field(p, "lines") == JoinedList(r.lines)
      && Field(p, "attributes") == JoinedList(r.attributes)
  {
    assert ParameterKeys[7] == "operators" && ParameterKeys[8] == "lines" && ParameterKeys[11] == "attributes";
  }

  /** A request with only its external id set has that one parameter. */
  lemma {:induction false} OnlyExtId(kind: BoardKind, extId: string, formatDate: int -> string)
    ensures GetRequestParameters(SetExtId(NewRequest(kind), extId), formatDate).members == [("extId", JString(extId))]
  {
    var v := ParameterValues(SetExtId(NewRequest(kind), extId), formatDate);
    assert Signed(0) == 0;
    PresentSingle(ParameterKeys, v, 1);
  }

  /** A request without any property set has no parameters. */
  lemma {:induction false} NoParameters(kind: BoardKind, formatDate: int -> string)
    ensures GetRequestParameters(NewRequest(kind), formatDate).members == []
  {
    assert Signed(0) == 0;
    PresentNone(ParameterKeys, ParameterValues(NewRequest(kind), formatDate));
  }

  /** Excluding lines one after another lists them in that order, each with a "!". */
  lemma ExcludedLinesExample(r: StationBoardRequest)
    requires r.lines == []
    ensures Field(GetRequestParameters(ExcludeLine(ExcludeLine(r, "100"), "104"), t => ""), "lines")
            == Some(JString("!100,!104"))
  {
    var r' := ExcludeLine(ExcludeLine(r, "100"), "104");
    assert "!" + "100" == "!100" && "!" + "104" == "!104";
    assert r'.lines == ["!100", "!104"];
    assert Join(",", ["!100", "!104"]) == "!100,!104";
    ListParameters(r', t => "");
  }

  /** The clamp of the repository's tests, and an end two hours after the start. */
  lemma DurationExamples(r: StationBoardRequest, start: int)
    ensures SetDuration(r, -500).duration == Some(0)
    ensures SetDuration(r, 99999).duration == Some(1439)
    ensures SetEndDateTime(SetStartDateTime(r, start), start + 2 * 3600).value.duration == Some(120)
  {
    assert RoundDiv60(7200) == 120;
  }

  /** A request without any id does not validate. */
  lemma ValidateNeedsStation(kind: BoardKind)
    ensures Validate(NewRequest(kind)) == Fail("Id or extId must be set")
  {
  }

  /** A realtime mode that is not one of the modes does not validate. */
  lemma ValidateRejectsMode(kind: BoardKind)
    ensures Validate(SetRtMode(SetExtId(NewRequest(kind), "bla"), "boardDeparture"))
            == Fail("Specified realtime mode \"boardDeparture\" is invalid")
  {
    var r := SetRtMode(SetExtId(NewRequest(kind), "bla"), "boardDeparture");
    assert r.extId.Some? && r.rtMode == Some("boardDeparture");
    UnknownMode();
    assert "Specified realtime mode \"" + "boardDeparture" + "\" is invalid"
           == "Specified realtime mode \"boardDeparture\" is invalid";
  }

  /** "boardDeparture" is not a realtime mode: it differs from each in its first letter. */
  lemma UnknownMode()
    ensures "boardDeparture" !in RtModes
  {
    var mode := "boardDeparture";
    assert mode[0] == 'b';
    assert RtModeOff[0] == 'O' && RtModeInfos[0] == 'I' && RtModeFull[0] == 'F';
    assert RtModeRealtime[0] == 'R' && RtModeServerDefault[0] == 'S';
  }

  /** A request with its external id and realtime mode validates. */
  lemma ValidateAcceptsRealtime(kind: BoardKind)
    ensures Validate(SetRtMode(SetExtId(NewRequest(kind), "bla"), RtModeRealtime)) == Pass
  {
    assert RtModes[3] == RtModeRealtime;
  }
}

=== FILE: stationevent.dfy ===
/** `StationEvent`: one arrival or departure at a station, and its JSON form as cached. */
module StationEvents {
  import opened Wrappers
  import opened JsonValues
  import opened Clock
  import opened DateIntervalConverter

  const TypeArrival := 1
  const TypeDeparture := 2
  const VehicleTrain := 3
  const VehicleBus := 4

  /** Times are instants on the timeline of `Clock`; `delay` is the interval from the planned
      to the predicted time. */
  datatype StationEvent = StationEvent(
    time: int,
    realTime: int,
    delay: Interval,
    lineName: string,
    departureStationName: string,
    arrivalStationName: string,
    eventType: int,
    vehicleType: int)

  /** The constructor: stores its arguments and computes the delay as `time->diff(realTime)`. */
  function NewStationEvent(time: int, realTime: int, lineName: string, departureStationName: string,
                           arrivalStationName: string, eventType: int, vehicleType: int): (ev: StationEvent)
    ensures ev.time == time && ev.realTime == realTime
    ensures ToSeconds(ev.delay) == realTime - time
    ensures ev.delay.invert <==> realTime < time
    ensures ev.lineName == lineName && ev.departureStationName == departureStationName
            && ev.arrivalStationName == arrivalStationName
    ensures ev.eventType == eventType && ev.vehicleType == vehicleType
  {
    StationEvent(time, realTime, Diff(time, realTime), lineName, departureStationName, arrivalStationName,
                 eventType, vehicleType)
  }

  /** `toJsonObject`: line, both times as "H:i:s", the delay in rounded minutes, the station
      names and the two type codes. */
  function ToJsonObject(ev: StationEvent): (j: Json)
    ensures j.JObject? && |j.members| == 8
    ensures Field(j, "line") == Some(JString(ev.lineName))
    ensures Field(j, "time") == Some(JString(FormatHis(ev.time)))
    ensures Field(j, "realTime") == Some(JString(FormatHis(ev.realTime)))
    ensures Field(j, "delay") == Some(JInt(ToMinutes(ev.delay)))
    ensures Field(j, "arrivalStationName") == Some(JString(ev.arrivalStationName))
    ensures Field(j, "departureStationName") == Some(JString(ev.departureStationName))
    ensures Field(j, "eventType") == Some(JInt(ev.eventType))
    ensures Field(j, "vehicleType") == Some(JInt(ev.vehicleType))
  {
    var m := [
      ("line", JString(ev.lineName)),
      ("time", JString(FormatHis(ev.time))),
      ("realTime", JString(FormatHis(ev.realTime))),
      ("delay", JInt(ToMinutes(ev.delay))),
      ("arrivalStationName", JString(ev.arrivalStationName)),
      ("departureStationName", JString(ev.departureStationName)),
      ("eventType", JInt(ev.eventType)),
      ("vehicleType", JInt(ev.vehicleType))];
    LookupFirst(m, 0, "line");
    LookupFirst(m, 1, "time");
    LookupFirst(m, 2, "realTime");
    LookupFirst(m, 3, "delay");
    LookupFirst(m, 4, "arrivalStationName");
    LookupFirst(m, 5, "departureStationName");
    LookupFirst(m, 6, "eventType");
    LookupFirst(m, 7, "vehicleType");
    JObject(m)
  }

  /** The cached delay of a constructed event is the difference of its times, rounded to the
      nearest minute. */
  lemma {:induction false} EventDelay(time: int, realTime: int, line: string, from: string, to: string,
                                      eventType: int, vehicleType: int)
    ensures Field(ToJsonObject(NewStationEvent(time, realTime, line, from, to, eventType, vehicleType)), "delay")
            == Some(JInt(RoundDiv60(realTime - time)))
  {
  }

  /** Reading the cached times of an event back yields their times of day. */
  lemma {:induction false} EventTimesReadBack(ev: StationEvent)
    ensures ParseHis(Field(ToJsonObject(ev), "time").value.s) == Some(TimeOfDay(ev.time))
    ensures ParseHis(Field(ToJsonObject(ev), "realTime").value.s) == Some(TimeOfDay(ev.realTime))
  {
    ParseFormatHis(ev.time);
    ParseFormatHis(ev.realTime);
  }

  /** An event on time has a delay of 0; one predicted ten minutes late, of 10. */
  lemma ExampleDelays(line: string, from: string, to: string)
    ensures Field(ToJsonObject(NewStationEvent(15 * 3600, 15 * 3600, line, from, to, TypeArrival, VehicleBus)),
                  "delay") == Some(JInt(0))
    ensures Field(ToJsonObject(NewStationEvent(12 * 3600 + 20 * 60, 12 * 3600 + 30 * 60, line, from, to,
                                               TypeDeparture, VehicleTrain)), "delay") == Some(JInt(10))
  {
    EventDelay(15 * 3600, 15 * 3600, line, from, to, TypeArrival, VehicleBus);
    EventDelay(12 * 3600 + 20 * 60, 12 * 3600 + 30 * 60, line, from, to, TypeDeparture, VehicleTrain);
    assert RoundDiv60(0) == 0 && RoundDiv60(600) == 10;
  }
}

=== FILE: stationinfocache.dfy ===
/** `StationInfoCache`: the cached arrivals or departures of one station, kept in one cache
    entry together with the kind of infos it holds and when they were fetched. */
module StationInfoCaches {
  import opened Wrappers
  import opened Text
  import opened JsonValues
  import opened Clock
  import opened CacheEntries
  import opened Caching
  import opened StationEvents

  datatype InfoKind = Arrivals | Departures

  /** The subject an entry of this kind is marked with. */
  function Subject(kind: InfoKind): (s: string)
    ensures kind == Arrivals <==> s == "arrivals"
    ensures kind == Departures <==> s == "departures"
  {
    match kind
    case Arrivals => "arrivals"
    case Departures => "departures"
  }

  /** The entry of a station: "<class name>/<station id>/last-result.json". */
  function EntryName(className: string, stationId: string): (name: string)
    ensures |name| == |className| + |stationId| + 18
    ensures name[..|className|] == className && name[|className|] == '/'
    ensures name[|name| - 17..] == "/last-result.json"
    ensures name[|className| + 1..|name| - 17] == stationId
  {
    className + "/" + stationId + "/last-result.json"
  }

  datatype StationInfoCache = StationInfoCache(entry: CacheEntry)

  /** The constructor: the station's entry, created with the fetch interval as its lifetime
      unless its file already exists. */
  function NewStationInfoCache(store: Store, className: string, stationId: string, dataFetchInterval: int)
    : (c: StationInfoCache)
    ensures c.entry.name == EntryName(className, stationId)
    ensures !HasEntry(store, EntryName(className, stationId)) ==>
              c.entry.validForSeconds == Some(dataFetchInterval) && c.entry.data == JNull
    ensures HasEntry(store, EntryName(className, stationId)) ==>
              c.entry == GetEntry(store, EntryName(className, stationId))
  {
    StationInfoCache(GetOrCreateEntry(store, EntryName(className, stationId), dataFetchInterval))
  }

  /** `$info->time >= start && $info->time <= end`, with `start` and `end` written as "H:i:s".
      PHP compares these texts as strings; a missing or null time compares like "", an integer
      like its decimal digits, `true` like any non-empty text and `false` like none; arrays and
      objects are greater than any string. */
  predicate InWindow(info: Json, start: int, end: int) {
    var lo, hi := FormatHis(start), FormatHis(end);
    var time := Field(info, "time");
    if time.None? then LexLe(lo, "") && LexLe("", hi)
    else match time.value
      case JNull => LexLe(lo, "") && LexLe("", hi)
      case JString(s) => LexLe(lo, s) && LexLe(s, hi)
      case JInt(i) => LexLe(lo, IntToDecimal(i)) && LexLe(IntToDecimal(i), hi)
      case JBool(b) => b
      case _ => false
  }

  /** The infos a test keeps, in order, and whether any was left out. */
  function Sift(keep: Json -> bool, infos: seq<Json>): (r: (seq<Json>, bool))
    ensures |r.0| <= |infos|
    decreases |infos|
  {
    if |infos| == 0 then ([], false)
    else
      var r := Sift(keep, infos[..|infos| - 1]);
      if keep(infos[|infos| - 1]) then (r.0 + [infos[|infos| - 1]], r.1)
      else (r.0, true)
  }

  /** Sifting keeps exactly the infos that pass, and reports a removal exactly when some info
      fails; with none failing, the list is kept as it is. */
  lemma {:induction false} SiftSpec(keep: Json -> bool, infos: seq<Json>)
    ensures var r := Sift(keep, infos);
      (r.1 <==> exists i :: 0 <= i < |infos| && !keep(infos[i]))
      && (forall x :: x in r.0 ==> x in infos && keep(x))
      && (forall i :: 0 <= i < |infos| && keep(infos[i]) ==> infos[i] in r.0)
      && (!r.1 <==> r.0 == infos)
    decreases |infos|
  {
    if |infos| > 0 {
      var front := infos[..|infos| - 1];
      var last := infos[|infos| - 1];
      SiftSpec(keep, front);
      var r := Sift(keep, front);
      assert forall i :: 0 <= i < |front| ==> front[i] == infos[i];
      assert forall x :: x in front ==> x in infos;
      assert infos == front + [last];
      if !keep(last) {
        assert |r.0| < |infos|;
      }
    }
  }

  /** The `foreach` of `loadCachedInfos` over the first infos: those inside the window, in
      order, and whether any was left out. */
  function Trim(infos: seq<Json>, start: int, end: int): (r: (seq<Json>, bool))
    ensures |r.0| <= |infos|
  {
    Sift(info => InWindow(info, start, end), infos)
  }

  /** Trimming keeps exactly the infos inside the window, and reports a removal exactly when
      some info lies outside; with none outside, the list is kept as it is. */
  lemma TrimSpec(infos: seq<Json>, start: int, end: int)
    ensures var r := Trim(infos, start, end);
      (r.1 <==> exists i :: 0 <= i < |infos| && !InWindow(infos[i], start, end))
      && (forall x :: x in r.0 ==> x in infos && InWindow(x, start, end))
      && (forall i :: 0 <= i < |infos| && InWindow(infos[i], start, end) ==> infos[i] in r.0)
      && (!r.1 <==> r.0 == infos)
  {
    SiftSpec(info => InWindow(info, start, end), infos);
  }

  /** One more info: kept when inside the window, noted as left out otherwise. */
  lemma TrimAppend(infos: seq<Json>, info: Json, start: int, end: int)
    ensures Trim(infos + [info], start, end) ==
      if InWindow(info, start, end) then (Trim(infos, start, end).0 + [info], Trim(infos, start, end).1)
      else (Trim(infos, start, end).0, true)
  {
    assert (infos + [info])[..|infos|] == infos;
  }

  /** Trimming a trimmed list changes nothing. */
  lemma TrimIdempotent(infos: seq<Json>, start: int, end: int)
    ensures Trim(Trim(infos, start, end).0, start, end) == (Trim(infos, start, end).0, false)
  {
    TrimSpec(infos, start, end);
    TrimSpec(Trim(infos, start, end).0, start, end);
  }

  /** Comparing the cached "H:i:s" time of an event with the window agrees with comparing the
      times of day themselves. */
  lemma EventInWindow(ev: StationEvent, start: int, end: int)
    ensures InWindow(ToJsonObject(ev), start, end) <==>
      TimeOfDay(start) <= TimeOfDay(ev.time) <= TimeOfDay(end)
  {
    FormatHisOrder(start, ev.time);
    FormatHisOrder(ev.time, end);
  }

  /** The result of `loadCachedInfos`: `false` on a miss, otherwise the infos, with the cache
      and the cache directory as they are afterwards. */
  datatype CacheRead = Miss | Hit(infos: seq<Json>, cache: StationInfoCache, store: Store)

  /** `loadCachedInfos`: a miss unless the entry holds infos of that kind and is still valid;
      otherwise the cached infos inside the window. If any had to be left out, the trimmed list
      replaces the cached data and the entry is saved. */
  function LoadCachedInfos(c: StationInfoCache, store: Store, kind: InfoKind, referenceTime: int,
                           start: int, end: int): (r: CacheRead)
    ensures r.Miss? <==> !(IsFor(c.entry, Subject(kind)) && IsValid(c.entry, referenceTime))
    ensures r.Hit? ==> r.infos == Trim(Elements(c.entry.data), start, end).0
    ensures r.Hit? ==> forall i :: 0 <= i < |r.infos| ==> InWindow(r.infos[i], start, end)
    ensures r.Hit? ==> r.cache.entry.name == c.entry.name && r.cache.entry.subject == c.entry.subject
                       && r.cache.entry.createTimestamp == c.entry.createTimestamp
                       && r.cache.entry.validForSeconds == c.entry.validForSeconds
    ensures r.Hit? && r.infos == Elements(c.entry.data) ==> r.cache == c && r.store == store
    ensures r.Hit? && r.infos != Elements(c.entry.data) ==>
              r.cache.entry.data == JArray(r.infos) && r.store == Save(store, r.cache.entry)
  {
    TrimSpec(Elements(c.entry.data), start, end);
    if IsFor(c.entry, Subject(kind)) && IsValid(c.entry, referenceTime) then
      var trimmed := Trim(Elements(c.entry.data), start, end);
      if trimmed.1 then
        var e := SetData(c.entry, JArray(trimmed.0));
        Hit(trimmed.0, StationInfoCache(e), Save(store, e))
      else Hit(trimmed.0, c, store)
    else Miss
  }

  /** The same trimming, written as the loop of the source. */
  method TrimLoop(cached: seq<Json>, start: int, end: int) returns (infos: seq<Json>, outside: bool)
    ensures (infos, outside) == Trim(cached, start, end)
  {
    infos, outside := [], false;
    var i := 0;
    while i < |cached|
      invariant 0 <= i <= |cached|
      invariant (infos, outside) == Trim(cached[..i], start, end)
    {
      assert cached[..i + 1][..i] == cached[..i];
      if InWindow(cached[i], start, end) {
        infos := infos + [cached[i]];
      } else {
        outside := true;
      }
      i := i + 1;
    }
    assert cached[..i] == cached;
  }

  /** `getArrivals`. */
  function GetArrivals(c: StationInfoCache, store: Store, referenceTime: int, start: int, end: int)
    : (r: CacheRead)
    ensures r.Miss? <==> !(IsFor(c.entry, "arrivals") && IsValid(c.entry, referenceTime))
  {
    LoadCachedInfos(c, store, Arrivals, referenceTime, start, end)
  }

  /** `getDepartures`. */
  function GetDepartures(c: StationInfoCache, store: Store, referenceTime: int, start: int, end: int)
    : (r: CacheRead)
    ensures r.Miss? <==> !(IsFor(c.entry, "departures") && IsValid(c.entry, referenceTime))
  {
    LoadCachedInfos(c, store, Departures, referenceTime, start, end)
  }

  /** `cacheInfos`: the infos become the entry's data, marked with their kind and stamped with
      the reference time, and the entry is saved. The lifetime stays. */
  function CacheInfos(c: StationInfoCache, store: Store, kind: InfoKind, referenceTime: int, infos: seq<Json>)
    : (r: (StationInfoCache, Store))
    ensures r.0.entry == CacheEntry(c.entry.name, c.entry.validForSeconds, Some(referenceTime), JArray(infos),
                                    Some(Subject(kind)))
    ensures r.1 == Save(store, r.0.entry)
  {
    var e := SetCreateTimestamp(SetFor(SetData(c.entry, JArray(infos)), Subject(kind)), referenceTime);
    (StationInfoCache(e), Save(store, e))
  }

  /** `setArrivals`. */
  function SetArrivals(c: StationInfoCache, store: Store, referenceTime: int, infos: seq<Json>)
    : (r: (StationInfoCache, Store))
    ensures IsFor(r.0.entry, "arrivals") && r.0.entry.data == JArray(infos)
  {
    CacheInfos(c, store, Arrivals, referenceTime, infos)
  }

  /** `setDepartures`. */
  function SetDepartures(c: StationInfoCache, store: Store, referenceTime: int, infos: seq<Json>)
    : (r: (StationInfoCache, Store))
    ensures IsFor(r.0.entry, "departures") && r.0.entry.data == JArray(infos)
  {
    CacheInfos(c, store, Departures, referenceTime, infos)
  }

  /** Infos cached with a lifetime are read back unchanged as long as the lifetime lasts and
      they all lie inside the window; infos of the other kind are never read from them. */
  lemma {:induction false} CacheThenLoad(c: StationInfoCache, store: Store, kind: InfoKind, other: InfoKind,
                                         referenceTime: int, now: int, infos: seq<Json>, start: int, end: int)
    requires c.entry.validForSeconds.Some? && now <= referenceTime + c.entry.validForSeconds.value
    requires forall i :: 0 <= i < |infos| ==> InWindow(infos[i], start, end)
    requires other != kind
    ensures var (c', store') := CacheInfos(c, store, kind, referenceTime, infos);
      LoadCachedInfos(c', store', kind, now, start, end) == Hit(infos, c', store')
      && LoadCachedInfos(c', store', other, now, start, end) == Miss
  {
    var (c', store') := CacheInfos(c, store, kind, referenceTime, infos);
    assert Elements(c'.entry.data) == infos;
    TrimSpec(infos, start, end);
    assert Subject(other) != Subject(kind);
  }

  /** An empty list cached for a kind is a hit, not a miss: nothing is fetched again while the
      entry lasts. */
  lemma {:induction false} EmptyListHit(c: StationInfoCache, store: Store, kind: InfoKind, referenceTime: int,
                                        start: int, end: int)
    requires IsFor(c.entry, Subject(kind)) && c.entry.data == JArray([])
    requires c.entry.createTimestamp.Some? && c.entry.validForSeconds.Some?
    requires referenceTime <= c.entry.createTimestamp.value + c.entry.validForSeconds.value
    ensures LoadCachedInfos(c, store, kind, referenceTime, start, end) == Hit([], c, store)
  {
    TrimSpec([], start, end);
  }

  /** A trimmed list written back is what the station's entry reads as afterwards: reading
      the cache again right away returns the same infos without writing again. */
  lemma {:induction false} TrimPersists(c: StationInfoCache, store: Store, kind: InfoKind, referenceTime: int,
                                        start: int, end: int)
    requires LoadCachedInfos(c, store, kind, referenceTime, start, end).Hit?
    ensures var r := LoadCachedInfos(c, store, kind, referenceTime, start, end);
      LoadCachedInfos(r.cache, r.store, kind, referenceTime, start, end) == Hit(r.infos, r.cache, r.store)
  {
    var r := LoadCachedInfos(c, store, kind, referenceTime, start, end);
    if r.infos != Elements(c.entry.data) {
      TrimIdempotent(Elements(c.entry.data), start, end);
      var e := r.cache.entry;
      assert e.data == JArray(r.infos) && Elements(e.data) == r.infos;
      assert IsFor(e, Subject(kind)) && IsValid(e, referenceTime);
      assert Trim(Elements(e.data), start, end) == (r.infos, false);
    }
  }

  function Hms(h: int, m: int, s: int): int { (h * 60 + m) * 60 + s }

  /** A cached info holding nothing but its time. */
  function TimeInfo(t: int): Json {
    JObject([("time", JString(FormatHis(t)))])
  }

  lemma TimeInfoInWindow(t: int, start: int, end: int)
    ensures InWindow(TimeInfo(t), start, end) <==> TimeOfDay(start) <= TimeOfDay(t) <= TimeOfDay(end)
  {
    FormatHisOrder(start, t);
    FormatHisOrder(t, end);
  }

  /** Trimming works info by info: a list split in two trims to the two trimmed halves. */
  lemma {:induction false} TrimConcat(xs: seq<Json>, ys: seq<Json>, start: int, end: int)
    ensures Trim(xs + ys, start, end) ==
      (Trim(xs, start, end).0 + Trim(ys, start, end).0, Trim(xs, start, end).1 || Trim(ys, start, end).1)
    decreases |ys|
  {
    if |ys| > 0 {
      var front := ys[..|ys| - 1];
      var last := ys[|ys| - 1];
      assert xs + ys == (xs + front) + [last];
      assert ys == front + [last];
      TrimAppend(xs + front, last, start, end);
      TrimAppend(front, last, start, end);
      TrimConcat(xs, front, start, end);
      var a, b := Trim(xs, start, end).0, Trim(front, start, end).0;
      assert (a + b) + [last] == a + (b + [last]);
    } else {
      assert xs + ys == xs;
      assert Trim(xs, start, end).0 + [] == Trim(xs, start, end).0;
    }
  }

  /** What trimming keeps of one info. */
  function Kept(info: Json, start: int, end: int): seq<Json> {
    if InWindow(info, start, end) then [info] else []
  }

  lemma TrimThree(p: Json, q: Json, r: Json, start: int, end: int)
    ensures Trim([p, q, r], start, end).0 == Kept(p, start, end) + Kept(q, start, end) + Kept(r, start, end)
    ensures Trim([p, q, r], start, end).1 ==
      !(InWindow(p, start, end) && InWindow(q, start, end) && InWindow(r, start, end))
  {
    TrimAppend([], p, start, end);
    assert [p] == [] + [p];
    assert Trim([p], start, end).0 == Kept(p, start, end);
    TrimAppend([p], q, start, end);
    assert [p, q] == [p] + [q];
    TrimAppend([p, q], r, start, end);
    assert [p, q, r] == [p, q] + [r];
  }

  /** An info of today against a window of today. */
  lemma TodayInWindow(t: int, start: int, end: int)
    requires 0 <= t < SecondsPerDay && 0 <= start < SecondsPerDay && 0 <= end < SecondsPerDay
    ensures InWindow(TimeInfo(t), start, end) <==> start <= t <= end
  {
    TimeOfDayToday(start);
    TimeOfDayToday(end);
    TimeOfDayToday(t);
    TimeInfoInWindow(t, start, end);
  }

  /** Nine infos, of which the second, third, fifth and seventh lie inside the window. */
  lemma TrimPattern(a: Json, b: Json, c: Json, d: Json, e: Json, f: Json, g: Json, h: Json, i: Json,
                    start: int, end: int)
    requires !InWindow(a, start, end) && InWindow(b, start, end) && InWindow(c, start, end)
    requires !InWindow(d, start, end) && InWindow(e, start, end) && !InWindow(f, start, end)
    requires InWindow(g, start, end) && !InWindow(h, start, end) && !InWindow(i, start, end)
    ensures var r := Trim([a, b, c, d, e, f, g, h, i], start, end);
      r.1 && |r.0| == 4 && r.0[0] == b && r.0[1] == c && r.0[2] == e && r.0[3] == g
  {
    var xs := [a, b, c] + [d, e, f];
    assert [a, b, c, d, e, f, g, h, i] == xs + [g, h, i];
    TrimConcat(xs, [g, h, i], start, end);
    TrimConcat([a, b, c], [d, e, f], start, end);
    TrimThree(a, b, c, start, end);
    TrimThree(d, e, f, start, end);
    TrimThree(g, h, i, start, end);
  }

  /** The arrivals of the repository's trimming test, cached for 07:34 to 14:01 and held at
      07:29, 11:15, 11:30, 14:06, 14:01, 06:09, 07:34, 07:33:59 and 14:01:01: whatever the
      exact times, infos placed like these relative to the window trim to the second, third,
      fifth and seventh, the two on the limits included. */
  lemma ExampleTrim(start: int, end: int, t1: int, t2: int, t3: int, t4: int, t5: int, t6: int, t7: int,
                    t8: int, t9: int)
    requires 0 <= t6 < t1 < t8 < t7 == start < t2 < t3 < t5 == end < t9 < t4 < SecondsPerDay
    ensures var r := Trim([TimeInfo(t1), TimeInfo(t2), TimeInfo(t3), TimeInfo(t4), TimeInfo(t5),
                           TimeInfo(t6), TimeInfo(t7), TimeInfo(t8), TimeInfo(t9)], start, end);
      r.1 && r.0 == [TimeInfo(t2), TimeInfo(t3), TimeInfo(t5), TimeInfo(t7)]
  {
    TodayInWindow(t1, start, end);
    TodayInWindow(t2, start, end);
    TodayInWindow(t3, start, end);
    TodayInWindow(t4, start, end);
    TodayInWindow(t5, start, end);
    TodayInWindow(t6, start, end);
    TodayInWindow(t7, start, end);
    TodayInWindow(t8, start, end);
    TodayInWindow(t9, start, end);
    TrimPattern(TimeInfo(t1), TimeInfo(t2), TimeInfo(t3), TimeInfo(t4), TimeInfo(t5),
                TimeInfo(t6), TimeInfo(t7), TimeInfo(t8), TimeInfo(t9), start, end);
  }

  /** The test's times satisfy that placement. */
  lemma ExampleTimesPlacement()
    ensures 0 <= Hms(6, 9, 0) < Hms(7, 29, 0) < Hms(7, 33, 59) < Hms(7, 34, 0) < Hms(11, 15, 0) < Hms(11, 30, 0)
            < Hms(14, 1, 0) < Hms(14, 1, 1) < Hms(14, 6, 0) < SecondsPerDay
  {
  }
}

=== FILE: stationinfoloader.dfy ===
/** `StationInfoLoader`: the infos of one station for a time window, from its cache when the
    cache holds them and from its fetcher otherwise. */
module StationInfoLoaders {
  import opened Wrappers
  import opened JsonValues
  import opened Clock
  import opened CacheEntries
  import opened Caching
  import opened StationEvents
  import opened StationInfoCaches

  /** A `StationInfoFetcher` method: the events of the window from `start` to `end`, or the
      exception the fetch raises. */
  type Fetch = (int, int) -> Result<seq<StationEvent>>

  datatype StationInfoLoader = StationInfoLoader(
    cache: StationInfoCache,
    fetchArrivals: Fetch,
    fetchDepartures: Fetch)

  /** The infos a load returns, with the station's cache and the cache directory afterwards. */
  datatype Loaded = Loaded(infos: seq<Json>, cache: StationInfoCache, store: Store)

  /** The fetcher method of the kind. */
  function FetchOf(l: StationInfoLoader, kind: InfoKind): Fetch {
    if kind == Arrivals then l.fetchArrivals else l.fetchDepartures
  }

  /** `array_map` of `toJsonObject` over fetched events. */
  function ToJsonObjects(events: seq<StationEvent>): (r: seq<Json>)
    ensures |r| == |events|
    ensures forall i :: 0 <= i < |r| ==> r[i] == ToJsonObject(events[i])
  {
    seq(|events|, i requires 0 <= i < |events| => ToJsonObject(events[i]))
  }

  /** `loadArrivals` / `loadDepartures`: nothing for an inverted window; otherwise the cached
      infos on a hit, and on a miss the fetched events as JSON objects, which are cached. */
  function Load(l: StationInfoLoader, store: Store, kind: InfoKind, referenceTime: int, start: int, end: int)
    : (r: Result<Loaded>)
    ensures end < start ==> r == Success(Loaded([], l.cache, store))
    ensures start <= end && LoadCachedInfos(l.cache, store, kind, referenceTime, start, end).Hit? ==>
      var hit := LoadCachedInfos(l.cache, store, kind, referenceTime, start, end);
      r == Success(Loaded(hit.infos, hit.cache, hit.store))
    ensures start <= end && LoadCachedInfos(l.cache, store, kind, referenceTime, start, end).Miss? ==>
      (r.Success? <==> FetchOf(l, kind)(start, end).Success?)
    ensures start <= end && LoadCachedInfos(l.cache, store, kind, referenceTime, start, end).Miss? && r.Success? ==>
      var fetched := FetchOf(l, kind)(start, end).value;
      |r.value.infos| == |fetched|
      && (forall i :: 0 <= i < |fetched| ==> r.value.infos[i] == ToJsonObject(fetched[i]))
      && r.value.cache.entry.data == JArray(r.value.infos)
      && IsFor(r.value.cache.entry, Subject(kind))
      && r.value.cache.entry.createTimestamp == Some(referenceTime)
      && r.value.cache.entry.validForSeconds == l.cache.entry.validForSeconds
      && r.value.store == Save(store, r.value.cache.entry)
  {
    if end < start then Success(Loaded([], l.cache, store))
    else
      match LoadCachedInfos(l.cache, store, kind, referenceTime, start, end)
      case Hit(infos, c, s) => Success(Loaded(infos, c, s))
      case Miss =>
        var fetched := FetchOf(l, kind)(start, end);
        if fetched.Failure? then Failure(fetched.error)
        else
          var infos := ToJsonObjects(fetched.value);
          var cached := CacheInfos(l.cache, store, kind, referenceTime, infos);
          Success(Loaded(infos, cached.0, cached.1))
  }

  /** `loadArrivals`. */
  function LoadArrivals(l: StationInfoLoader, store: Store, referenceTime: int, start: int, end: int)
    : (r: Result<Loaded>)
    ensures end < start ==> r == Success(Loaded([], l.cache, store))
    ensures start <= end && GetArrivals(l.cache, store, referenceTime, start, end).Miss? ==>
      (r.Success? <==> l.fetchArrivals(start, end).Success?)
    ensures r.Success? ==> r.value.cache.entry.name == l.cache.entry.name
  {
    Load(l, store, Arrivals, referenceTime, start, end)
  }

  /** `loadDepartures`. */
  function LoadDepartures(l: StationInfoLoader, store: Store, referenceTime: int, start: int, end: int)
    : (r: Result<Loaded>)
    ensures end < start ==> r == Success(Loaded([], l.cache, store))
    ensures start <= end && GetDepartures(l.cache, store, referenceTime, start, end).Miss? ==>
      (r.Success? <==> l.fetchDepartures(start, end).Success?)
    ensures r.Success? ==> r.value.cache.entry.name == l.cache.entry.name
  {
    Load(l, store, Departures, referenceTime, start, end)
  }

  /** A load consults only the cache and the fetcher of its own kind: two loaders with the
      same cache and the same fetcher of that kind load the same, whatever their other
      fetcher does. */
  lemma {:induction false} LoadUsesOwnFetcher(l: StationInfoLoader, l': StationInfoLoader, store: Store,
                                              kind: InfoKind, referenceTime: int, start: int, end: int)
    requires l.cache == l'.cache
    requires forall a, b :: FetchOf(l, kind)(a, b) == FetchOf(l', kind)(a, b)
    ensures Load(l, store, kind, referenceTime, start, end) == Load(l', store, kind, referenceTime, start, end)
  {
  }

  /** An inverted window returns nothing, whatever the cache holds and the fetcher would do. */
  lemma InvertedWindowIgnoresCache(l: StationInfoLoader, l': StationInfoLoader, store: Store, kind: InfoKind,
                                   referenceTime: int, start: int, end: int)
    requires end < start
    ensures Load(l, store, kind, referenceTime, start, end).value.infos == []
    ensures Load(l, store, kind, referenceTime, start, end).value.infos
            == Load(l', store, kind, referenceTime, start, end).value.infos
  {
  }

  /** Loading right after a miss that fetched events inside the window is a hit that returns the
      same infos and writes nothing, as long as the entry's lifetime lasts: the fetcher is not
      called a second time. */
  lemma {:induction false} FetchThenHit(l: StationInfoLoader, store: Store, kind: InfoKind, referenceTime: int,
                                        now: int, start: int, end: int, fetchArrivals: Fetch, fetchDepartures: Fetch)
    requires start <= end
    requires LoadCachedInfos(l.cache, store, kind, referenceTime, start, end).Miss?
    requires FetchOf(l, kind)(start, end).Success?
    requires var events := FetchOf(l, kind)(start, end).value;
      forall i :: 0 <= i < |events| ==> TimeOfDay(start) <= TimeOfDay(events[i].time) <= TimeOfDay(end)
    requires l.cache.entry.validForSeconds.Some? && now <= referenceTime + l.cache.entry.validForSeconds.value
    ensures var first := Load(l, store, kind, referenceTime, start, end).value;
      Load(StationInfoLoader(first.cache, fetchArrivals, fetchDepartures), first.store, kind, now, start, end)
        == Success(first)
  {
    var events := FetchOf(l, kind)(start, end).value;
    var infos := ToJsonObjects(events);
    forall i | 0 <= i < |infos| ensures InWindow(infos[i], start, end) {
      EventInWindow(events[i], start, end);
    }
    var other := if kind == Arrivals then Departures else Arrivals;
    CacheThenLoad(l.cache, store, kind, other, referenceTime, now, infos, start, end);
  }

  /** The loads of the repository's tests: one fetched event comes back as its JSON object. */
  lemma FetchedEventExample(c: StationInfoCache, store: Store, referenceTime: int, start: int, end: int,
                            ev: StationEvent)
    requires start <= end
    requires !IsValid(c.entry, referenceTime)
    ensures var l := StationInfoLoader(c, (a, b) => Success([ev]), (a, b) => Success([ev]));
      LoadArrivals(l, store, referenceTime, start, end).value.infos == [ToJsonObject(ev)]
      && LoadDepartures(l, store, referenceTime, start, end).value.infos == [ToJsonObject(ev)]
  {
    var l := StationInfoLoader(c, (a, b) => Success([ev]), (a, b) => Success([ev]));
    assert ToJsonObjects([ev]) == [ToJsonObject(ev)];
  }
}

=== FILE: text.dfy ===
/** Character and string helpers standing for the PHP string functions the core uses:
    decimal conversion (`(int)` casts and int-to-string coercion), `strtolower`, `join`,
    and PHP's byte-wise comparison of two non-numeric strings. */
module Text {

  predicate IsDigit(c: char) {
    '0' <= c <= '9'
  }

  predicate AllDigits(s: string) {
    forall i :: 0 <= i < |s| ==> IsDigit(s[i])
  }

  /** The character of a decimal digit. */
  function Digit(d: int): (c: char)
    requires 0 <= d < 10
    ensures IsDigit(c)
    ensures c as int - '0' as int == d
  {
    (48 + d) as char
  }

  function DigitValue(c: char): (d: int)
    requires IsDigit(c)
    ensures 0 <= d < 10
  {
    c as int - '0' as int
  }

  /** The value of a string of decimal digits, leading zeros allowed (PHP's `(int)"007"` is 7). */
  function DigitsValue(s: string): nat
    requires AllDigits(s)
  {
    if |s| == 0 then 0 else 10 * DigitsValue(s[..|s| - 1]) + DigitValue(s[|s| - 1])
  }

  /** The shortest decimal representation of `n`. */
  function NatToDecimal(n: nat): (s: string)
    ensures |s| > 0 && AllDigits(s)
    ensures |s| > 1 ==> s[0] != '0'
  {
    if n < 10 then [Digit(n)] else NatToDecimal(n / 10) + [Digit(n % 10)]
  }

  /** PHP's conversion of an integer to a string. */
  function IntToDecimal(i: int): string {
    if i < 0 then "-" + NatToDecimal(-i) else NatToDecimal(i)
  }

  /** Reading back a decimal representation gives the number. */
  lemma {:induction false} DecimalRoundTrip(n: nat)
    ensures DigitsValue(NatToDecimal(n)) == n
  {
    if n >= 10 {
      var s := NatToDecimal(n);
      var p := NatToDecimal(n / 10);
      assert s == p + [Digit(n % 10)];
      assert s[..|s| - 1] == p;
      DecimalRoundTrip(n / 10);
    }
  }

  function LowerChar(c: char): char {
    if 'A' <= c <= 'Z' then (c as int + 32) as char else c
  }

  /** PHP's `strtolower` in the default locale: ASCII letters only. */
  function Lower(s: string): (r: string)
    ensures |r| == |s|
    ensures forall i :: 0 <= i < |s| ==> r[i] == LowerChar(s[i])
  {
    seq(|s|, i requires 0 <= i < |s| => LowerChar(s[i]))
  }

  /** PHP's `join(sep, list)`. */
  function Join(sep: string, xs: seq<string>): string {
    if |xs| == 0 then ""
    else if |xs| == 1 then xs[0]
    else xs[0] + sep + Join(sep, xs[1..])
  }

  /** Appending to a non-empty list appends the separator and the new part to the joined text. */
  lemma {:induction false} JoinAppend(sep: string, xs: seq<string>, x: string)
    requires |xs| > 0
    ensures Join(sep, xs + [x]) == Join(sep, xs) + sep + x
    decreases |xs|
  {
    if |xs| > 1 {
      assert (xs + [x])[1..] == xs[1..] + [x];
      JoinAppend(sep, xs[1..], x);
    } else {
      assert xs + [x] == [xs[0], x];
      assert [xs[0], x][1..] == [x];
    }
  }

  /** PHP's `a <= b` on two strings that are not both numeric: byte order, then length.
      Dafny characters compare by code point, which is the byte order of their UTF-8 form. */
  predicate LexLe(a: string, b: string) {
    if |a| == 0 then true
    else if |b| == 0 then false
    else if a[0] != b[0] then a[0] < b[0]
    else LexLe(a[1..], b[1..])
  }

  lemma {:induction false} LexLeReflexive(a: string)
    ensures LexLe(a, a)
  {
    if |a| > 0 {
      LexLeReflexive(a[1..]);
    }
  }

  lemma {:induction false} LexLeTotal(a: string, b: string)
    ensures LexLe(a, b) || LexLe(b, a)
  {
    if |a| > 0 && |b| > 0 && a[0] == b[0] {
      LexLeTotal(a[1..], b[1..]);
    }
  }

  lemma {:induction false} LexLeAntisymmetric(a: string, b: string)
    requires LexLe(a, b) && LexLe(b, a)
    ensures a == b
  {
    if |a| > 0 && |b| > 0 {
      LexLeAntisymmetric(a[1..], b[1..]);
      assert a == [a[0]] + a[1..];
      assert b == [b[0]] + b[1..];
    }
  }

  lemma {:induction false} LexLeTransitive(a: string, b: string, c: string)
    requires LexLe(a, b) && LexLe(b, c)
    ensures LexLe(a, c)
  {
    if |a| > 0 && |b| > 0 && |c| > 0 && a[0] == b[0] && b[0] == c[0] {
      LexLeTransitive(a[1..], b[1..], c[1..]);
    }
  }

  /** Comparing two strings that start with blocks of equal length: a difference in the blocks
      decides, otherwise the rests do. */
  lemma {:induction false} LexLeSplit(p: string, r: string, q: string, s: string)
    requires |p| == |q|
    ensures p != q ==> (LexLe(p + r, q + s) <==> LexLe(p, q))
    ensures p == q ==> (LexLe(p + r, q + s) <==> LexLe(r, s))
  {
    if |p| > 0 {
      assert (p + r)[0] == p[0] && (q + s)[0] == q[0];
      assert (p + r)[1..] == p[1..] + r;
      assert (q + s)[1..] == q[1..] + s;
      LexLeSplit(p[1..], r, q[1..], s);
      if p[0] == q[0] && p[1..] == q[1..] {
        assert p == [p[0]] + p[1..] && q == [q[0]] + q[1..];
      }
    } else {
      assert p + r == r && q + s == s;
    }
  }
}

=== FILE: wrappers.dfy ===
/** Failure-carrying wrappers shared by every module of the model.
    A PHP exception becomes `Failure(message)`; a nullable value becomes `Option`. */
module Wrappers {

  datatype Option<+T> = None | Some(value: T)

  /** The result of an operation that may throw: the value, or the exception message. */
  datatype Result<+T> = Success(value: T) | Failure(error: string)

  /** The result of an operation that returns nothing but may throw. */
  datatype Outcome = Pass | Fail(error: string)
}
